=== FILE: README.md ===
# AI project dashboard: a verified model of its logic

The dashboard lets staff configure "AI assistant" projects. A project has a
name, instructions, a model from a fixed catalogue, retrieval and memory
settings, knowledge files and sharing rules. This Dafny project models the
deterministic logic inside the dashboard's UI and service files and proves
what that logic promises. The modelled pieces are:

- the viewer-versus-editor access decision and the scaffold merge (`App`);
- the DynamoDB-style template normaliser, provider classifier, model picker,
  template filter and template application (`Templates`);
- the inference dispatcher: the mock, placeholder and no-match texts, and the
  request bodies of the three live providers (`Infer`);
- the scaffold generator: the heuristic, the JSON slice selection and the
  provider fallback order (`Scaffold`);
- the project store and the favourites list (`Store`);
- the project record and its defaults (`Types`);
- the viewer page: the effective project, attachments, history window and
  write-back (`Viewer`);
- the editor's draft (`Editor`) and the share dialog's draft (`Share`);
- the layout settings (`Layout`) and the dashboard sections (`Dashboard`);
- the projects page (`ProjectsPage`) and one project row (`ProjectRow`);
- the Learn page and its articles (`Learn`, `Articles`);
- the guided setup prompt (`Guided`);
- the sidebar's active link and collapsed flag (`Sidebar`).

The helper modules are:

- `Wrappers`: Option and Result.
- `Text`: strings as `seq<char>`, with ECMAScript white space, ASCII case
  mapping, `includes`, `indexOf`, `trim`, `split(/\s+/)` and `join`.
- `Lists`: `filter`, Set-based deduplication, code-unit sort and
  subsequences.
- `Js`: a JSON value type with JavaScript truthiness, `||`, `??`, optional
  property access, `String()` and `Number()`.

Code that changes state in place is modelled as classes with `modifies`
clauses: the store, the favourites, the selection, the drafts, the viewer
session, the template library and the sidebar. Loops are modelled as
methods with invariants, each proved equal to a specification function.
Everything else is pure functions and lemmas.

Clocks, UUIDs, browser storage reads and HTTP replies are parameters. Number
rendering (`String(n)`) and number parsing (`Number(s)`) are the function
fields of a `Js.Host` value, and so is JSON parsing (`parseJson`), which
`Scaffold` uses through that same `Js.Host`.

Where the code and its written description differ, the model follows the
code:

- `safeParseJson` does not retry on the whole text after a failed slice.
- `normalizeProvider` capitalises only the first character and keeps the
  rest ("CustomVendor" stays "CustomVendor").
- `parseDynamoObject` accepts arrays, since `typeof [] === 'object'`.
- A `null` record value makes `parseDynamoObject` throw at `entry.interface`.
  The model gives `None` for that case and does not require every record to
  be a map.
- `listSharedWith` treats a missing `generalAccess` as shared, because
  `undefined !== 'private'`. The dashboard and the route wrapper treat it as
  private.

## Model

| member | source | states |
|---|---|---|
| App.ChooseSurface | src/App.tsx:67-95 | the route shows Loading exactly while the project is unknown, the editor whenever access is 'edit', and the viewer only with view access or a view invite for this email |
| App.HasInvite | src/App.tsx:69-71 | `invites.some(...)` holds exactly when some invite has this exact email and this role |
| App.HasInviteRoles | src/App.tsx:67-71 | the route's invite test agrees with the set of roles the email is invited with; missing invites count as none |
| App.SurfaceMatchesPermission | src/App.tsx:67-95 | the viewer is shown exactly when the independent permission is view-only: no edit access or edit invite, but view access or a view invite; every other case gets the editor |
| App.AnyoneCanEdit | src/App.tsx:70-71 | `generalAccess == 'edit'` gives the editor whatever the invites |
| App.EditInviteWins | src/App.tsx:71-72 | an edit invite for exactly this email gives the editor, even when access is 'view' |
| App.PrivateUninvitedGetsEditor | src/App.tsx:72-95 | a private project with no invite for the email gives the editor, although the user holds no permission |
| App.MissingSharingFieldsArePrivate | src/App.tsx:67-68 | missing access and invites behave as 'private' and `[]` |
| App.InviteEmailCaseSensitive | src/App.tsx:69 | invite emails are compared exactly: a different case does not match |
| App.OpenNewProject | src/App.tsx:26-30 | creates 'Untitled Project', prepends it to the store and navigates to its path |
| App.MergeScaffold | src/App.tsx:40-44 | the scaffold's name, description, category and instructions override the created project; id, createdAt and every other field are kept; updatedAt is now |
| App.GenerateFromPrompt | src/App.tsx:37-48 | creates with the scaffold's name (or 'Untitled Project'), then replaces that project by the merge and navigates to its id |
| App.GeneratedProjectFirst | src/App.tsx:39-45 | with a fresh id, create-then-update leaves the merged project first and the old list behind it |
| Templates.Unwrap | src/pages/TemplatesPage.tsx:10-23 | a falsy value gives undefined; a truthy non-object passes through unchanged; the tags are tried in the order S, N, BOOL, NULL, L, M |
| Templates.UnwrapStringFirst | src/pages/TemplatesPage.tsx:12 | a defined `S` tag wins over every other tag |
| Templates.UnwrapUntagged | src/pages/TemplatesPage.tsx:15-22 | a value with no known tag, or with a falsy `NULL`, is returned as it is |
| Templates.UnwrapList | src/pages/TemplatesPage.tsx:16 | `L` keeps length and order, element by element, and fails exactly when an element fails |
| Templates.UnwrapMap | src/pages/TemplatesPage.tsx:17-20 | `M` keeps the keys in order and unwraps each value |
| Templates.UnwrapMarshal | src/pages/TemplatesPage.tsx:10-23 | unwrap inverts the tagged encoding of every storable value |
| Templates.GroupText | src/pages/TemplatesPage.tsx:142 | one starter group gives its starters joined by "\n- ", or '' when it has none |
| Templates.StarterGroups | src/pages/TemplatesPage.tsx:140 | the interface's starter groups when they form an array, else none |
| Templates.StartersText | src/pages/TemplatesPage.tsx:141-145 | the starters text exists exactly when every group's text does |
| Templates.Lead | src/pages/TemplatesPage.tsx:148 | the fallback's fixed opening sentence is non-empty and starts and ends with non-space characters |
| Templates.PurposeSection | src/pages/TemplatesPage.tsx:149 | the purpose section is present exactly when the fallback description is truthy |
| Templates.UseCasesSection | src/pages/TemplatesPage.tsx:150 | the use-case section is present exactly when use cases form a non-empty array |
| Templates.ExamplesSection | src/pages/TemplatesPage.tsx:151 | the examples section is present exactly when there are starters |
| Templates.RetrievalSection | src/pages/TemplatesPage.tsx:146-152 | the retrieval guidance appears exactly when search is enabled and the search prompt is non-empty |
| Templates.ComposedFallback | src/pages/TemplatesPage.tsx:147-153 | the trimmed fallback always starts with the opening sentence naming the title, so it is never empty |
| Templates.TemperatureOf | src/pages/TemplatesPage.tsx:130-163 | a temperature is kept only from a number or a numeric string, and only when it is not NaN |
| Templates.TitleOf | src/pages/TemplatesPage.tsx:123-158 | the title falls back from project_name to interface.title to 'Untitled' |
| Templates.DescriptionOf | src/pages/TemplatesPage.tsx:124-159 | the description falls back from description to interface.description to none |
| Templates.InstructionsOf | src/pages/TemplatesPage.tsx:129-160 | the first system prompt when truthy, else the composed fallback; either way present |
| Templates.TagsOf | src/pages/TemplatesPage.tsx:134-135 | tags are the use cases when they are an array, else `[]` |
| Templates.CategoryOf | src/pages/TemplatesPage.tsx:155-168 | the category is the first use case, present exactly when there is one |
| Templates.TopKOf | src/pages/TemplatesPage.tsx:133-165 | topK is kept only when the search params give a number |
| Templates.InterfaceFlag | src/pages/TemplatesPage.tsx:136-137 | the upload and voice flags are set only when the interface field is exactly `true` |
| Templates.Build | src/pages/TemplatesPage.tsx:156-171 | the template's id is its key and its instructions are present |
| Templates.RecordToTemplate | src/pages/TemplatesPage.tsx:121-171 | a null or undefined record throws; a converted record has its key as id |
| Templates.ParseEntries | src/pages/TemplatesPage.tsx:120-172 | one template per entry, in entry order, failing exactly when some entry fails |
| Templates.Parse | src/pages/TemplatesPage.tsx:117-119 | null or non-object input gives `[]` |
| Templates.ParsedTemplates | src/pages/TemplatesPage.tsx:120-157 | exactly one template per own key, in key order, with the key as id and instructions present |
| Templates.ConvertAll | src/pages/TemplatesPage.tsx:118-173 | the loop that pushes into `out` returns the specified list |
| Templates.ParseDynamoObject | src/pages/TemplatesPage.tsx:117-174 | the imperative parser equals the specification `Parse` |
| Templates.ParsedIdsDistinct | src/pages/TemplatesPage.tsx:120-157 | parsed template ids are pairwise distinct |
| Templates.NullRecordThrows | src/pages/TemplatesPage.tsx:119-122 | the top-level guard does not catch a null record: reading `entry.interface` throws |
| Templates.Classify | src/pages/TemplatesPage.tsx:179-186 | the first matching family in list order wins; none when no family matches |
| Templates.NormalizeProvider | src/pages/TemplatesPage.tsx:176-188 | '' gives undefined; otherwise the first matching family of the lower-cased value, else the value with its first character upper-cased |
| Templates.ClassifyFamilies | src/pages/TemplatesPage.tsx:179-186 | the family list is exactly the source's chain of `includes` tests, in order |
| Templates.NormalizeClaudeOnBedrock | src/pages/TemplatesPage.tsx:180-186 | "Claude on Bedrock" is Anthropic: the earlier test wins |
| Templates.NormalizeOllama | src/pages/TemplatesPage.tsx:185 | "ollama" is classified as Meta through its "llama" substring |
| Templates.NoFamilyInCustomVendor | src/pages/TemplatesPage.tsx:179-186 | "customvendor" contains none of the family substrings |
| Templates.NormalizeUnknownVendor | src/pages/TemplatesPage.tsx:187 | an unknown vendor keeps the rest of its string unchanged |
| Templates.FirstModel | src/pages/TemplatesPage.tsx:449-452 | the first catalogue position whose provider and id or label contain the lower-cased queries |
| Templates.PickModel | src/pages/TemplatesPage.tsx:445-454 | no provider and no name give null; otherwise the first matching catalogue entry, or null when none matches |
| Templates.CatalogueProviders | src/types.ts:82-131 | the catalogue lists only AWS, OpenAI, Google and Meta models; the first 23 are AWS and the 24th is OpenAI |
| Templates.FirstOpenAIEntry | src/types.ts:82-131 | the first catalogue entry whose provider contains "openai" is entry 23 |
| Templates.PickModelFirst | src/pages/TemplatesPage.tsx:445-454 | the picked model is the catalogue entry at the first matching position |
| Templates.PickModelOpenAI | src/pages/TemplatesPage.tsx:445-454 | provider "OpenAI" in any case picks the first OpenAI catalogue entry |
| Templates.PickModelAnthropic | src/pages/TemplatesPage.tsx:445-454 | provider "Anthropic" picks nothing: the catalogue has no Anthropic provider |
| Templates.Starter | src/pages/TemplatesPage.tsx:197-255 | a built-in template has no provider and no model name |
| Templates.BuiltinsPickNoModel | src/pages/TemplatesPage.tsx:197-255 | applying a built-in template never picks a model |
| Templates.FilterTemplates | src/pages/TemplatesPage.tsx:276-287 | the listed templates are exactly those passing every filter |
| Templates.NoFiltersKeepAll | src/pages/TemplatesPage.tsx:277-283 | a blank query with no other filter keeps every template, in order |
| Templates.ClearingFilterWidens | src/pages/TemplatesPage.tsx:277-283 | clearing any one filter keeps every template that passed |
| Templates.UniqueProviders | src/pages/TemplatesPage.tsx:259-262 | the normalised providers, each once, falsy ones dropped, in the order of their first occurrence among the templates |
| Templates.UniqueCategories | src/pages/TemplatesPage.tsx:267-270 | the categories, each once, falsy ones dropped, in the order of their first occurrence among the templates |
| Templates.UniqueAudiences | src/pages/TemplatesPage.tsx:271-274 | the audiences, each once, falsy ones dropped, in the order of their first occurrence among the templates |
| Templates.AllTags | src/pages/TemplatesPage.tsx:264 | the flattened tags of all templates |
| Templates.UniqueTags | src/pages/TemplatesPage.tsx:263-266 | every tag of every template, each once, in the order of first occurrence in the flattened tag list |
| Templates.ApplyTo | src/pages/TemplatesPage.tsx:292-312 | the title, description, instructions, model, temperature, rag and viewer flags come from the template; every other field of the created project is kept; updatedAt is now |
| Templates.ApplyTemplate | src/pages/TemplatesPage.tsx:289-316 | creates with the title, replaces that project by the applied one and navigates by id |
| Templates.ApplyBuiltin | src/pages/TemplatesPage.tsx:289-316 | a built-in template keeps the default model, turns retrieval off and leaves empty instructions |
| Templates.TemplateLibrary.All | src/pages/TemplatesPage.tsx:257 | built-ins first, then the imported templates |
| Templates.TemplateLibrary.Import | src/pages/TemplatesPage.tsx:90-108 | templates are replaced only when parsing succeeds with at least one template; otherwise they are unchanged |
| Infer.LastUserIndex | src/services/infer.ts:72 | the position of the last user message, or -1 when there is none |
| Infer.LastUser | src/services/infer.ts:72-73 | the last user message, absent exactly when no message is from the user |
| Infer.ChatMessages | src/services/infer.ts:86-146 | a system turn exactly when there are instructions, then the history unchanged |
| Infer.HistoryLines | src/services/infer.ts:114 | one `role: content` line per message, in order |
| Infer.Route | src/services/infer.ts:61-196 | the mock exactly when no key is present; otherwise each live call or placeholder exactly when the model's provider is that family and its key is present; else no match |
| Infer.Finish | src/services/infer.ts:102-172 | OpenAI is the shared chat handling; Llama's successes pass through and every failure is wrapped as "Llama API call failed: ..."; Gemini throws "Gemini error: status body" on a non-2xx reply, passes parse and network errors through, and otherwise returns the first candidate's first part text, or '' |
| Infer.FinishChat | src/services/infer.ts:102-107 | a network error passes through; a non-2xx reply throws with the status and the body; a parse error passes through; a `null` body throws reading `choices`; any other body returns the first choice's content, or '' |
| Infer.ReplyText | src/services/infer.ts:107-137 | a string reply is returned; a missing one gives '' |
| Infer.ChatOnce | src/services/infer.ts:61-197 | without any key the result is the mock text; only the three live branches can fail |
| Infer.MockIgnoresNetwork | src/services/infer.ts:71-80 | the mock does not depend on any network reply |
| Infer.MockTextParts | src/services/infer.ts:76-79 | the mock names provider and label and contains the settings and the system/input echo |
| Infer.MockSettingsCases | src/services/infer.ts:74-75 | `RAG(topK=...)` or `RAG(disabled)`, and `memory(window=...)` or `memory(disabled)` |
| Infer.SystemOrNoneCases | src/services/infer.ts:77 | the instructions or '(none)' |
| Infer.ChatBodyShape | src/services/infer.ts:84-150 | OpenAI and Meta bodies carry the model id and the messages; only Meta sets `stream: false` |
| Infer.GeminiRequestShape | src/services/infer.ts:110-130 | an optional system block and one user block of the joined history lines; the model id and key are in the URL; no bearer token |
| Infer.UnservedProviders | src/services/infer.ts:195-196 | with some key, Anthropic and Mistral models get the no-match text |
| Infer.ChatReplyContent | src/services/infer.ts:106-107 | any 2xx reply whose first choice has string content returns that content, whatever else the body holds |
| Infer.ChatReplyEmpty | src/services/infer.ts:107 | any 2xx reply whose parsed body has no `choices` returns '' |
| Infer.PlaceholderMentions | src/services/infer.ts:175-193 | a placeholder names the provider and model id and echoes the last user prompt |
| Scaffold.HeuristicCategory | src/services/scaffold.ts:86-90 | quiz or grade, then study or student, then faq or assistant, else Teaching, on the lower-cased input |
| Scaffold.HeuristicName | src/services/scaffold.ts:91-99 | 'Untitled Project' up to 3 characters; otherwise at most 60 characters, the first upper-cased and the rest as in the input |
| Scaffold.HeuristicScaffold | src/services/scaffold.ts:85-95 | the description is the input and the instructions are the fixed sentence built from name and category |
| Scaffold.HeuristicExample | src/services/scaffold.ts:85-95 | "Quiz maker" is named as is and falls in Assessment |
| Scaffold.HeuristicFallbackExample | src/services/scaffold.ts:90-91 | a 2-character input is 'Untitled Project' in Teaching |
| Scaffold.SafeParseJson | src/services/scaffold.ts:64-75 | with both braces present, the slice from the first `{` to the last `}` is parsed; otherwise the whole text; failure gives null |
| Scaffold.SafeParseJsonNoRetry | src/services/scaffold.ts:68-73 | a failed slice gives null with no retry on the whole text |
| Scaffold.SafeParseJsonSlice | src/services/scaffold.ts:66-69 | the slice starts with `{` and ends with `}`, and no `{` precedes it |
| Scaffold.MapToProject | src/services/scaffold.ts:77-83 | the name defaults to 'Untitled Project' and description and instructions to ''; a string category is kept, and a null, undefined or other falsy category is no category |
| Scaffold.MapToProjectNameNonEmpty | src/services/scaffold.ts:78 | the mapped name is never empty when the reply's name is not a number or an array |
| Scaffold.SafeParseItems | src/services/scaffold.ts:64-75 | for array reply content, `indexOf`/`lastIndexOf` match whole elements equal to `"{"` and `"}"`; with both present the sliced array's `String()` is parsed (an empty slice parses ''), otherwise the whole array's `String()` |
| Scaffold.SafeParseValue | src/services/scaffold.ts:64-75 | strings go through the brace slicing, arrays through the element search, and any other value throws inside the `try` and gives null |
| Scaffold.Attempt | src/services/scaffold.ts:35-58 | a failed request gives no scaffold; otherwise the content, or '' when it is falsy, is parsed and a scaffold comes exactly from a truthy parse, mapped by mapToProject; numbers, `true` and objects give none |
| Scaffold.ArrayContentScaffolds | src/services/scaffold.ts:36-38 | content that is an array of one string is parsed as that whole string, so `['{"projectName":"X"}']` yields the scaffold mapped from that object |
| Scaffold.ScaffoldFromPrompt | src/services/scaffold.ts:14-62 | OpenAI only with its key, then Gemini only with its key, then the heuristic on the trimmed prompt |
| Scaffold.FailuresFallBack | src/services/scaffold.ts:39-61 | when both providers fail, the heuristic scaffold is returned |
| Store.Replace | src/components/ProjectsStore.ts:61 | the same length; entries with the id are replaced and the others kept |
| Store.Without | src/components/ProjectsStore.ts:70-80 | exactly the projects whose id is not removed |
| Store.FindIndex | src/components/ProjectsStore.ts:87 | the first position with the id, or -1 exactly when there is none |
| Store.Find | src/components/ProjectsStore.ts:87 | the first project with the id, or null |
| Store.FavKey | src/components/ProjectsStore.ts:97 | the per-user key, with 'anon' for an empty email |
| Store.FavKeyInjective | src/components/ProjectsStore.ts:97 | distinct non-empty emails get distinct keys |
| Store.FavKeyAnonShared | src/components/ProjectsStore.ts:97 | a user whose email is literally 'anon' shares the signed-out key |
| Store.Toggle | src/components/ProjectsStore.ts:112 | a present id is removed everywhere and the rest kept; an absent id is prepended |
| Store.ToggleTwiceAbsent | src/components/ProjectsStore.ts:112 | toggling an absent id twice restores the list |
| Store.ToggleFlips | src/components/ProjectsStore.ts:112 | toggling flips membership |
| Store.ProjectStore.Create | src/components/ProjectsStore.ts:48-57 | prepends exactly one default project with the given name, or 'Untitled Project' |
| Store.ProjectStore.Update | src/components/ProjectsStore.ts:59-66 | replaces by id |
| Store.ProjectStore.Remove | src/components/ProjectsStore.ts:68-75 | drops the projects with the id |
| Store.ProjectStore.RemoveMany | src/components/ProjectsStore.ts:77-85 | drops the projects whose id is listed |
| Store.ProjectStore.Get | src/components/ProjectsStore.ts:87 | finds the first project with the id |
| Store.ProjectStore.ListSharedWith | src/components/ProjectsStore.ts:89-90 | exactly the projects with an exact-email invite or with access other than 'private', in store order |
| Store.Favorites.IsFavorite | src/components/ProjectsStore.ts:110 | membership in the favourites |
| Store.Favorites.ToggleFavorite | src/components/ProjectsStore.ts:111-113 | the favourites become their toggle |
| Store.ReplaceUnknownId | src/components/ProjectsStore.ts:61 | an unknown id leaves the list unchanged |
| Store.GetAfterReplace | src/components/ProjectsStore.ts:59-87 | after an update, get returns the new project exactly when the id was present |
| Store.GetAfterCreate | src/components/ProjectsStore.ts:48-87 | a created project is found by its id |
| Store.RemovedAreGone | src/components/ProjectsStore.ts:77-87 | a removed id is no longer found |
| Store.WithoutAppend | src/components/ProjectsStore.ts:80 | the removal filter distributes over concatenation |
| Store.RemoveIsRemoveMany | src/components/ProjectsStore.ts:68-85 | remove(id) equals removeMany([id]) |
| Types.ProviderName | src/types.ts:82-131 | every provider has a non-empty name |
| Types.FieldOf | src/types.ts:58-80 | reads a field, tagged with its own key |
| Types.Assign | src/types.ts:161 | setting one field changes that field and no other |
| Types.FieldsDetermineProject | src/types.ts:58-80 | two projects agreeing on every field are equal |
| Types.AssignOwnValue | src/types.ts:161 | writing a field's own value changes nothing |
| Types.LastFor | src/types.ts:161 | the last value the partial gives a key, absent exactly when the partial does not set it |
| Types.LastForAt | src/types.ts:161 | the last assignment of a key is the one that counts |
| Types.SpreadField | src/types.ts:161 | after the spread each field holds the partial's last value for it, else its default |
| Types.SpreadSnoc | src/types.ts:161 | spreading one more assignment sets that field on the spread so far |
| Types.CreateDefaultProject | src/types.ts:133-163 | fields the partial does not set keep their defaults; fields it sets, the id included, take its last value |
| Types.CreateDefaultProjectDefaults | src/types.ts:133-160 | the first catalogue model; private with no invites; createdAt equals updatedAt; the numeric, rag, memory and viewer defaults |
| Types.PartialOverridesId | src/types.ts:137-161 | an id in the partial overrides the generated one |
| Types.NamedDefaultProject | src/types.ts:138-161 | a named project keeps its name and the generated id |
| Viewer.ModelIndex | src/pages/ViewerPage.tsx:29 | the first catalogue position with the id, or -1 |
| Viewer.FindModel | src/pages/ViewerPage.tsx:29-62 | the catalogue entry with the id, absent exactly when there is none |
| Viewer.Effective | src/pages/ViewerPage.tsx:27-31 | the picked model only with the picker exposed and an entry found, else the project's model; the user's temperature only when exposed |
| Viewer.EffectiveKeepsOtherFields | src/pages/ViewerPage.tsx:27-31 | only model and temperature can differ |
| Viewer.EffectiveWithoutControls | src/pages/ViewerPage.tsx:27-31 | without exposed controls the project is sent unchanged |
| Viewer.Excerpt | src/pages/ViewerPage.tsx:36 | missing or empty text gives '(no text extracted)'; text over 2000 characters is cut to 2000 plus the truncation mark |
| Viewer.Summary | src/pages/ViewerPage.tsx:37 | each summary starts with the separator and the file name |
| Viewer.Summaries | src/pages/ViewerPage.tsx:35-38 | the summaries in order, '' for none |
| Viewer.AttachmentNote | src/pages/ViewerPage.tsx:33-40 | the note is empty exactly when there are no attachments; otherwise the header, then the summaries |
| Viewer.KeepCount | src/pages/ViewerPage.tsx:46 | `max(1, min(window, length))` |
| Viewer.HistoryToSend | src/pages/ViewerPage.tsx:42-50 | a non-empty suffix of the history ending with the new turn; its length is the keep count with memory on, 1 with memory off |
| Viewer.WideWindowSendsAll | src/pages/ViewerPage.tsx:45-47 | a window wider than the history sends all of it |
| Viewer.EmptyWindowSendsTurn | src/pages/ViewerPage.tsx:46 | a window of 1 or less sends only the new turn |
| Viewer.ToAttachment | src/pages/ViewerPage.tsx:111-120 | text is read only for text-like types of at most 2,000,000 bytes; an empty type reads 'unknown' |
| Viewer.ImagesCarryNoText | src/pages/ViewerPage.tsx:111-115 | an image attachment carries no text |
| Viewer.ModelWriteBack | src/pages/ViewerPage.tsx:60-68 | writes back exactly when the picker is exposed, the id is in the catalogue and differs; only model and updatedAt change |
| Viewer.TemperatureWriteBack | src/pages/ViewerPage.tsx:70-76 | writes back exactly when exposed and different; only temperature and updatedAt change |
| Viewer.WriteBackSettles | src/pages/ViewerPage.tsx:59-76 | a written-back project triggers no second write |
| Viewer.TrimsToNothing | src/pages/ViewerPage.tsx:21 | the loop over the input is true exactly for blank input |
| Viewer.ViewerSession.constructor | src/pages/ViewerPage.tsx:11-16 | empty input, messages and attachments; the controls start from the project |
| Viewer.ViewerSession.Send | src/pages/ViewerPage.tsx:20-57 | blank input changes nothing; otherwise the user turn is appended, the windowed history is sent to the effective project, and on success the reply is appended and the attachments cleared |
| Viewer.ViewerSession.OnFiles | src/pages/ViewerPage.tsx:108-123 | one attachment per file, in order, after the existing ones |
| Editor.EditField | src/components/ProjectEditor.tsx:85-87 | only the edited field and updatedAt change |
| Editor.EditOwnValue | src/components/ProjectEditor.tsx:85-87 | writing a field's own value only restamps the draft |
| Editor.WithoutFile | src/components/ProjectEditor.tsx:82 | every file with the id is removed and the others kept |
| Editor.WithoutAbsentFile | src/components/ProjectEditor.tsx:82 | removing an absent id keeps the list |
| Editor.WithoutFileAppend | src/components/ProjectEditor.tsx:82 | removal distributes over concatenation |
| Editor.RemoveUndoesAdd | src/components/ProjectEditor.tsx:78-82 | removing a freshly appended file restores the list |
| Editor.ToKnowledgeFile | src/components/ProjectEditor.tsx:60-76 | name, size and type are copied; a preview exists exactly for images of at most 300,000 bytes |
| Editor.EditorDraft.constructor | src/components/ProjectEditor.tsx:26-29 | the draft starts from the project (or a default one) with the fixed preview input |
| Editor.EditorDraft.Update | src/components/ProjectEditor.tsx:85-87 | the draft becomes the edited one |
| Editor.EditorDraft.RemoveFile | src/components/ProjectEditor.tsx:81-83 | the draft loses the files with the id and is restamped |
| Editor.EditorDraft.HandleFileAdd | src/components/ProjectEditor.tsx:56-79 | no files is a no-op; otherwise one record per file, in order, after the existing ones |
| Editor.EditorDraft.RunPreview | src/components/ProjectEditor.tsx:91-102 | exactly one user message is sent; the reply, or the error's message, becomes the output |
| Share.OpeningAccess | src/components/ShareModal.tsx:23 | the project's access, or 'private' |
| Share.OpeningInvites | src/components/ShareModal.tsx:22 | the project's invites, or `[]` |
| Share.Saved | src/components/ShareModal.tsx:88-93 | the draft access and invites are saved and updatedAt restamped; no other field changes |
| Share.SaveUnedited | src/components/ShareModal.tsx:19-93 | saving unedited only fills missing sharing fields and restamps |
| Share.SavedSharingReadsBack | src/components/ShareModal.tsx:19-93 | reopening a saved project shows the saved access and invites |
| Share.SavedInviteGrants | src/components/ShareModal.tsx:72-93 | a saved edit invite opens the editor for that email; a view invite on a private project opens the viewer |
| Share.ShareDraft.constructor | src/components/ShareModal.tsx:15-17 | private, empty email, no invites |
| Share.ShareDraft.Open | src/components/ShareModal.tsx:19-25 | resets the email and copies invites and access from the project |
| Share.ShareDraft.SetEmail | src/components/ShareModal.tsx:64 | only the email changes |
| Share.ShareDraft.SetAccess | src/components/ShareModal.tsx:48 | only the access changes |
| Share.ShareDraft.AddInvite | src/components/ShareModal.tsx:69-74 | an empty email does nothing; otherwise the invite is appended as typed and the email cleared |
| Layout.AllSectionsDistinct | src/components/LayoutSettingsModal.tsx:28 | the six sections are distinct |
| Layout.KnownKeys | src/components/LayoutSettingsModal.tsx:30 | the stored keys that are sections, in stored order |
| Layout.MissingSections | src/components/LayoutSettingsModal.tsx:31 | the sections the order lacks, each once, in default order |
| Layout.NormalizeOrder | src/components/LayoutSettingsModal.tsx:28-33 | known keys in stored order, then the missing sections; exactly the six sections; a permutation of them when the stored order has no repeats |
| Layout.KnownThenMissingPermutes | src/components/LayoutSettingsModal.tsx:30-32 | known-then-missing is a permutation of the sections |
| Layout.PermutationIsNormal | src/components/LayoutSettingsModal.tsx:28-33 | an order holding exactly the sections is already normal |
| Layout.NormalizeOrderIdempotent | src/components/LayoutSettingsModal.tsx:53-56 | normalising twice changes nothing |
| Layout.NormalVisibility | src/components/LayoutSettingsModal.tsx:36-51 | unknown keys dropped, missing sections set true, existing values kept |
| Layout.RepairIffChanged | src/components/LayoutSettingsModal.tsx:37-51 | the `changed` flag is set exactly when the repair changes the map |
| Layout.NormalVisibilityIdempotent | src/components/LayoutSettingsModal.tsx:36-51 | a repaired map needs no further repair |
| Layout.KnownVisibility | src/components/LayoutSettingsModal.tsx:39-44 | only the section keys and their values |
| Layout.NormalizeVisibility | src/components/LayoutSettingsModal.tsx:36-51 | the loops compute the normal map, and `changed` exactly when repair was needed |
| Layout.DropUnknownKeys | src/components/LayoutSettingsModal.tsx:39-44 | the delete loop keeps the known keys and flags any deletion |
| Layout.AddMissingSections | src/components/LayoutSettingsModal.tsx:46-51 | the forEach adds true for each missing section and flags any addition |
| Layout.PrefsRepairJoined | src/components/LayoutSettingsModal.tsx:52-58 | the effect as written: a repair, when issued, holds the normal order and visibility |
| Layout.BarKeyIsNoSection | src/components/LayoutSettingsModal.tsx:28 | the bar-joined key is not a section |
| Layout.NormalizeBarKey | src/components/LayoutSettingsModal.tsx:28-33 | that key normalises to the default order |
| Layout.JoinedRepairMissesBarKey | src/components/LayoutSettingsModal.tsx:56 | the string comparison skips a repair the order needs |
| Layout.PrefsRepair | src/components/LayoutSettingsModal.tsx:52-58 | a repair is issued exactly when the order or the visibility is not normal |
| Layout.PrefsRepairSettles | src/components/LayoutSettingsModal.tsx:35-59 | repaired prefs need no further repair |
| Layout.RepairPrefs | src/components/LayoutSettingsModal.tsx:35-59 | the effect with the corrected order test: its loops and list comparison compute `Layout.PrefsRepair`; the string comparison as written is `Layout.PrefsRepairJoined` |
| Layout.Move | src/components/LayoutSettingsModal.tsx:63-71 | an absent key or a target outside the list does nothing; otherwise the two cells swap and the rest stay |
| Layout.MoveBack | src/components/LayoutSettingsModal.tsx:63-71 | moving back undoes a move |
| Layout.MovedKeyFirstAt | src/components/LayoutSettingsModal.tsx:64-69 | the moved key lands at its old index plus delta |
| Layout.Toggle | src/components/LayoutSettingsModal.tsx:76 | only the key's visibility flips, a missing one becoming true |
| Layout.ToggleTwice | src/components/LayoutSettingsModal.tsx:76 | toggling twice restores a present key and sets a missing one to false |
| Layout.TogglePrefs | src/components/LayoutSettingsModal.tsx:73-78 | the order is untouched |
| Dashboard.FavoriteProjects | src/components/DashDefault.tsx:222 | the favourite projects, in project-list order |
| Dashboard.ToggleFavoriteMovesProject | src/components/DashDefault.tsx:222-243 | toggling a project's star moves it into or out of the favourites section |
| Dashboard.SharedMatches | src/components/DashDefault.tsx:227-231 | projects with non-private access (missing counts as private) or an exact-email invite, in order |
| Dashboard.SharedSection | src/components/DashDefault.tsx:225-235 | the first five matches; with no match, the first min(3, n) projects |
| Dashboard.SharedSectionEmptyIffNoProjects | src/components/DashDefault.tsx:232-234 | the section is empty only when there are no projects |
| Dashboard.DashboardSharingVersusStore | src/components/DashDefault.tsx:228-230 | the dashboard's test implies the store's; they differ only on a missing access |
| Dashboard.RenderedSections | src/components/DashDefault.tsx:265-271 | the stored order's keys whose visibility is true, in order; a missing order throws |
| Dashboard.AllShownRenderAll | src/components/DashDefault.tsx:265-271 | normal, all-visible prefs render all six sections and need no repair |
| Dashboard.DefaultPrefsRenderAll | src/components/DashDefault.tsx:205-215 | the defaults list all six sections, visible, in the fixed order |
| Dashboard.RepairedPrefsRenderKnownSections | src/components/DashDefault.tsx:265-271 | after repair exactly the sections not hidden render, each once when the stored order had no repeats |
| ProjectsPage.Filtered | src/pages/ProjectsPage.tsx:46-56 | exactly the projects matching the trimmed lower-cased query, category and provider, in order |
| ProjectsPage.NoFiltersListAll | src/pages/ProjectsPage.tsx:47-54 | empty filters list every project |
| ProjectsPage.FilteredHaveChoice | src/pages/ProjectsPage.tsx:52-53 | a listed project has the chosen category and provider |
| ProjectsPage.Categories | src/pages/ProjectsPage.tsx:38 | the category column |
| ProjectsPage.UniqueCategories | src/pages/ProjectsPage.tsx:37-40 | the truthy categories, each once, in the order of their first occurrence among the projects |
| ProjectsPage.Providers | src/pages/ProjectsPage.tsx:42 | the provider column |
| ProjectsPage.UniqueProviders | src/pages/ProjectsPage.tsx:41-44 | the providers, each once, in first-occurrence order |
| ProjectsPage.OfferedCategoryListsSomething | src/pages/ProjectsPage.tsx:37-56 | every offered category lists at least one project |
| ProjectsPage.OfferedProviderListsSomething | src/pages/ProjectsPage.tsx:41-56 | every offered provider lists at least one project |
| ProjectsPage.Selection.ToggleSelect | src/pages/ProjectsPage.tsx:22-24 | removes a present id, else prepends it |
| ProjectsPage.Selection.ToggleSelectAll | src/pages/ProjectsPage.tsx:25-27 | a full count clears; otherwise every id in project order; all-selected flips |
| ProjectsPage.Selection.DeleteSelected | src/pages/ProjectsPage.tsx:28-32 | an empty selection does nothing; otherwise the selected projects are removed and the selection cleared |
| ProjectRow.Initials | src/components/ProjectRow.tsx:13-21 | the upper-cased first characters of at most the first two words of the name, or of 'AI' |
| ProjectRow.FirstWordStart | src/components/ProjectRow.tsx:16-17 | the first word starts with the name's first character |
| ProjectRow.BlankHasNoWords | src/components/ProjectRow.tsx:16-17 | a blank string has no words |
| ProjectRow.InitialsLead | src/components/ProjectRow.tsx:13-21 | initials start with the upper-cased first character of the name |
| ProjectRow.UnnamedInitials | src/components/ProjectRow.tsx:14 | an empty name shows 'A' |
| ProjectRow.BlankNameNoInitials | src/components/ProjectRow.tsx:14-20 | a name of spaces shows no initials |
| ProjectRow.SharedOwner | src/components/ProjectRow.tsx:23-29 | no badge without an owner or for the owner in any case; otherwise the owner email verbatim |
| ProjectRow.OwnerSeesNoBadge | src/components/ProjectRow.tsx:27 | the owner never sees a badge |
| ProjectRow.SignedOutSeesOwner | src/components/ProjectRow.tsx:25-28 | a signed-out visitor sees the owner |
| ProjectRow.FavoriteFlag | src/components/ProjectRow.tsx:31 | false without a callback, else the callback's answer |
| ProjectRow.StarMatchesFavoritesSection | src/components/ProjectRow.tsx:31 | a lit star means the project is in the favourites section |
| Learn.FilterArticles | src/pages/LearnPage.tsx:142-150 | the matching articles, a subsequence of the input |
| Learn.NoFiltersListAll | src/pages/LearnPage.tsx:143-149 | empty filters list every article in order |
| Learn.OfferedTagListsSomething | src/pages/LearnPage.tsx:147 | every offered tag lists an article |
| Learn.OfferedCategoryListsSomething | src/pages/LearnPage.tsx:146 | every offered category lists an article |
| Learn.QueryIgnoresTitleCase | src/pages/LearnPage.tsx:143-145 | a title holding the trimmed, lower-cased query lists the article |
| Learn.ShownTags | src/pages/LearnPage.tsx:166 | the first four tags |
| Learn.CardOf | src/pages/LearnPage.tsx:161-168 | a card copies the article and links to /learn/id |
| Learn.Index | src/pages/LearnPage.tsx:154-174 | 'No articles found.' exactly for no articles; otherwise one card per article |
| Learn.CardLinkNamesArticle | src/pages/LearnPage.tsx:161 | the link's suffix is the article id |
| Learn.CardsShowAtMostFourTags | src/pages/LearnPage.tsx:166 | at most four tags, all the article's |
| Articles.FlatTags | src/learn/articles.tsx:245 | the union of the article tags |
| Articles.TagsOf | src/learn/articles.tsx:245 | every tag once, sorted by code units, exactly the union of the tags |
| Articles.CategoryColumn | src/learn/articles.tsx:246 | the category of each article |
| Articles.CategoriesOf | src/learn/articles.tsx:246 | every category once, in first-occurrence order |
| Articles.QualityListedOnce | src/learn/articles.tsx:35-245 | the tag three articles share is listed once |
| Guided.RagLine | src/components/GuidedSetupModal.tsx:24 | `Enable RAG with topK=n` when enabled, else `RAG disabled` |
| Guided.Optional | src/components/GuidedSetupModal.tsx:22-25 | a labelled line only for a non-empty answer |
| Guided.DetailLines | src/components/GuidedSetupModal.tsx:20-26 | the type first, subject and audience when answered, the RAG line, notes when answered; no empty line |
| Guided.ExactlyOneRagLine | src/components/GuidedSetupModal.tsx:21-24 | exactly one RAG line, at a fixed position; the first line is the type |
| Guided.Prompt | src/components/GuidedSetupModal.tsx:28 | the header, the joined details, the footer; the details can be read back |
| Guided.Submit | src/components/GuidedSetupModal.tsx:29-30 | one scaffold with the prompt, then close |
| Guided.PromptLead | src/components/GuidedSetupModal.tsx:28 | the prompt is its own trim and its first 60 characters are fixed |
| Guided.GuidedHeuristicName | src/components/GuidedSetupModal.tsx:28 | without keys every guided project gets the same heuristic name |
| Sidebar.RootActiveOnlyAtRoot | src/components/Sidebar.tsx:82 | the root link is active only on '/' |
| Sidebar.ActiveIffPrefix | src/components/Sidebar.tsx:82 | other links are active exactly on paths they prefix, including longer names |
| Sidebar.Targets | src/components/Sidebar.tsx:9-16 | the link targets |
| Sidebar.NavTargetsDistinct | src/components/Sidebar.tsx:9-16 | six fixed entries, root first, with distinct targets |
| Sidebar.AtMostOneActive | src/components/Sidebar.tsx:81-82 | at most one link is highlighted on any path |
| Sidebar.Restore | src/components/Sidebar.tsx:18-25 | collapsed exactly when the stored value is 'true'; a read failure gives false |
| Sidebar.Persist | src/components/Sidebar.tsx:27-31 | `String(collapsed)` |
| Sidebar.RestorePersisted | src/components/Sidebar.tsx:18-31 | a persisted flag is restored unchanged |
| Sidebar.SidebarState.constructor | src/components/Sidebar.tsx:18-31 | the restored flag, written back on mount |
| Sidebar.SidebarState.SetCollapsed | src/components/Sidebar.tsx:27-31 | the flag is set and written only when it changes |
| Sidebar.SidebarState.Collapse | src/components/Sidebar.tsx:48 | collapses; 'true' is written only when the flag was open |
| Sidebar.SidebarState.Open | src/components/Sidebar.tsx:60 | opens; 'false' is written only when the flag was collapsed |
| Sidebar.SidebarState.LogoClick | src/components/Sidebar.tsx:43 | opens a collapsed sidebar, never collapses |
| Js.Or | src/pages/TemplatesPage.tsx:123 | JavaScript's logical or: the first operand when truthy, else the second |
| Js.Coalesce | src/pages/TemplatesPage.tsx:304 | `a ?? b` |
| Js.Get | src/pages/TemplatesPage.tsx:121-133 | optional property access; non-objects and missing keys give undefined |
| Js.At | src/services/infer.ts:107-136 | `?.[i]`: an array element, a one-character string of a string, or the object property named by the decimal index; out of range, nullish, booleans and numbers give undefined |
| Js.ToStr | src/pages/TemplatesPage.tsx:158-162 | `String(v)` for strings, undefined and null |
| Js.ToNumber | src/pages/TemplatesPage.tsx:13 | `Number(v)` |
| Js.OwnEntries | src/pages/TemplatesPage.tsx:19 | `Object.keys` order of an object or array |
| Text.Lower | src/pages/ProjectsPage.tsx:47-50 | ASCII `toLowerCase`, character by character |
| Text.Capitalize | src/services/scaffold.ts:97-99 | the first character upper-cased, the rest unchanged |
| Text.IndexOf | src/services/scaffold.ts:66 | the first position of the character, or -1 |
| Text.LastIndexOf | src/services/scaffold.ts:67 | the last position of the character, or -1 |
| Text.Slice | src/services/scaffold.ts:69 | `slice(start, end)` |
| Text.Trim | src/services/scaffold.ts:17 | the result neither starts nor ends with white space |
| Text.TrimMiddle | src/services/scaffold.ts:17 | the trim is a slice of the input whose front and back are both blank |
| Text.TrimEmptyIffBlank | src/pages/ViewerPage.tsx:21 | `!s.trim()` holds exactly for blank strings |
| Text.Words | src/components/ProjectRow.tsx:16-17 | `split(/\s+/).filter(Boolean)`: non-empty words without spaces; none exactly for a blank string; together they spell the input without its white space |
| Text.WordsFirst | src/components/ProjectRow.tsx:16-17 | in a non-blank string the first word is the whole non-space run after the leading white space, ending at white space or at the end, and the other words are those of what follows it |
| Lists.Dedup | src/learn/articles.tsx:245-246 | `Array.from(new Set(xs))`: each value once |
| Lists.DedupFirstOccurrenceOrder | src/learn/articles.tsx:246 | deduplication keeps first-occurrence order |
| Lists.Sort | src/learn/articles.tsx:245 | sorted by code units, a permutation |

## Left out

- Live HTTP (`fetch`) is not modelled. Each provider reply is a parameter: a network error, or a status with a body.
- `localStorage`, the cross-tab `storage` and custom-event sync (src/components/ProjectsStore.ts:17-46), and last-write-wins are left out. The store is one in-memory sequence, and reads and writes are parameters.
- React rendering, effects scheduling and timers are left out. This includes the editor's auto-preview and BuildModal's delays.
- FileReader, SpeechRecognition and the clipboard are left out. File contents and data URLs are parameters.
- Floating point is not modelled. Numbers are `real`, or NaN where `Number()` can produce it. Rendering and parsing numbers are host parameters, and so is JSON parsing.
- `crypto.randomUUID()` and `new Date().toISOString()` are parameters.
- Case mapping is ASCII only. Sorting compares `char` values rather than UTF-16 code units, which is the same for the article tags.
- `Object.keys` puts integer-like keys first. The model keeps first-occurrence order instead (`Js.OwnEntries`).
- The templates page's reload when loaded templates look empty (src/pages/TemplatesPage.tsx:80-87) is left out. It only re-runs the load.
- The visibility map holds booleans only, so a stored non-boolean visibility value is not modelled.
- The request bodies and system prompt of `scaffoldProjectFromPrompt` are not modelled. Only the reply texts and the fallback order are.
- The share dialog's Close button only calls `onClose`, so it is not a member. Nothing is saved unless `Share.Saved` is called.
- The editor and viewer get `chatOnce` as a function parameter. `Infer.ChatOnce` is the model of that function.
- Viewer.ViewerSession.Send: the busy flag is stated only for the end of the call. The intermediate `busy = true` renders are not modelled.
- Scaffold.MapToProject: the source stores the reply's raw field values, while the model's scaffold holds strings. A truthy value that is not a string (a number, `true`, an array, an object) is kept as its `String()` text, and a falsy non-string category (null, undefined, false, 0, NaN) is kept as no category, which is how every reader of `category` treats it.
- Layout.RepairPrefs: the method runs the corrected test, comparing the normalised and stored orders as lists. It does not run the bar-joined string comparison at src/components/LayoutSettingsModal.tsx:56, which is modelled by the function `Layout.PrefsRepairJoined` (see Findings).
- Templates.Unwrap: an `M` map holding the same key twice is unwrapped field by field, each copy included. The source visits each key once (`Object.keys`), so a failing earlier copy that the source never reads makes the model's unwrap fail.
- Infer.ReplyText: the source returns a content value that is neither a string nor nullish (a number, an object) as it is. The model's replies are strings, so it keeps that value's `String()` text, which is what the editor and the viewer display.
- JavaScript string lengths and indices count UTF-16 code units, while the model's strings count characters. Outside the Basic Multilingual Plane (emoji, for instance) the two differ, which affects the 60-character cut in Scaffold.HeuristicName and Guided.PromptLead, the 2000-character cut in Viewer.Excerpt, `charAt(0)` in ProjectRow.Initials and Text.Capitalize, the indices of Text.IndexOf, Text.LastIndexOf and Text.Slice, and every length test on a string.
- The files that are markup or storage forms are not part of this model: icons, the page wrappers, the article page's `find`, BuildModal, HelperChat, UserProfile, SettingsPage and ProviderKeysModal. Article bodies are not modelled either.

## Findings

| source | as written | input that shows it | evidently intended | confidence | as-written member | corrected member |
|---|---|---|---|---|---|---|
| src/components/LayoutSettingsModal.tsx:56 | the repair check compares the normalised and stored orders as bar-joined strings | a stored order holding one key, the six section names joined by the bar character, with every section visible: both join to the same string, so no repair is issued although the order holds no section | repair whenever the order is not already normal | not executed | Layout.JoinedRepairMissesBarKey | Layout.PrefsRepair |

=== FILE: app.dfy ===
/**
 * The application shell: which surface a project route shows (viewer or
 * editor), and the creation of a project from a prompt or from scratch.
 */
module App {
  import opened Wrappers
  import opened Types
  import Store
  import Scaffold

  /** What the `/project/:id` route renders. */
  datatype Surface = Loading | ViewerSurface | EditorSurface

  /** `invites.some(i => i.email === email && i.role === role)`, exact and case-sensitive. */
  function HasInvite(invites: seq<Invite>, email: string, role: Role): (b: bool)
    ensures b <==> exists i :: 0 <= i < |invites| && invites[i].email == email && invites[i].role == role
  {
    if invites == [] then false
    else (invites[0].email == email && invites[0].role == role) || HasInvite(invites[1..], email, role)
  }

  /**
   * `ProjectRouteWrapper`'s decision. A missing `generalAccess` reads as
   * private and a missing invite list as empty. The viewer is shown only to a
   * user who is not an editor but is viewer-only; everyone else, including a
   * user with no access at all, gets the editor.
   */
  function ChooseSurface(active: Option<Project>, email: string): (s: Surface)
    ensures s == Loading <==> active.None?
    ensures active.Some? && active.value.generalAccess == Some(Edit) ==> s == EditorSurface
    ensures s == ViewerSurface ==>
      active.value.generalAccess == Some(View) || HasInvite(active.value.invites.GetOr([]), email, CanView)
  {
    match active
    case None => Loading
    case Some(p) =>
      var invites := p.invites.GetOr([]);
      var access := p.generalAccess.GetOr(Private);
      var isViewerOnly := access == View || HasInvite(invites, email, CanView);
      var isEditor := access == Edit || HasInvite(invites, email, CanEdit);
      if !isEditor && isViewerOnly then ViewerSurface else EditorSurface
  }

  // ---- an independent statement of who may do what ----

  /** The permission a user holds on a project. */
  datatype Permission = NoAccess | ViewOnly | CanEditProject

  /** The roles this email is invited with. */
  function InvitedRoles(p: Project, email: string): set<Role> {
    match p.invites
    case None => {}
    case Some(invites) => set i | i in invites && i.email == email :: i.role
  }

  /** Edit access wins over view access; view access wins over nothing. */
  function PermissionOf(p: Project, email: string): Permission {
    var access := if p.generalAccess == Some(View) then View else if p.generalAccess == Some(Edit) then Edit else Private;
    var roles := InvitedRoles(p, email);
    if access == Edit || CanEdit in roles then CanEditProject
    else if access == View || CanView in roles then ViewOnly
    else NoAccess
  }

  lemma HasInviteRoles(p: Project, email: string, role: Role)
    ensures HasInvite(p.invites.GetOr([]), email, role) <==> role in InvitedRoles(p, email)
  {
    if p.invites.Some? {
      var invites := p.invites.value;
      if HasInvite(invites, email, role) {
        var i :| 0 <= i < |invites| && invites[i].email == email && invites[i].role == role;
        assert invites[i] in invites;
      }
    }
  }

  /**
   * The route shows the viewer exactly to view-only users, and the editor to
   * editors and, as the code is written, to users with no access at all.
   */
  lemma SurfaceMatchesPermission(p: Project, email: string)
    ensures ChooseSurface(Some(p), email) == ViewerSurface <==> PermissionOf(p, email) == ViewOnly
    ensures ChooseSurface(Some(p), email) == EditorSurface <==> PermissionOf(p, email) != ViewOnly
  {
    HasInviteRoles(p, email, CanView);
    HasInviteRoles(p, email, CanEdit);
  }

  /** `generalAccess: 'edit'` makes everyone an editor, whatever the invites say. */
  lemma AnyoneCanEdit(p: Project, email: string)
    requires p.generalAccess == Some(Edit)
    ensures ChooseSurface(Some(p), email) == EditorSurface
  {
  }

  /** An edit invite for this email makes the user an editor even on a view-only project. */
  lemma EditInviteWins(p: Project, email: string, i: nat)
    requires p.invites.Some? && i < |p.invites.value|
    requires p.invites.value[i] == Invite(email, CanEdit)
    ensures ChooseSurface(Some(p), email) == EditorSurface
  {
    assert HasInvite(p.invites.value, email, CanEdit);
  }

  /** A private project with no invite for this email opens in the editor, not in the viewer. */
  lemma PrivateUninvitedGetsEditor(p: Project, email: string)
    requires p.generalAccess.GetOr(Private) == Private
    requires forall i :: 0 <= i < |p.invites.GetOr([])| ==> p.invites.GetOr([])[i].email != email
    ensures PermissionOf(p, email) == NoAccess
    ensures ChooseSurface(Some(p), email) == EditorSurface
  {
    HasInviteRoles(p, email, CanView);
    HasInviteRoles(p, email, CanEdit);
  }

  /** A project without sharing fields behaves like a private project with no invites. */
  lemma MissingSharingFieldsArePrivate(p: Project, email: string)
    requires p.generalAccess.None? && p.invites.None?
    ensures ChooseSurface(Some(p), email) == ChooseSurface(Some(p.(generalAccess := Some(Private), invites := Some([]))), email)
    ensures ChooseSurface(Some(p), email) == EditorSurface
  {
  }

  /** Invite emails are compared exactly: a differently-cased invite grants nothing. */
  lemma InviteEmailCaseSensitive(p: Project)
    requires p.generalAccess == Some(Private) && p.invites == Some([Invite("Ann@x.edu", CanView)])
    ensures PermissionOf(p, "ann@x.edu") == NoAccess
    ensures PermissionOf(p, "Ann@x.edu") == ViewOnly
  {
    assert InvitedRoles(p, "ann@x.edu") == {} by {
      assert "Ann@x.edu"[0] != "ann@x.edu"[0];
    }
    assert InvitedRoles(p, "Ann@x.edu") == {CanView};
  }

  // ---- creating projects ----

  /** `openNewProject`: a new 'Untitled Project' first in the store, and the path the app navigates to. */
  method OpenNewProject(store: Store.ProjectStore, id: string, now: string) returns (p: Project, path: string)
    modifies store
    ensures store.projects == [p] + old(store.projects)
    ensures p.id == id && p.projectName == "Untitled Project"
    ensures path == "/project/" + id
  {
    p := store.Create(id, now, Some("Untitled Project"));
    path := "/project/" + p.id;
  }

  /** `{ ...p, ...config, updatedAt: now }`: the scaffold's four fields, then the timestamp. */
  function MergeScaffold(p: Project, config: Scaffold.Scaffold, now: string): (next: Project)
    ensures next.id == p.id && next.createdAt == p.createdAt
    ensures next.projectName == config.projectName && next.description == config.description
    ensures next.category == config.category && next.systemInstructions == config.systemInstructions
    ensures next.updatedAt == now
    ensures forall k :: (k !in {ProjectNameField, DescriptionField, CategoryField, SystemInstructionsField, UpdatedAtField}
      ==> FieldOf(next, k) == FieldOf(p, k))
  {
    p.(projectName := config.projectName, description := config.description, category := config.category,
       systemInstructions := config.systemInstructions, updatedAt := now)
  }

  /**
   * `generateFromPrompt`, once the scaffold is known: create a project under
   * the scaffold's name, overwrite it with the scaffold, store the result, and
   * navigate to it.
   */
  method GenerateFromPrompt(store: Store.ProjectStore, config: Scaffold.Scaffold, id: string, created: string, now: string)
    returns (next: Project, path: string)
    modifies store
    ensures var p := CreateDefaultProject(id, created,
        [ProjectName(if config.projectName != "" then config.projectName else "Untitled Project")]);
      next == MergeScaffold(p, config, now)
      && store.projects == Store.Replace([p] + old(store.projects), next)
    ensures next.id == id && path == "/project/" + id
  {
    var name := if config.projectName != "" then config.projectName else "Untitled Project";
    var p := store.Create(id, created, Some(name));
    next := MergeScaffold(p, config, now);
    store.Update(next);
    path := "/project/" + next.id;
  }

  /** With a fresh id, the store ends with the scaffolded project first and the old projects unchanged after it. */
  lemma GeneratedProjectFirst(old_projects: seq<Project>, p: Project, next: Project)
    requires next.id == p.id && !Store.HasId(old_projects, p.id)
    ensures Store.Replace([p] + old_projects, next) == [next] + old_projects
  {
    var r := Store.Replace([p] + old_projects, next);
    forall i | 0 <= i < |r| ensures r[i] == ([next] + old_projects)[i] {
      if i > 0 {
        assert ([p] + old_projects)[i] == old_projects[i - 1];
        assert old_projects[i - 1].id != p.id;
      }
    }
  }
}

=== FILE: articles.dfy ===
/**
 * The help articles: their metadata (the bodies are page content and are not
 * modelled), and the tag and category lists derived from them for the
 * filters of the Learn page.
 */
module Articles {
  import opened Lists

  /** An article's metadata. */
  datatype Article = Article(id: string, title: string, summary: string, category: string, tags: seq<string>)

  /** `ARTICLES`, in their order of appearance. */
  const AllArticles: seq<Article> := [
    Article("getting-started-overview", "Overview: Build your first AI project",
      "A quick, opinionated path from idea to working project in the ASU AI Portal.",
      "Getting Started", ["overview", "first-project"]),
    Article("prompting-basics", "Prompting basics for reliable outputs",
      "A practical recipe for durable prompts: role, goal, steps, constraints, and examples.",
      "Prompting", ["prompting", "quality"]),
    Article("models-parameters", "Models and parameters: what they do",
      "What temperature, tokens, and retrieval settings mean \U{2014} with recommended defaults by task.",
      "Models & Parameters", ["models", "temperature", "tokens", "top-k"]),
    Article("rag-setup", "Add knowledge with Retrieval\U{2011}Augmented Generation",
      "How to prepare files, tune retrieval, and get grounded, citeable answers.",
      "Knowledge & RAG", ["rag", "files", "retrieval"]),
    Article("iteration-guide", "Iterate effectively: a 10\U{2011}minute loop",
      "A tight loop to improve outputs systematically \U{2014} pick examples, change one thing, compare, repeat.",
      "Building & Iteration", ["iteration", "quality"]),
    Article("sharing-permissions", "Share safely: roles and viewer mode",
      "Collaborate with editors and viewers; choose the right access for classes and teams.",
      "Sharing & Deployment", ["sharing", "roles"]),
    Article("troubleshooting", "Troubleshooting: common issues and fixes",
      "A quick decision guide to fix randomness, missing facts, or bad formatting.",
      "Troubleshooting", ["debugging", "quality"])
  ]

  /** `articles.flatMap(a => a.tags)`. */
  function FlatTags(articles: seq<Article>): (r: seq<string>)
    ensures forall t :: t in r <==> exists a :: a in articles && t in a.tags
  {
    if articles == [] then []
    else
      var rest := FlatTags(articles[1..]);
      assert forall a :: a in articles <==> a == articles[0] || a in articles[1..];
      articles[0].tags + rest
  }

  /** `Array.from(new Set(tags)).sort()`: every tag of every article, once, in code-unit order. */
  function TagsOf(articles: seq<Article>): (r: seq<string>)
    ensures Sorted(r) && Distinct(r)
    ensures forall t :: t in r <==> exists a :: a in articles && t in a.tags
  {
    var unique := Dedup(FlatTags(articles));
    SortKeepsDistinct(unique);
    SortSameValues(unique);
    Sort(unique)
  }

  /** `articles.map(a => a.category)`. */
  function CategoryColumn(articles: seq<Article>): (cs: seq<string>)
    ensures |cs| == |articles|
    ensures forall i :: 0 <= i < |articles| ==> cs[i] == articles[i].category
  {
    seq(|articles|, i requires 0 <= i < |articles| => articles[i].category)
  }

  /** `Array.from(new Set(categories))`: every category once, in order of first appearance. */
  function CategoriesOf(articles: seq<Article>): (r: seq<string>)
    ensures Distinct(r)
    ensures forall c :: c in r <==> exists a :: a in articles && a.category == c
    ensures forall i, j :: 0 <= i < j < |r| ==>
      r[i] in CategoryColumn(articles) && r[j] in CategoryColumn(articles)
      && FirstIndex(CategoryColumn(articles), r[i]) < FirstIndex(CategoryColumn(articles), r[j])
  {
    var cs := CategoryColumn(articles);
    forall c ensures c in cs <==> exists a :: a in articles && a.category == c {
      if a :| a in articles && a.category == c {
        var i :| 0 <= i < |articles| && articles[i] == a;
        assert cs[i] == c;
      }
    }
    forall i, j | 0 <= i < j < |Dedup(cs)|
      ensures Dedup(cs)[i] in cs && Dedup(cs)[j] in cs
      ensures FirstIndex(cs, Dedup(cs)[i]) < FirstIndex(cs, Dedup(cs)[j])
    {
      DedupFirstOccurrenceOrder(cs, i, j);
    }
    Dedup(cs)
  }

  /** `ALL_TAGS`. */
  const AllTags: seq<string> := TagsOf(AllArticles)

  /** `ALL_CATEGORIES`. */
  const AllCategories: seq<string> := CategoriesOf(AllArticles)

  /** "quality", the tag three articles share, is listed, and only once. */
  lemma QualityListedOnce()
    ensures "quality" in AllTags
    ensures forall i, j :: 0 <= i < j < |AllTags| && AllTags[i] == "quality" ==> AllTags[j] != "quality"
  {
    var a := AllArticles[1];
    assert "quality" == a.tags[1];
  }
}

=== FILE: dashboard.dfy ===
/**
 * The default dashboard: which projects its favourites and "shared with me"
 * sections list, and which sections it renders under the stored layout
 * preferences.
 */
module Dashboard {
  import opened Wrappers
  import opened Types
  import opened Lists
  import Layout
  import Store

  // ---- favourites ----

  /** The test `favoriteIds.includes(p.id)`. */
  function InFavorites(favoriteIds: seq<string>): Project -> bool {
    (p: Project) => p.id in favoriteIds
  }

  /** `projects.filter(p => favoriteIds.includes(p.id))`: the favourite projects, in project-list order. */
  function FavoriteProjects(projects: seq<Project>, favoriteIds: seq<string>): (r: seq<Project>)
    ensures forall p :: p in r <==> p in projects && p.id in favoriteIds
    ensures Subsequence(r, projects)
  {
    FilterSubsequence(projects, InFavorites(favoriteIds));
    Filter(projects, InFavorites(favoriteIds))
  }

  /** Starring a project listed on the dashboard moves it into the favourites section, and starring it again moves it out. */
  lemma ToggleFavoriteMovesProject(projects: seq<Project>, favoriteIds: seq<string>, p: Project)
    requires p in projects
    ensures p in FavoriteProjects(projects, Store.Toggle(favoriteIds, p.id)) <==> p !in FavoriteProjects(projects, favoriteIds)
  {
    Store.ToggleFlips(favoriteIds, p.id);
  }

  // ---- shared with me ----

  /** `invites.some(i => i.email === email)`, a missing invite list counting as empty. */
  predicate InvitedAs(p: Project, email: string) {
    p.invites.Some? && exists i :: 0 <= i < |p.invites.value| && p.invites.value[i].email == email
  }

  /**
   * The dashboard's sharing test: general access other than private (a
   * missing one counting as private), or an invite for exactly this email.
   */
  predicate SharedWithMe(p: Project, email: string) {
    p.generalAccess.GetOr(Private) != Private || InvitedAs(p, email)
  }

  /** The test as a function value, for `filter`. */
  function SharedTest(email: string): Project -> bool {
    (p: Project) => SharedWithMe(p, email)
  }

  /** The projects passing the sharing test, in project-list order. */
  function SharedMatches(projects: seq<Project>, email: string): (r: seq<Project>)
    ensures forall p :: p in r <==> p in projects && SharedWithMe(p, email)
    ensures Subsequence(r, projects)
  {
    FilterSubsequence(projects, SharedTest(email));
    Filter(projects, SharedTest(email))
  }

  function Min(a: int, b: int): int {
    if a < b then a else b
  }

  /**
   * The "shared with me" section for a signed-in email (`email || ''`): the
   * first five matching projects, or, when nothing matches, the first three
   * projects whatever their sharing.
   */
  function SharedSection(projects: seq<Project>, email: Option<string>): (r: seq<Project>)
    ensures var list := SharedMatches(projects, email.GetOr(""));
      && (list != [] ==> r == list[..Min(5, |list|)] && forall p :: p in r ==> SharedWithMe(p, email.GetOr("")))
      && (list == [] ==> r == projects[..Min(3, |projects|)])
    ensures |r| <= 5
  {
    var list := SharedMatches(projects, email.GetOr(""));
    if |list| > 0 then list[..Min(5, |list|)] else projects[..Min(3, |projects|)]
  }

  /** The section is empty only for an empty project list. */
  lemma SharedSectionEmptyIffNoProjects(projects: seq<Project>, email: Option<string>)
    ensures SharedSection(projects, email) == [] <==> projects == []
  {
    var list := SharedMatches(projects, email.GetOr(""));
    if list != [] {
      assert list[0] in SharedSection(projects, email);
    } else if projects != [] {
      assert projects[0] in SharedSection(projects, email);
    }
  }

  /**
   * Every project the dashboard counts as shared is also listed by the
   * store's `listSharedWith`; the converse fails only for a project without
   * a general access, which the store counts as shared and the dashboard as
   * private.
   */
  lemma DashboardSharingVersusStore(p: Project, email: string)
    ensures SharedWithMe(p, email) ==> Store.SharedWith(p, email)
    ensures Store.SharedWith(p, email) && p.generalAccess.Some? ==> SharedWithMe(p, email)
    ensures p.generalAccess.None? && !InvitedAs(p, email) ==> Store.SharedWith(p, email) && !SharedWithMe(p, email)
  {
  }

  // ---- sections ----

  /** The preferences used when none are stored: every section, shown, in the default order. */
  const DefaultPrefs := Layout.LayoutPrefs(Some(Layout.AllSections), map k | k in Layout.AllSections :: true)

  /** The test `prefs.visibility[key]`: a missing key is undefined, so not shown. */
  function Shown(visibility: map<string, bool>): string -> bool {
    (k: string) => k in visibility && visibility[k]
  }

  /**
   * The keys `prefs.order.map(...)` renders a section for, in stored order:
   * those whose visibility is true. A missing order makes `map` throw (None).
   * An unknown key with a true visibility renders an empty section.
   */
  function RenderedSections(prefs: Layout.LayoutPrefs): (r: Option<seq<string>>)
    ensures r.None? <==> prefs.order.None?
    ensures r.Some? ==> forall k :: k in r.value <==> k in prefs.order.value && k in prefs.visibility && prefs.visibility[k]
    ensures r.Some? ==> Subsequence(r.value, prefs.order.value)
  {
    match prefs.order
    case None => None
    case Some(order) =>
      FilterSubsequence(order, Shown(prefs.visibility));
      Some(Filter(order, Shown(prefs.visibility)))
  }

  /** Preferences listing every section once in the default order, all shown, render every section in that order. */
  lemma AllShownRenderAll(prefs: Layout.LayoutPrefs)
    requires prefs.order == Some(Layout.AllSections)
    requires forall k :: k in prefs.visibility <==> Layout.IsSection(k)
    requires forall k :: k in prefs.visibility ==> prefs.visibility[k]
    ensures RenderedSections(prefs) == Some(Layout.AllSections)
    ensures Layout.PrefsRepair(prefs).None?
  {
    assert !Layout.NeedsRepair(prefs.visibility) by {
      assert forall j :: 0 <= j < |Layout.AllSections| ==> Layout.IsSection(Layout.AllSections[j]);
    }
    Layout.RepairIffChanged(prefs.visibility);
    assert Layout.NormalizeOrder(Layout.AllSections) == Layout.AllSections by {
      Layout.PermutationIsNormal(Layout.AllSections);
    }
    assert RenderedSections(prefs) == Some(Layout.AllSections) by {
      FilterAllPass(Layout.AllSections, Shown(prefs.visibility));
    }
  }

  /** The default preferences render all six sections in the default order, and the settings dialog finds nothing to repair in them. */
  lemma DefaultPrefsRenderAll()
    ensures RenderedSections(DefaultPrefs) == Some(Layout.AllSections)
    ensures Layout.PrefsRepair(DefaultPrefs).None?
  {
    AllShownRenderAll(DefaultPrefs);
  }

  /**
   * Once the settings dialog has repaired the preferences, the dashboard
   * renders only known sections, each once when the stored order had no
   * repetition, and hides exactly the sections switched off.
   */
  lemma RepairedPrefsRenderKnownSections(prefs: Layout.LayoutPrefs, k: string)
    requires Layout.PrefsRepair(prefs).Some?
    ensures var rendered := RenderedSections(Layout.PrefsRepair(prefs).value);
      && rendered.Some?
      && (k in rendered.value <==> Layout.IsSection(k) && (k !in prefs.visibility || prefs.visibility[k]))
      && (Distinct(Layout.StoredOrder(prefs)) ==> Distinct(rendered.value))
  {
    var next := Layout.PrefsRepair(prefs).value;
    var order := Layout.NormalizeOrder(Layout.StoredOrder(prefs));
    if Distinct(Layout.StoredOrder(prefs)) {
      FilterDistinct(order, Shown(next.visibility));
    }
  }
}

=== FILE: editor.dfy ===
/**
 * The project editor's draft: single-field edits, knowledge files added and
 * removed, and the preview chat. Ids and timestamps are inputs, as is the
 * data URL the browser would read for an image; the preview reply is a
 * `chat` function (`chatOnce` with its host, keys and HTTP outcome fixed).
 */
module Editor {
  import opened Wrappers
  import opened Text
  import opened Types
  import opened Infer

  /** `{ ...d, [key]: value, updatedAt: now }`. */
  function EditField(d: Project, v: FieldValue, now: string): (q: Project)
    ensures q.updatedAt == now
    ensures KeyOf(v) != UpdatedAtField ==> FieldOf(q, KeyOf(v)) == v
    ensures forall k :: k != KeyOf(v) && k != UpdatedAtField ==> FieldOf(q, k) == FieldOf(d, k)
  {
    Assign(Assign(d, v), UpdatedAt(now))
  }

  /** Editing a field to the value it holds only moves the timestamp. */
  lemma EditOwnValue(d: Project, k: FieldKey, now: string)
    ensures EditField(d, FieldOf(d, k), now) == d.(updatedAt := now)
  {
    AssignOwnValue(d, k);
  }

  /** The knowledge base without the files carrying this id, the others in order. */
  function WithoutFile(kb: seq<KnowledgeFile>, id: string): (r: seq<KnowledgeFile>)
    ensures |r| <= |kb|
    ensures forall f :: f in r <==> f in kb && f.id != id
    ensures forall j :: 0 <= j < |r| ==> r[j].id != id
  {
    if kb == [] then []
    else if kb[0].id == id then WithoutFile(kb[1..], id)
    else [kb[0]] + WithoutFile(kb[1..], id)
  }

  /** Removing an id nobody carries keeps the list as it is. */
  lemma {:induction false} WithoutAbsentFile(kb: seq<KnowledgeFile>, id: string)
    requires forall j :: 0 <= j < |kb| ==> kb[j].id != id
    ensures WithoutFile(kb, id) == kb
  {
    if kb != [] {
      WithoutAbsentFile(kb[1..], id);
    }
  }

  /** Removing filters element by element, so it distributes over concatenation. */
  lemma {:induction false} WithoutFileAppend(xs: seq<KnowledgeFile>, ys: seq<KnowledgeFile>, id: string)
    ensures WithoutFile(xs + ys, id) == WithoutFile(xs, id) + WithoutFile(ys, id)
  {
    if xs == [] {
      assert xs + ys == ys;
    } else {
      assert (xs + ys)[0] == xs[0];
      assert (xs + ys)[1..] == xs[1..] + ys;
      WithoutFileAppend(xs[1..], ys, id);
    }
  }

  /** Removing a file just added, under an id no other file has, gives back the earlier list. */
  lemma RemoveUndoesAdd(kb: seq<KnowledgeFile>, f: KnowledgeFile)
    requires forall j :: 0 <= j < |kb| ==> kb[j].id != f.id
    ensures WithoutFile(kb + [f], f.id) == kb
  {
    WithoutFileAppend(kb, [f], f.id);
    WithoutAbsentFile(kb, f.id);
    assert WithoutFile([f], f.id) == WithoutFile([], f.id);
  }

  /** A file the user picked: what the browser reports, and the data URL reading it would give. */
  datatype PickedFile = PickedFile(name: string, size: int, mime: string, dataUrl: string)

  const MaxPreviewSize := 300000

  /** A preview is kept only for images of at most 300,000 bytes. */
  predicate HasPreview(f: PickedFile) {
    f.size <= MaxPreviewSize && StartsWith(f.mime, "image/")
  }

  /** The knowledge-file record for a picked file, with its generated id and timestamp. */
  function ToKnowledgeFile(f: PickedFile, id: string, addedAt: string): (k: KnowledgeFile)
    ensures k.id == id && k.name == f.name && k.size == f.size && k.mime == f.mime && k.addedAt == addedAt
    ensures k.dataUrl.Some? <==> HasPreview(f)
    ensures k.dataUrl.Some? ==> k.dataUrl.value == f.dataUrl
    ensures k.text.None?
  {
    KnowledgeFile(id, f.name, f.size, f.mime, if HasPreview(f) then Some(f.dataUrl) else None, None, addedAt)
  }

  /** The draft being edited and the preview panel. */
  class EditorDraft {
    var draft: Project
    var previewInput: string
    var previewOutput: string
    var isPreviewing: bool

    /** The draft starts as the given project, or as a new default project. */
    constructor(project: Option<Project>, id: string, now: string)
      ensures draft == (if project.Some? then project.value else CreateDefaultProject(id, now, []))
      ensures previewInput == "Explain photosynthesis in two sentences." && previewOutput == "" && !isPreviewing
    {
      draft := if project.Some? then project.value else CreateDefaultProject(id, now, []);
      previewInput := "Explain photosynthesis in two sentences.";
      previewOutput := "";
      isPreviewing := false;
    }

    /** `update(key, value)`. */
    method Update(v: FieldValue, now: string)
      modifies this
      ensures draft == EditField(old(draft), v, now)
      ensures previewInput == old(previewInput) && previewOutput == old(previewOutput) && isPreviewing == old(isPreviewing)
    {
      draft := EditField(draft, v, now);
    }

    /** `removeFile(id)`. */
    method RemoveFile(id: string, now: string)
      modifies this
      ensures draft == old(draft).(knowledgeBase := WithoutFile(old(draft).knowledgeBase, id), updatedAt := now)
      ensures previewInput == old(previewInput) && previewOutput == old(previewOutput) && isPreviewing == old(isPreviewing)
    {
      draft := draft.(knowledgeBase := WithoutFile(draft.knowledgeBase, id), updatedAt := now);
    }

    /**
     * `handleFileAdd(files)`: nothing for an empty pick; otherwise one record
     * per file, in order, after the existing files, and a new timestamp.
     * `ids[j]` and `stamps[j]` are the id and time generated for `files[j]`.
     */
    method HandleFileAdd(files: seq<PickedFile>, ids: seq<string>, stamps: seq<string>, now: string)
      requires |ids| == |files| && |stamps| == |files|
      modifies this
      ensures files == [] ==> draft == old(draft)
      ensures files != [] ==>
        && |draft.knowledgeBase| == |old(draft).knowledgeBase| + |files|
        && draft.knowledgeBase[..|old(draft).knowledgeBase|] == old(draft).knowledgeBase
        && (forall j :: 0 <= j < |files| ==>
              draft.knowledgeBase[|old(draft).knowledgeBase| + j] == ToKnowledgeFile(files[j], ids[j], stamps[j]))
        && draft == old(draft).(knowledgeBase := draft.knowledgeBase, updatedAt := now)
      ensures previewInput == old(previewInput) && previewOutput == old(previewOutput) && isPreviewing == old(isPreviewing)
    {
      if files == [] {
        return;
      }
      var additions: seq<KnowledgeFile> := [];
      var i := 0;
      while i < |files|
        invariant 0 <= i <= |files|
        invariant |additions| == i
        invariant forall j :: 0 <= j < i ==> additions[j] == ToKnowledgeFile(files[j], ids[j], stamps[j])
      {
        var f := files[i];
        var dataUrl: Option<string> := None;
        if f.size <= MaxPreviewSize && StartsWith(f.mime, "image/") {
          dataUrl := Some(f.dataUrl);
        }
        additions := additions + [KnowledgeFile(ids[i], f.name, f.size, f.mime, dataUrl, None, stamps[i])];
        i := i + 1;
      }
      draft := draft.(knowledgeBase := draft.knowledgeBase + additions, updatedAt := now);
    }

    /** `runPreview()`: one user message with the preview input; the reply, or the thrown error's message, becomes the output. */
    method RunPreview(chat: (Project, seq<ChatMessage>) -> Result<string>) returns (sent: seq<ChatMessage>)
      modifies this
      ensures sent == [ChatMessage(User, old(previewInput))]
      ensures previewOutput == (match chat(old(draft), sent) case Ok(out) => out case Err(message) => message)
      ensures !isPreviewing && draft == old(draft) && previewInput == old(previewInput)
    {
      isPreviewing := true;
      sent := [ChatMessage(User, previewInput)];
      var reply := chat(draft, sent);
      match reply {
        case Ok(out) => previewOutput := out;
        case Err(message) => previewOutput := message;
      }
      isPreviewing := false;
    }
  }
}

=== FILE: guided.dfy ===
/**
 * The guided setup dialog: the form's answers are turned into one prompt,
 * handed to the scaffolder, and the dialog closes.
 */
module Guided {
  import opened Text
  import opened Lists
  import Js
  import Scaffold

  /** The dialog's answers; `kind` is the source's `type` (a reserved word in Dafny). */
  datatype GuidedForm = GuidedForm(kind: string, subject: string, audience: string, includeRag: bool, ragTopK: Js.Number, notes: string)

  /** The answers the dialog opens with. */
  const DefaultForm := GuidedForm("Course FAQ chatbot", "", "Students", true, Js.Finite(6.0), "")

  /** The RAG line: always present, one of two forms. */
  function RagLine(h: Js.Host, f: GuidedForm): (line: string)
    ensures f.includeRag ==> line == "Enable RAG with topK=" + Js.ShowNumber(h, f.ragTopK)
    ensures !f.includeRag ==> line == "RAG disabled"
  {
    if f.includeRag then "Enable RAG with topK=" + Js.ShowNumber(h, f.ragTopK) else "RAG disabled"
  }

  /** `value ? prefix + value : ''`, as a list of at most one line. */
  function Optional(prefix: string, value: string): (lines: seq<string>)
    ensures value == "" ==> lines == []
    ensures value != "" ==> lines == [prefix + value]
  {
    if value != "" then [prefix + value] else []
  }

  predicate NonEmpty(s: string) {
    s != ""
  }

  /** The five candidate lines, in their fixed order, before empty ones are dropped. */
  function Candidates(h: Js.Host, f: GuidedForm): seq<string> {
    [ "Project type: " + f.kind,
      if f.subject != "" then "Subject/course: " + f.subject else "",
      if f.audience != "" then "Audience: " + f.audience else "",
      RagLine(h, f),
      if f.notes != "" then "Notes: " + f.notes else "" ]
  }

  /** A line, kept only when it is not empty. */
  function Keep(s: string): (lines: seq<string>)
    ensures s == "" ==> lines == []
    ensures s != "" ==> lines == [s]
  {
    if s != "" then [s] else []
  }

  /** `filter(Boolean)` keeps line `i` only when it is not empty, then goes on. */
  lemma FilterStep(xs: seq<string>, i: nat)
    requires i < |xs|
    ensures Filter(xs[i..], NonEmpty) == Keep(xs[i]) + Filter(xs[i + 1..], NonEmpty)
  {
    assert xs[i..][1..] == xs[i + 1..];
  }

  /** `filter(Boolean)` over five lines keeps the non-empty ones in place. */
  lemma FilterFive(xs: seq<string>)
    requires |xs| == 5
    ensures Filter(xs, NonEmpty) == Keep(xs[0]) + (Keep(xs[1]) + (Keep(xs[2]) + (Keep(xs[3]) + Keep(xs[4]))))
  {
    var k0, k1, k2, k3, k4 := Keep(xs[0]), Keep(xs[1]), Keep(xs[2]), Keep(xs[3]), Keep(xs[4]);
    FilterStep(xs, 4);
    assert xs[5..] == [];
    assert Filter(xs[5..], NonEmpty) == [];
    assert Filter(xs[4..], NonEmpty) == k4;
    FilterStep(xs, 3);
    assert Filter(xs[3..], NonEmpty) == k3 + k4;
    FilterStep(xs, 2);
    assert Filter(xs[2..], NonEmpty) == k2 + (k3 + k4);
    FilterStep(xs, 1);
    assert Filter(xs[1..], NonEmpty) == k1 + (k2 + (k3 + k4));
    FilterStep(xs, 0);
    assert xs[0..] == xs;
  }

  /** Which candidate lines survive `filter(Boolean)`. */
  lemma CandidatesKept(h: Js.Host, f: GuidedForm)
    ensures var c := Candidates(h, f);
      && Keep(c[0]) == ["Project type: " + f.kind]
      && Keep(c[1]) == Optional("Subject/course: ", f.subject)
      && Keep(c[2]) == Optional("Audience: ", f.audience)
      && Keep(c[3]) == [RagLine(h, f)]
      && Keep(c[4]) == Optional("Notes: ", f.notes)
  {
    var c := Candidates(h, f);
    assert |c[0]| >= 14;
    assert |c[3]| >= 12;
  }

  /**
   * `[...].filter(Boolean)`: the project type first, then the subject,
   * audience and notes lines only when answered, with the one RAG line
   * before the notes.
   */
  function DetailLines(h: Js.Host, f: GuidedForm): (lines: seq<string>)
    ensures lines == ["Project type: " + f.kind] + (Optional("Subject/course: ", f.subject) + (Optional("Audience: ", f.audience)
      + ([RagLine(h, f)] + Optional("Notes: ", f.notes))))
    ensures forall i :: 0 <= i < |lines| ==> lines[i] != ""
  {
    FilterFive(Candidates(h, f));
    CandidatesKept(h, f);
    Filter(Candidates(h, f), NonEmpty)
  }

  /** A RAG line is one starting "Enable RAG with topK=" or reading "RAG disabled". */
  predicate IsRagLine(s: string) {
    StartsWith(s, "Enable RAG with topK=") || s == "RAG disabled"
  }

  /** Where the RAG line sits: after the type and the answered subject and audience. */
  function RagIndex(f: GuidedForm): nat {
    1 + (if f.subject != "" then 1 else 0) + (if f.audience != "" then 1 else 0)
  }

  /** Exactly one line is a RAG line, and it sits at `RagIndex`; the details start with the project type. */
  lemma ExactlyOneRagLine(h: Js.Host, f: GuidedForm)
    ensures var lines := DetailLines(h, f);
      && RagIndex(f) < |lines|
      && StartsWith(lines[0], "Project type: ")
      && forall i :: 0 <= i < |lines| ==> (IsRagLine(lines[i]) <==> i == RagIndex(f))
  {
    var lines := DetailLines(h, f);
    forall i | 0 <= i < |lines| ensures IsRagLine(lines[i]) <==> i == RagIndex(f) {
      if i != RagIndex(f) {
        var s := lines[i];
        assert s[0] in {'P', 'S', 'A', 'N'};
        assert s[0] != "Enable RAG with topK="[0] && s[0] != "RAG disabled"[0];
      } else {
        assert lines[i] == RagLine(h, f);
      }
    }
  }

  const Header := "Create an AI project " + "with the following details.\n"
  const Footer := "\nReturn: projectName, description, " + "category, and systemInstructions."

  /** The details, one line each. */
  function Details(h: Js.Host, f: GuidedForm): string {
    Join(DetailLines(h, f), "\n")
  }

  /** The prompt `submit` builds: the fixed header, the details, the fixed footer; the details can be read back from between them. */
  function Prompt(h: Js.Host, f: GuidedForm): (prompt: string)
    ensures |prompt| == |Header| + |Details(h, f)| + |Footer|
    ensures prompt[..|Header|] == Header
    ensures prompt[|prompt| - |Footer|..] == Footer
    ensures prompt[|Header|..|prompt| - |Footer|] == Details(h, f)
  {
    var prompt := Header + Details(h, f) + Footer;
    assert prompt[..|Header|] == Header;
    assert prompt[|prompt| - |Footer|..] == Footer;
    assert prompt[|Header|..|prompt| - |Footer|] == Details(h, f);
    prompt
  }

  /** What `submit` does, in order. */
  datatype Effect = Scaffold(prompt: string) | Close

  /** `submit()`: one scaffold request with the prompt, then close. */
  function Submit(h: Js.Host, f: GuidedForm): (effects: seq<Effect>)
    ensures effects == [Scaffold(Prompt(h, f)), Close]
  {
    [Scaffold(Prompt(h, f)), Close]
  }

  /** A string that starts and ends with non-space characters is its own trim. */
  lemma TrimKeeps(s: string)
    requires s != [] && !IsSpace(s[0]) && !IsSpace(s[|s| - 1])
    ensures Trim(s) == s
  {
    TrimKeepsFront(s);
  }

  /** The details start with the project type line. */
  lemma DetailsStart(h: Js.Host, f: GuidedForm)
    ensures |Details(h, f)| >= |"Project type: "|
    ensures Details(h, f)[..|"Project type: "|] == "Project type: "
  {
    var lines := DetailLines(h, f);
    JoinCons(lines[0], lines[1..], "\n");
    assert lines == [lines[0]] + lines[1..];
  }

  /** The fixed text every guided prompt starts with. */
  const Lead := Header + "Project type: "

  /** A guided prompt starts and ends with a non-space character and its first 60 characters are those of `Lead`. */
  lemma PromptShape(h: Js.Host, f: GuidedForm)
    ensures |Lead| > 60
    ensures var p := Prompt(h, f);
      && |p| > 60 && !IsSpace(p[0]) && !IsSpace(p[|p| - 1]) && p[..60] == Lead[..60]
  {
    var p := Prompt(h, f);
    DetailsStart(h, f);
    assert |Header| == 49;
    assert Footer[|Footer| - 1] == '.';
    assert Header[0] == 'C';
    assert p[0] == Header[0];
    assert p[|p| - 1] == Footer[|Footer| - 1];
    assert p[..|Header|] == Header;
    assert p[|Header|..|Header| + 14] == Details(h, f)[..14];
    assert p[..|Header| + 14] == Lead;
  }

  /** A guided prompt is its own trim and its first 60 characters are those of `Lead`. */
  lemma PromptLead(h: Js.Host, f: GuidedForm)
    ensures |Lead| > 60
    ensures Trim(Prompt(h, f)) == Prompt(h, f)
    ensures |Prompt(h, f)| > 60 && Prompt(h, f)[..60] == Lead[..60]
  {
    PromptShape(h, f);
    TrimKeeps(Prompt(h, f));
  }

  /**
   * Without provider keys the heuristic names a project from the first 60
   * characters of the trimmed prompt; for a guided prompt those lie within
   * the fixed header and the "Project type: " label, so every guided
   * project gets the same name, whatever the answers.
   */
  lemma GuidedHeuristicName(h: Js.Host, f: GuidedForm)
    ensures Scaffold.HeuristicName(Trim(Prompt(h, f))) == Capitalize(Lead[..60])
  {
    PromptLead(h, f);
  }
}

=== FILE: infer.dfy ===
/**
 * `chatOnce`: which provider a chat goes to, the request it sends, and how the
 * reply becomes text. The key look-ups and the HTTP exchange are inputs: the
 * keys are a `Keys` value and the provider's answer an `HttpResult`.
 */
module Infer {
  import opened Wrappers
  import opened Text
  import opened Types
  import opened Js

  datatype ChatRole = System | User | Assistant

  function RoleName(r: ChatRole): string {
    match r
    case System => "system"
    case User => "user"
    case Assistant => "assistant"
  }

  datatype ChatMessage = ChatMessage(role: ChatRole, content: string)

  /** The seven stored provider keys; a missing or empty key is absent. */
  datatype Keys = Keys(
    openai: Option<string>, gemini: Option<string>, meta: Option<string>, nova: Option<string>,
    o1: Option<string>, titan: Option<string>, aws: Option<string>)

  predicate Present(k: Option<string>) {
    k.Some? && k.value != ""
  }

  predicate AnyKey(keys: Keys) {
    Present(keys.openai) || Present(keys.gemini) || Present(keys.meta) || Present(keys.nova)
    || Present(keys.o1) || Present(keys.titan) || Present(keys.aws)
  }

  /** Index of the last user message, or -1. */
  function LastUserIndex(msgs: seq<ChatMessage>): (i: int)
    ensures -1 <= i < |msgs|
    ensures i == -1 ==> forall j :: 0 <= j < |msgs| ==> msgs[j].role != User
    ensures i >= 0 ==> msgs[i].role == User && forall j :: i < j < |msgs| ==> msgs[j].role != User
  {
    if msgs == [] then -1
    else if msgs[|msgs| - 1].role == User then |msgs| - 1
    else LastUserIndex(msgs[..|msgs| - 1])
  }

  /** `[...messages].reverse().find(m => m.role === 'user')`. */
  function LastUser(msgs: seq<ChatMessage>): (r: Option<ChatMessage>)
    ensures r.None? <==> forall j :: 0 <= j < |msgs| ==> msgs[j].role != User
    ensures r.Some? ==> r.value.role == User && r.value in msgs
  {
    var i := LastUserIndex(msgs);
    if i < 0 then None else Some(msgs[i])
  }

  /** `lastUser?.content ?? ''`. */
  function LastPrompt(msgs: seq<ChatMessage>): string {
    match LastUser(msgs)
    case Some(m) => m.content
    case None => ""
  }

  // ---- the texts returned without a network call ----

  function RagInfo(h: Host, p: Project): string {
    if p.rag.enabled then "RAG(topK=" + ShowNumber(h, p.rag.topK) + ")" else "RAG(disabled)"
  }

  function MemoryInfo(h: Host, p: Project): string {
    if p.memory.enabled then "memory(window=" + h.showNumber(p.memory.window as real) + ")" else "memory(disabled)"
  }

  function SystemOrNone(p: Project): string {
    if p.systemInstructions != "" then p.systemInstructions else "(none)"
  }

  /** `Mocked <provider>/<label>`. */
  function MockName(p: Project): string {
    "Mocked " + ProviderName(p.model.provider) + "/" + p.model.labelText
  }

  function MockParams(h: Host, p: Project): string {
    " (temp=" + h.showNumber(p.temperature) + ", tokens=" + h.showNumber(p.outputTokens as real) + ") with "
  }

  function MockSettings(h: Host, p: Project): string {
    RagInfo(h, p) + ", " + MemoryInfo(h, p) + "."
  }

  function MockEcho(p: Project, msgs: seq<ChatMessage>): string {
    "\nSystem: " + SystemOrNone(p) + "\nInput: " + LastPrompt(msgs) + "\n"
  }

  const MockFooter := "\U{2014} This is a simulated response. Set a provider key in Provider Keys to call real models."

  /** The simulated reply given when no key is configured. */
  function MockText(h: Host, p: Project, msgs: seq<ChatMessage>): string {
    MockName(p) + MockParams(h, p) + MockSettings(h, p) + MockEcho(p, msgs) + MockFooter
  }

  /** `<Name> API call placeholder for model <id>. Your prompt: <last user>.` */
  function StubLead(name: string, p: Project, msgs: seq<ChatMessage>): string {
    name + " API call placeholder for model " + p.model.id + ". Your prompt: " + LastPrompt(msgs) + "."
  }

  /** The placeholder of a provider that has a key but no live endpoint. */
  function StubText(name: string, article: string, p: Project, msgs: seq<ChatMessage>): string {
    StubLead(name, p, msgs) + " Configure " + article + " " + name + " endpoint to enable real calls."
  }

  function NoMatchText(p: Project, msgs: seq<ChatMessage>): string {
    "No matching provider key for " + ProviderName(p.model.provider) + ". Prompt: " + LastPrompt(msgs)
  }

  // ---- request shaping ----

  datatype Api = OpenAIApi | GeminiApi | LlamaApi

  /** An HTTP POST: where it goes, its bearer token if any, and its JSON body. */
  datatype Request = Request(url: string, bearer: Option<string>, body: Json)

  function Prop(key: string, value: Json): Field {
    Field(key, value)
  }

  function MessageJson(m: ChatMessage): Json {
    Obj([Prop("role", Str(RoleName(m.role))), Prop("content", Str(m.content))])
  }

  /** The `messages` array of an OpenAI-style body: the system turn when there are instructions, then the history. */
  function ChatMessages(p: Project, msgs: seq<ChatMessage>): (items: seq<Json>)
    ensures var off := if p.systemInstructions != "" then 1 else 0;
      && |items| == |msgs| + off
      && (off == 1 ==> items[0] == MessageJson(ChatMessage(System, p.systemInstructions)))
      && forall i :: 0 <= i < |msgs| ==> items[off + i] == MessageJson(msgs[i])
  {
    (if p.systemInstructions != "" then [MessageJson(ChatMessage(System, p.systemInstructions))] else [])
    + seq(|msgs|, i requires 0 <= i < |msgs| => MessageJson(msgs[i]))
  }

  function ChatBody(p: Project, msgs: seq<ChatMessage>, streamFlag: bool): Json {
    Obj([Prop("model", Str(p.model.id)),
         Prop("messages", Arr(ChatMessages(p, msgs))),
         Prop("max_tokens", Num(Finite(p.outputTokens as real))),
         Prop("temperature", Num(Finite(p.temperature)))]
        + (if streamFlag then [Prop("stream", Bool(false))] else []))
  }

  /** `messages.map(m => `${m.role}: ${m.content}`)`. */
  function HistoryLines(msgs: seq<ChatMessage>): (lines: seq<string>)
    ensures |lines| == |msgs|
    ensures forall i :: 0 <= i < |msgs| ==> lines[i] == RoleName(msgs[i].role) + ": " + msgs[i].content
  {
    seq(|msgs|, i requires 0 <= i < |msgs| => RoleName(msgs[i].role) + ": " + msgs[i].content)
  }

  function GeminiPart(text: string): Json {
    Obj([Prop("role", Str("user")), Prop("parts", Arr([Obj([Prop("text", Str(text))])]))])
  }

  function GeminiContents(p: Project, msgs: seq<ChatMessage>): seq<Json> {
    (if p.systemInstructions != "" then [GeminiPart(p.systemInstructions)] else [])
    + [GeminiPart(Join(HistoryLines(msgs), "\n"))]
  }

  function GeminiBody(p: Project, msgs: seq<ChatMessage>): Json {
    Obj([Prop("contents", Arr(GeminiContents(p, msgs))),
         Prop("generationConfig", Obj([Prop("temperature", Num(Finite(p.temperature))),
                                       Prop("maxOutputTokens", Num(Finite(p.outputTokens as real)))]))])
  }

  const OpenAIUrl := "https://api.openai.com/v1/chat/completions"
  const LlamaUrl := "https://api.llama.com/compat/v1/chat/completions"
  const GeminiUrlPrefix := "https://generativelanguage.googleapis.com/v1beta/models/"

  function GeminiUrl(model: string, key: string): string {
    GeminiUrlPrefix + model + ":generateContent?key=" + key
  }

  // ---- routing ----

  /** What `chatOnce` does for a project, a history and a set of keys. */
  datatype Outcome =
    | Mock(text: string)          // no key at all
    | Placeholder(text: string)   // Nova, O1, Titan or AWS with its key
    | NoMatch(text: string)       // some key, but not the model's provider's
    | Call(api: Api, request: Request)

  /**
   * The branch `chatOnce` takes: the mock when no key is present, otherwise the
   * first provider branch whose family is the model's provider and whose key is
   * present, otherwise the no-match text.
   */
  function Route(h: Host, p: Project, msgs: seq<ChatMessage>, keys: Keys): (r: Outcome)
    ensures r.Mock? <==> !AnyKey(keys)
    ensures r.Call? && r.api == OpenAIApi <==> AnyKey(keys) && p.model.provider == OpenAI && Present(keys.openai)
    ensures r.Call? && r.api == GeminiApi <==> AnyKey(keys) && p.model.provider == Google && Present(keys.gemini)
    ensures r.Call? && r.api == LlamaApi <==> AnyKey(keys) && p.model.provider == Meta && Present(keys.meta)
    ensures r.Placeholder? <==> (AnyKey(keys) &&
      ((p.model.provider == Nova && Present(keys.nova)) || (p.model.provider == O1 && Present(keys.o1))
      || (p.model.provider == Titan && Present(keys.titan)) || (p.model.provider == AWS && Present(keys.aws))))
  {
    var prov := p.model.provider;
    if !AnyKey(keys) then Mock(MockText(h, p, msgs))
    else if prov == OpenAI && Present(keys.openai) then
      Call(OpenAIApi, Request(OpenAIUrl, Some("Bearer " + keys.openai.value), ChatBody(p, msgs, false)))
    else if prov == Google && Present(keys.gemini) then
      Call(GeminiApi, Request(GeminiUrl(p.model.id, keys.gemini.value), None, GeminiBody(p, msgs)))
    else if prov == Meta && Present(keys.meta) then
      Call(LlamaApi, Request(LlamaUrl, Some("Bearer " + keys.meta.value), ChatBody(p, msgs, true)))
    else if prov == Nova && Present(keys.nova) then Placeholder(StubText("Nova", "a", p, msgs))
    else if prov == O1 && Present(keys.o1) then Placeholder(StubText("O1", "an", p, msgs))
    else if prov == Titan && Present(keys.titan) then Placeholder(StubText("Titan", "a", p, msgs))
    else if prov == AWS && Present(keys.aws) then Placeholder(StubText("AWS", "an", p, msgs))
    else NoMatch(NoMatchText(p, msgs))
  }

  // ---- the reply ----

  /** The outcome of `fetch`: a rejected promise with its message, or a response. */
  datatype HttpResult = NetworkError(message: string) | Response(status: nat, body: string)

  predicate Ok2xx(status: nat) {
    200 <= status <= 299
  }

  /** The message V8 gives for `data.choices` when the body was the JSON `null`. */
  const NullChoicesMessage := "Cannot read properties of null (reading 'choices')"

  /** `data.choices?.[0]?.message?.content`. */
  function ChoiceContent(data: Json): Json {
    Get(Get(At(Get(data, "choices"), 0), "message"), "content")
  }

  /** `data?.candidates?.[0]?.content?.parts?.[0]?.text`. */
  function CandidateText(data: Json): Json {
    Get(At(Get(Get(At(Get(data, "candidates"), 0), "content"), "parts"), 0), "text")
  }

  /** The provider's reply as text, or the message of the error `chatOnce` throws. */
  function Finish(h: Host, api: Api, resp: HttpResult): (r: Result<string>)
    ensures api == OpenAIApi ==> r == FinishChat(h, "OpenAI error: ", resp)
    ensures api == LlamaApi && FinishChat(h, "Llama API error: ", resp).Ok? ==> r == FinishChat(h, "Llama API error: ", resp)
    ensures api == LlamaApi && FinishChat(h, "Llama API error: ", resp).Err? ==>
      r == Err("Llama API call failed: " + FinishChat(h, "Llama API error: ", resp).message)
    ensures api == LlamaApi && r.Err? ==> StartsWith(r.message, "Llama API call failed: ")
    ensures api != LlamaApi && resp.NetworkError? ==> r == Err(resp.message)
    ensures api == GeminiApi && resp.Response? && !Ok2xx(resp.status) ==>
      r == Err("Gemini error: " + NatToString(resp.status) + " " + resp.body)
    ensures api == GeminiApi && resp.Response? && Ok2xx(resp.status) && h.parseJson(resp.body).Err? ==>
      r == Err(h.parseJson(resp.body).message)
    ensures api == GeminiApi && resp.Response? && Ok2xx(resp.status) && h.parseJson(resp.body).Ok? ==>
      r == Ok(ReplyText(h, CandidateText(h.parseJson(resp.body).value)))
  {
    match api
    case OpenAIApi => FinishChat(h, "OpenAI error: ", resp)
    case LlamaApi =>
      (match FinishChat(h, "Llama API error: ", resp)
       case Ok(text) => Ok(text)
       case Err(m) => Err("Llama API call failed: " + m))
    case GeminiApi =>
      match resp
      case NetworkError(m) => Err(m)
      case Response(status, body) =>
        if !Ok2xx(status) then Err("Gemini error: " + NatToString(status) + " " + body)
        else match h.parseJson(body)
          case Err(m) => Err(m)
          case Ok(data) => Ok(ReplyText(h, CandidateText(data)))
  }

  /** The OpenAI-compatible reply handling shared by OpenAI and the Llama API. */
  function FinishChat(h: Host, errorPrefix: string, resp: HttpResult): (r: Result<string>)
    ensures resp.NetworkError? ==> r == Err(resp.message)
    ensures resp.Response? && !Ok2xx(resp.status) ==>
      r == Err(errorPrefix + NatToString(resp.status) + " " + resp.body)
    ensures resp.Response? && Ok2xx(resp.status) && h.parseJson(resp.body).Err? ==>
      r == Err(h.parseJson(resp.body).message)
    ensures resp.Response? && Ok2xx(resp.status) && h.parseJson(resp.body) == Ok(Null) ==>
      r == Err(NullChoicesMessage)
    ensures resp.Response? && Ok2xx(resp.status) && h.parseJson(resp.body).Ok? && !h.parseJson(resp.body).value.Null? ==>
      r == Ok(ReplyText(h, ChoiceContent(h.parseJson(resp.body).value)))
  {
    match resp
    case NetworkError(m) => Err(m)
    case Response(status, body) =>
      if !Ok2xx(status) then Err(errorPrefix + NatToString(status) + " " + body)
      else match h.parseJson(body)
        case Err(m) => Err(m)
        case Ok(data) => if data.Null? then Err(NullChoicesMessage) else Ok(ReplyText(h, ChoiceContent(data)))
  }

  /** `out ?? ''`, as the text the caller displays. */
  function ReplyText(h: Host, v: Json): (s: string)
    ensures v.Str? ==> s == v.s
    ensures Nullish(v) ==> s == ""
  {
    if Nullish(v) then "" else ToStr(h, v)
  }

  /** `chatOnce(project, messages)`: the reply text or the thrown error's message. */
  function ChatOnce(h: Host, p: Project, msgs: seq<ChatMessage>, keys: Keys, resp: HttpResult): (r: Result<string>)
    ensures !Route(h, p, msgs, keys).Call? ==> r.Ok?
    ensures !AnyKey(keys) ==> r == Ok(MockText(h, p, msgs))
  {
    match Route(h, p, msgs, keys)
    case Mock(text) => Ok(text)
    case Placeholder(text) => Ok(text)
    case NoMatch(text) => Ok(text)
    case Call(api, _) => Finish(h, api, resp)
  }

  // ---- properties ----

  /** Without keys the reply is the mock whatever the network would have answered: no call is made. */
  lemma MockIgnoresNetwork(h: Host, p: Project, msgs: seq<ChatMessage>, keys: Keys, r1: HttpResult, r2: HttpResult)
    requires !AnyKey(keys)
    ensures ChatOnce(h, p, msgs, keys, r1) == ChatOnce(h, p, msgs, keys, r2)
  {
  }

  /** The mock names the provider and model, and carries the RAG, memory, system and input parts. */
  lemma MockTextParts(h: Host, p: Project, msgs: seq<ChatMessage>)
    ensures var t := MockText(h, p, msgs);
      && StartsWith(t, MockName(p))
      && Contains(t, MockSettings(h, p))
      && Contains(t, MockEcho(p, msgs))
  {
    var t := MockText(h, p, msgs);
    var a, b, c, d := MockName(p), MockParams(h, p), MockSettings(h, p), MockEcho(p, msgs);
    assert t == a + b + c + d + MockFooter;
    assert t[..|a|] == a;
    assert OccursAt(t, c, |a| + |b|) by {
      assert t[|a| + |b|..|a| + |b| + |c|] == c;
    }
    assert OccursAt(t, d, |a| + |b| + |c|) by {
      assert t[|a| + |b| + |c|..|a| + |b| + |c| + |d|] == d;
    }
  }

  /** The settings part of the mock: `RAG(topK=k)` or `RAG(disabled)`, then the memory part. */
  lemma MockSettingsCases(h: Host, p: Project)
    ensures StartsWith(MockSettings(h, p), if p.rag.enabled then "RAG(topK=" else "RAG(disabled), ")
    ensures Contains(MockSettings(h, p), if p.memory.enabled then "memory(window=" else "memory(disabled).")
  {
    var s := MockSettings(h, p);
    var r, m := RagInfo(h, p), MemoryInfo(h, p);
    assert s == r + ", " + m + ".";
    if p.rag.enabled {
      assert s[..9] == r[..9] == "RAG(topK=";
    } else {
      assert s[..15] == "RAG(disabled), ";
    }
    if p.memory.enabled {
      assert OccursAt(s, "memory(window=", |r| + 2) by {
        assert s[|r| + 2..|r| + 2 + 14] == m[..14];
      }
    } else {
      assert OccursAt(s, "memory(disabled).", |r| + 2) by {
        assert s[|r| + 2..|r| + 2 + 17] == m + ".";
      }
    }
  }

  /** The prompt shows `(none)` exactly when the instructions are empty or are themselves the text `(none)`. */
  lemma SystemOrNoneCases(p: Project)
    ensures SystemOrNone(p) == "(none)" <==> p.systemInstructions == "" || p.systemInstructions == "(none)"
  {
  }

  /**
   * OpenAI and Llama bodies: a system turn exactly when there are instructions,
   * then the history unchanged; the Llama body alone carries `stream: false`.
   */
  lemma ChatBodyShape(h: Host, p: Project, msgs: seq<ChatMessage>, keys: Keys)
    requires Route(h, p, msgs, keys).Call? && Route(h, p, msgs, keys).api != GeminiApi
    ensures var req := Route(h, p, msgs, keys).request;
      && Get(req.body, "model") == Str(p.model.id)
      && Get(req.body, "messages") == Arr(ChatMessages(p, msgs))
      && (Get(req.body, "stream") == Bool(false) <==> Route(h, p, msgs, keys).api == LlamaApi)
  {
    var r := Route(h, p, msgs, keys);
    var fs := r.request.body.fields;
    assert r.request.body == ChatBody(p, msgs, r.api == LlamaApi);
    GetField(fs, "model", 0);
    GetField(fs, "messages", 1);
    if r.api == LlamaApi {
      GetField(fs, "stream", 4);
    }
  }

  /**
   * The Gemini request: the model id and key in the URL, an optional system
   * block, then one user block holding the `role: content` lines joined by newlines.
   */
  lemma GeminiRequestShape(h: Host, p: Project, msgs: seq<ChatMessage>, keys: Keys)
    requires Route(h, p, msgs, keys).Call? && Route(h, p, msgs, keys).api == GeminiApi
    ensures var req := Route(h, p, msgs, keys).request;
      var contents := GeminiContents(p, msgs);
      && req.url == GeminiUrlPrefix + p.model.id + ":generateContent?key=" + keys.gemini.value
      && req.bearer.None?
      && Get(req.body, "contents") == Arr(contents)
      && |contents| == (if p.systemInstructions != "" then 2 else 1)
      && contents[|contents| - 1] == GeminiPart(Join(HistoryLines(msgs), "\n"))
  {
    var r := Route(h, p, msgs, keys);
    assert r.request.body == GeminiBody(p, msgs);
    GetField(r.request.body.fields, "contents", 0);
  }

  /** A provider no branch serves (Anthropic, Mistral) always gets the no-match text once some key is set. */
  lemma UnservedProviders(h: Host, p: Project, msgs: seq<ChatMessage>, keys: Keys)
    requires AnyKey(keys) && (p.model.provider == Anthropic || p.model.provider == Mistral)
    ensures ChatOnce(h, p, msgs, keys, NetworkError("")) == Ok(NoMatchText(p, msgs))
  {
  }

  /**
   * Any 2xx reply whose body parses to an object with a `choices` array whose
   * first entry's `message.content` is a string yields exactly that string,
   * whatever else the body holds.
   */
  lemma ChatReplyContent(h: Host, errorPrefix: string, status: nat, body: string, data: Json, content: string)
    requires Ok2xx(status) && h.parseJson(body) == Ok(data) && data.Obj?
    requires var choices := Get(data, "choices");
      choices.Arr? && |choices.items| > 0 && Get(Get(choices.items[0], "message"), "content") == Str(content)
    ensures FinishChat(h, errorPrefix, Response(status, body)) == Ok(content)
  {
  }

  /**
   * Any 2xx reply whose body parses to a value with no `choices` (an object
   * without the key, an array, a string, a number, a boolean) yields the empty string.
   */
  lemma ChatReplyEmpty(h: Host, errorPrefix: string, status: nat, body: string, data: Json)
    requires Ok2xx(status) && h.parseJson(body) == Ok(data) && !data.Null?
    requires Get(data, "choices") == Undefined
    ensures FinishChat(h, errorPrefix, Response(status, body)) == Ok("")
  {
  }

  /** Placeholders name the provider and model and echo the last user prompt. */
  lemma PlaceholderMentions(h: Host, p: Project, msgs: seq<ChatMessage>, keys: Keys)
    requires Route(h, p, msgs, keys).Placeholder?
    ensures StartsWith(Route(h, p, msgs, keys).text, StubLead(ProviderName(p.model.provider), p, msgs))
  {
    var lead := StubLead(ProviderName(p.model.provider), p, msgs);
    var t := Route(h, p, msgs, keys).text;
    assert t[..|lead|] == lead;
  }
}

=== FILE: js.dfy ===
/**
 * The slice of JavaScript's value semantics the dashboard depends on: dynamic
 * values, truthiness, `||`, `??`, property access, `String(v)` and `Number(v)`.
 * Floating-point parsing and printing are not modelled; they are supplied as
 * functions in a `Host` value.
 */
module Js {
  import opened Wrappers
  import opened Text
  import Lists

  /** A JavaScript number: a finite value or NaN (infinities are not modelled). */
  datatype Number = Finite(value: real) | NaN

  /** A dynamic JavaScript value as produced by `JSON.parse`, plus `undefined`. */
  datatype Json =
    | Undefined
    | Null
    | Bool(b: bool)
    | Num(n: Number)
    | Str(s: string)
    | Arr(items: seq<Json>)
    | Obj(fields: seq<Field>)

  datatype Field = Field(key: string, value: Json)

  /**
   * The host operations the model treats as opaque: `Number(s)` on a string,
   * `String(x)` on a finite number, and `JSON.parse` (an error carrying the
   * `SyntaxError` message when it throws).
   */
  datatype Host = Host(parseNumber: string -> Number, showNumber: real -> string, parseJson: string -> Result<Json>)

  predicate Truthy(v: Json) {
    match v
    case Undefined => false
    case Null => false
    case Bool(b) => b
    case Num(n) => n.Finite? && n.value != 0.0
    case Str(s) => s != []
    case Arr(_) => true
    case Obj(_) => true
  }

  predicate Nullish(v: Json) {
    v.Undefined? || v.Null?
  }

  /** `typeof v === 'object'`: null, arrays and objects. */
  predicate IsObjectType(v: Json) {
    v.Null? || v.Arr? || v.Obj?
  }

  /** `a || b`. */
  function Or(a: Json, b: Json): (r: Json)
    ensures Truthy(a) ==> r == a
    ensures !Truthy(a) ==> r == b
  {
    if Truthy(a) then a else b
  }

  /** `a && b`. */
  function And(a: Json, b: Json): (r: Json)
    ensures !Truthy(a) ==> r == a
    ensures Truthy(a) ==> r == b
  {
    if Truthy(a) then b else a
  }

  /** `a ?? b`. */
  function Coalesce(a: Json, b: Json): (r: Json)
    ensures !Nullish(a) ==> r == a
    ensures Nullish(a) ==> r == b
  {
    if Nullish(a) then b else a
  }

  /** Position of the last field named `key` (a later duplicate key wins, as in `JSON.parse`). */
  function FieldIndex(fs: seq<Field>, key: string): (i: int)
    ensures -1 <= i < |fs|
    ensures i >= 0 ==> fs[i].key == key && forall j :: i < j < |fs| ==> fs[j].key != key
    ensures i == -1 ==> forall j :: 0 <= j < |fs| ==> fs[j].key != key
  {
    if fs == [] then -1
    else if fs[|fs| - 1].key == key then |fs| - 1
    else FieldIndex(fs[..|fs| - 1], key)
  }

  /** `v[key]` / `v?.[key]` for a property name: objects only; other values have no own data property. */
  function Get(v: Json, key: string): (r: Json)
    ensures !v.Obj? ==> r == Undefined
    ensures v.Obj? && (forall j :: 0 <= j < |v.fields| ==> v.fields[j].key != key) ==> r == Undefined
  {
    match v
    case Obj(fs) =>
      var i := FieldIndex(fs, key);
      if i < 0 then Undefined else fs[i].value
    case _ => Undefined
  }

  /** A field that no later field shadows is the value `Get` finds. */
  lemma GetField(fs: seq<Field>, key: string, i: nat)
    requires i < |fs| && fs[i].key == key
    requires forall j :: i < j < |fs| ==> fs[j].key != key
    ensures Get(Obj(fs), key) == fs[i].value
  {
  }

  /** `v?.[i]` for an index: array element, string character, or object property "i". */
  function At(v: Json, i: nat): (r: Json)
    ensures v.Arr? && i < |v.items| ==> r == v.items[i]
    ensures v.Arr? && i >= |v.items| ==> r == Undefined
    ensures v.Str? && i < |v.s| ==> r == Str([v.s[i]])
    ensures v.Str? && i >= |v.s| ==> r == Undefined
    ensures v.Obj? ==> r == Get(v, NatToString(i))
    ensures Nullish(v) || v.Bool? || v.Num? ==> r == Undefined
  {
    match v
    case Arr(items) => if i < |items| then items[i] else Undefined
    case Str(s) => if i < |s| then Str([s[i]]) else Undefined
    case Obj(_) => Get(v, NatToString(i))
    case _ => Undefined
  }

  /** `String(v)`. */
  function ToStr(h: Host, v: Json): (r: string)
    ensures v.Str? ==> r == v.s
    ensures v.Undefined? ==> r == "undefined"
    ensures v.Null? ==> r == "null"
  {
    match v
    case Undefined => "undefined"
    case Null => "null"
    case Bool(b) => if b then "true" else "false"
    case Num(n) => if n.NaN? then "NaN" else h.showNumber(n.value)
    case Str(s) => s
    case Arr(items) =>
      // Array.prototype.join renders null and undefined elements as empty strings.
      Join(seq(|items|, i requires 0 <= i < |items| => if Nullish(items[i]) then "" else ToStr(h, items[i])), ",")
    case Obj(_) => "[object Object]"
  }

  /** `Number(v)`. */
  function ToNumber(h: Host, v: Json): (r: Number)
    ensures v.Num? ==> r == v.n
    ensures v.Str? ==> r == h.parseNumber(v.s)
    ensures v.Undefined? ==> r == NaN
  {
    match v
    case Undefined => NaN
    case Null => Finite(0.0)
    case Bool(b) => Finite(if b then 1.0 else 0.0)
    case Num(n) => n
    case Str(s) => h.parseNumber(s)
    case _ => h.parseNumber(ToStr(h, v))
  }

  /** Render a number inside a template literal, `${x}`. */
  function ShowNumber(h: Host, n: Number): string {
    ToStr(h, Num(n))
  }

  function ObjKeys(fs: seq<Field>): (ks: seq<string>)
    ensures |ks| == |fs|
    ensures forall i :: 0 <= i < |fs| ==> ks[i] == fs[i].key
  {
    seq(|fs|, i requires 0 <= i < |fs| => fs[i].key)
  }

  /** `items.join(sep)`: null and undefined elements render as empty strings. */
  function ArrayJoin(h: Host, items: seq<Json>, sep: string): string {
    Join(seq(|items|, i requires 0 <= i < |items| => if Nullish(items[i]) then "" else ToStr(h, items[i])), sep)
  }

  /**
   * `Object.keys(v).map(k => [k, v[k]])` for an object or an array. An object
   * with a repeated key (which `JSON.parse` collapses) lists the key once, at
   * its first position, with its last value.
   */
  function OwnEntries(v: Json): (es: seq<Field>)
    ensures v.Obj? ==> (|es| == |Lists.Dedup(ObjKeys(v.fields))|
      && forall i :: 0 <= i < |es| ==> es[i].key == Lists.Dedup(ObjKeys(v.fields))[i] && es[i].value == Get(v, es[i].key))
    ensures v.Arr? ==> |es| == |v.items| && forall i :: 0 <= i < |es| ==> es[i] == Field(NatToString(i), v.items[i])
    ensures !v.Obj? && !v.Arr? ==> es == []
  {
    match v
    case Obj(fs) =>
      var keys := Lists.Dedup(ObjKeys(fs));
      seq(|keys|, i requires 0 <= i < |keys| => Field(keys[i], Get(v, keys[i])))
    case Arr(items) => seq(|items|, i requires 0 <= i < |items| => Field(NatToString(i), items[i]))
    case _ => []
  }
}

=== FILE: layout.dfy ===
/**
 * The dashboard's layout preferences: the order of its six sections and
 * whether each is shown. Stored preferences may hold keys this version does
 * not know and may lack sections; the settings dialog repairs both, and lets
 * the user move a section one place and toggle its visibility.
 */
module Layout {
  import opened Wrappers
  import opened Text
  import opened Lists

  /** The sections, in their default order. */
  const AllSections: seq<string> := ["hero", "quickStart", "templates", "favorites", "recent", "shared"]

  predicate IsSection(k: string) {
    k in AllSections
  }

  lemma AllSectionsDistinct()
    ensures Distinct(AllSections)
  {
  }

  /** Stored preferences: an order (possibly missing) and a visibility per key. */
  datatype LayoutPrefs = LayoutPrefs(order: Option<seq<string>>, visibility: map<string, bool>)

  /** `prefs.order || []`. */
  function StoredOrder(prefs: LayoutPrefs): seq<string> {
    prefs.order.GetOr([])
  }

  // ---- order ----

  /** The known keys of the stored order, in their stored order. */
  function KnownKeys(order: seq<string>): (r: seq<string>)
    ensures forall k :: k in r <==> k in order && IsSection(k)
  {
    Filter(order, IsSection)
  }

  /** The test `!known.includes(k)`. */
  function Absent(known: seq<string>): string -> bool {
    (k: string) => k !in known
  }

  /** The sections the stored order lacks, in default order. */
  function MissingSections(known: seq<string>): (r: seq<string>)
    ensures forall k :: k in r <==> IsSection(k) && k !in known
    ensures Distinct(r)
  {
    AllSectionsDistinct();
    FilterDistinct(AllSections, Absent(known));
    Filter(AllSections, Absent(known))
  }

  /**
   * The normalised order: the known keys as stored, then the missing
   * sections in default order. Every section appears and nothing else does;
   * a stored order without repetitions becomes a permutation of the sections.
   */
  function NormalizeOrder(order: seq<string>): (r: seq<string>)
    ensures forall k :: k in r <==> IsSection(k)
    ensures |KnownKeys(order)| <= |r| && r[..|KnownKeys(order)|] == KnownKeys(order)
    ensures r[|KnownKeys(order)|..] == MissingSections(KnownKeys(order))
    ensures Distinct(order) ==> Distinct(r) && multiset(r) == multiset(AllSections)
  {
    var known := KnownKeys(order);
    var r := known + MissingSections(known);
    assert r[..|known|] == known && r[|known|..] == MissingSections(known);
    KnownThenMissingPermutes(order);
    r
  }

  /** Without repetitions in the stored order, the known keys and the missing sections together list each section once. */
  lemma KnownThenMissingPermutes(order: seq<string>)
    ensures var r := KnownKeys(order) + MissingSections(KnownKeys(order));
      Distinct(order) ==> Distinct(r) && multiset(r) == multiset(AllSections)
  {
    if Distinct(order) {
      var known := KnownKeys(order);
      var r := known + MissingSections(known);
      FilterDistinct(order, IsSection);
      DistinctAppend(known, MissingSections(known));
      AllSectionsDistinct();
      SameValuesSameMultiset(r, AllSections);
    }
  }

  /** Two lists without repetitions and with the same values are permutations of each other. */
  lemma SameValuesSameMultiset(xs: seq<string>, ys: seq<string>)
    requires Distinct(xs) && Distinct(ys)
    requires forall x :: x in xs <==> x in ys
    ensures multiset(xs) == multiset(ys)
  {
    DistinctMultiplicity(xs);
    DistinctMultiplicity(ys);
    forall x ensures multiset(xs)[x] == multiset(ys)[x] {
      if x in xs {
        assert x in multiset(xs) && x in multiset(ys);
      } else {
        assert x !in multiset(xs) && x !in multiset(ys);
      }
    }
  }

  /** An order that already lists each section once, in any order, is kept as it is. */
  lemma PermutationIsNormal(order: seq<string>)
    requires forall k :: k in order <==> IsSection(k)
    ensures NormalizeOrder(order) == order
  {
    FilterAllPass(order, IsSection);
    FilterNonePass(AllSections, Absent(order));
    assert order + [] == order;
  }

  /** Normalising a normalised order changes nothing. */
  lemma NormalizeOrderIdempotent(order: seq<string>)
    ensures NormalizeOrder(NormalizeOrder(order)) == NormalizeOrder(order)
  {
    PermutationIsNormal(NormalizeOrder(order));
  }

  // ---- visibility ----

  /** The repaired visibility: exactly the sections, each keeping its stored value and shown when it had none. */
  function NormalVisibility(v: map<string, bool>): (r: map<string, bool>)
    ensures forall k :: k in r <==> IsSection(k)
    ensures forall k :: k in r ==> r[k] == if k in v then v[k] else true
  {
    map k | k in AllSections :: if k in v then v[k] else true
  }

  /** The stored visibility has a key that is no section, or lacks a section. */
  predicate NeedsRepair(v: map<string, bool>) {
    (exists k :: k in v && !IsSection(k)) || (exists j :: 0 <= j < |AllSections| && AllSections[j] !in v)
  }

  /** The visibility needs repair exactly when repairing it changes it. */
  lemma RepairIffChanged(v: map<string, bool>)
    ensures NeedsRepair(v) <==> NormalVisibility(v) != v
  {
    var r := NormalVisibility(v);
    if exists k :: k in v && !IsSection(k) {
      var k :| k in v && !IsSection(k);
      assert k !in r;
    } else if exists j :: 0 <= j < |AllSections| && AllSections[j] !in v {
      var j :| 0 <= j < |AllSections| && AllSections[j] !in v;
      assert AllSections[j] in r;
    } else {
      forall k ensures k in v <==> k in r {
        if IsSection(k) {
          var j :| 0 <= j < |AllSections| && AllSections[j] == k;
        }
      }
      assert r == v;
    }
  }

  /** Repairing a repaired visibility changes nothing. */
  lemma NormalVisibilityIdempotent(v: map<string, bool>)
    ensures NormalVisibility(NormalVisibility(v)) == NormalVisibility(v)
    ensures !NeedsRepair(NormalVisibility(v))
  {
    RepairIffChanged(NormalVisibility(v));
  }

  /** The stored visibility restricted to the sections. */
  function KnownVisibility(v: map<string, bool>): (r: map<string, bool>)
    ensures forall k :: k in r <==> k in v && IsSection(k)
    ensures forall k :: k in r ==> r[k] == v[k]
  {
    map k | k in v && IsSection(k) :: v[k]
  }

  /**
   * The dialog's repair of the visibility: drop every key that is no
   * section, then give every missing section `true`, noting whether
   * anything changed.
   */
  method NormalizeVisibility(v: map<string, bool>) returns (vis: map<string, bool>, changed: bool)
    ensures vis == NormalVisibility(v)
    ensures changed <==> NeedsRepair(v)
  {
    var dropped;
    vis, dropped := DropUnknownKeys(v);
    var added;
    vis, added := AddMissingSections(vis);
    changed := dropped || added;
    assert forall j :: 0 <= j < |AllSections| ==> (AllSections[j] in KnownVisibility(v) <==> AllSections[j] in v);
    assert forall k :: k in vis <==> k in NormalVisibility(v);
  }

  /** The first loop: every key that is no section is deleted. */
  method DropUnknownKeys(v: map<string, bool>) returns (vis: map<string, bool>, changed: bool)
    ensures vis == KnownVisibility(v)
    ensures changed <==> exists k :: k in v && !IsSection(k)
  {
    vis := v;
    changed := false;
    var pending := v.Keys;
    while pending != {}
      invariant pending <= v.Keys
      invariant forall k :: k in vis <==> k in v && (k in pending || IsSection(k))
      invariant forall k :: k in vis ==> vis[k] == v[k]
      invariant changed <==> exists k :: k in v && k !in pending && !IsSection(k)
      decreases pending
    {
      var k :| k in pending;
      if k !in AllSections {
        vis := vis - {k};
        changed := true;
      }
      pending := pending - {k};
    }
    assert forall k :: k in vis <==> k in KnownVisibility(v);
  }

  /** The second loop: every section without a value is shown. */
  method AddMissingSections(known: map<string, bool>) returns (vis: map<string, bool>, changed: bool)
    requires forall k :: k in known ==> IsSection(k)
    ensures vis == NormalVisibility(known)
    ensures changed <==> exists j :: 0 <= j < |AllSections| && AllSections[j] !in known
  {
    vis := known;
    changed := false;
    var i := 0;
    while i < |AllSections|
      invariant 0 <= i <= |AllSections|
      invariant forall k :: k in vis <==> k in known || k in AllSections[..i]
      invariant forall k :: k in vis ==> vis[k] == if k in known then known[k] else true
      invariant changed <==> exists j :: 0 <= j < i && AllSections[j] !in known
    {
      var k := AllSections[i];
      assert AllSections[..i + 1] == AllSections[..i] + [k];
      if k !in vis {
        vis := vis[k := true];
        changed := true;
      }
      i := i + 1;
    }
    assert AllSections[..i] == AllSections;
    assert forall k :: k in vis <==> k in NormalVisibility(known);
  }

  // ---- the repair effect ----

  /**
   * The repair effect as written: it stores the repaired preferences when the
   * visibility changed or when the orders, joined with '|', differ. A key that
   * contains '|' can make a stored order that is not normal join to the same
   * text as its normal form.
   */
  function PrefsRepairJoined(prefs: LayoutPrefs): (r: Option<LayoutPrefs>)
    ensures r.Some? ==> (r.value.order == Some(NormalizeOrder(StoredOrder(prefs)))
      && r.value.visibility == NormalVisibility(prefs.visibility))
    ensures r.None? ==> !NeedsRepair(prefs.visibility)
  {
    var order := StoredOrder(prefs);
    var norm := NormalizeOrder(order);
    if NeedsRepair(prefs.visibility) || Join(norm, "|") != Join(order, "|") then
      Some(LayoutPrefs(Some(norm), NormalVisibility(prefs.visibility)))
    else None
  }

  /** The stored key that spells out every section between bars: "hero|quickStart|templates|favorites|recent|shared". */
  const BarKey := Join(AllSections, "|")

  /** The bar key is longer than every section name, so it is none of them. */
  lemma BarKeyIsNoSection()
    ensures !IsSection(BarKey)
  {
    var rest := ["quickStart", "templates", "favorites", "recent", "shared"];
    assert AllSections == ["hero"] + rest;
    JoinCons("hero", rest, "|");
    assert rest == ["quickStart"] + rest[1..];
    JoinCons("quickStart", rest[1..], "|");
    assert |BarKey| > 10;
  }

  /** The bar key is no section, so normalising an order holding only it yields the default order. */
  lemma NormalizeBarKey()
    ensures NormalizeOrder([BarKey]) == AllSections
  {
    BarKeyIsNoSection();
    FilterNonePass([BarKey], IsSection);
    FilterAllPass(AllSections, Absent([]));
  }

  /**
   * Stored preferences whose order holds only the bar key, with a visibility
   * needing no repair, are not normal, yet the joined comparison sees no
   * change and nothing is repaired. Showing every section with the default
   * visibility is one such input (`NormalVisibilityIdempotent` on the empty map).
   */
  lemma JoinedRepairMissesBarKey(prefs: LayoutPrefs)
    requires prefs.order == Some([BarKey]) && !NeedsRepair(prefs.visibility)
    ensures NormalizeOrder(StoredOrder(prefs)) != StoredOrder(prefs)
    ensures PrefsRepairJoined(prefs).None?
  {
    NormalizeBarKey();
    assert Join([BarKey], "|") == BarKey;
    assert AllSections != [BarKey] by {
      assert |AllSections| == 6;
    }
  }

  /**
   * The repair as evidently intended: store the repaired preferences exactly
   * when the stored ones are not already normal.
   */
  function PrefsRepair(prefs: LayoutPrefs): (r: Option<LayoutPrefs>)
    ensures r.Some? ==> (r.value.order == Some(NormalizeOrder(StoredOrder(prefs)))
      && r.value.visibility == NormalVisibility(prefs.visibility))
    ensures r.None? <==> NormalizeOrder(StoredOrder(prefs)) == StoredOrder(prefs) && NormalVisibility(prefs.visibility) == prefs.visibility
  {
    RepairIffChanged(prefs.visibility);
    var order := StoredOrder(prefs);
    var norm := NormalizeOrder(order);
    if NeedsRepair(prefs.visibility) || norm != order then
      Some(LayoutPrefs(Some(norm), NormalVisibility(prefs.visibility)))
    else None
  }

  /** The repair settles: once stored, the repaired preferences need no further repair. */
  lemma PrefsRepairSettles(prefs: LayoutPrefs)
    requires PrefsRepair(prefs).Some?
    ensures PrefsRepair(PrefsRepair(prefs).value).None?
  {
    NormalizeOrderIdempotent(StoredOrder(prefs));
    NormalVisibilityIdempotent(prefs.visibility);
  }

  /**
   * The repair effect with the corrected test: the visibility loops, then the
   * normalised order compared with the stored one as lists.
   */
  method RepairPrefs(prefs: LayoutPrefs) returns (next: Option<LayoutPrefs>)
    ensures next == PrefsRepair(prefs)
  {
    var vis, changed := NormalizeVisibility(prefs.visibility);
    var order := StoredOrder(prefs);
    var norm := NormalizeOrder(order);
    if changed || norm != order {
      next := Some(LayoutPrefs(Some(norm), vis));
    } else {
      next := None;
    }
  }

  // ---- moving and toggling ----

  /**
   * `move(key, delta)` on the normalised order: nothing when the key is
   * absent or the target position is outside the list; otherwise the key
   * trades places with the entry at the target.
   */
  function Move(order: seq<string>, key: string, delta: int): (r: Option<seq<string>>)
    ensures key !in order ==> r.None?
    ensures key in order ==>
      var i := FirstIndex(order, key);
      var t := i + delta;
      && (r.Some? <==> 0 <= t < |order|)
      && (r.Some? ==> (|r.value| == |order| && r.value[i] == order[t] && r.value[t] == order[i]
          && forall j :: 0 <= j < |order| && j != i && j != t ==> r.value[j] == order[j]))
    ensures r.Some? ==> multiset(r.value) == multiset(order)
  {
    if key !in order then None
    else
      var i := FirstIndex(order, key);
      var t := i + delta;
      if t < 0 || t >= |order| then None
      else Some(order[i := order[t]][t := order[i]])
  }

  /** Moving a section and moving it back restores the order, when no section is listed twice. */
  lemma MoveBack(order: seq<string>, key: string, delta: int)
    requires Distinct(order) && Move(order, key, delta).Some?
    ensures Move(Move(order, key, delta).value, key, -delta) == Some(order)
  {
    var i := FirstIndex(order, key);
    var t := i + delta;
    var r := Move(order, key, delta).value;
    MovedKeyFirstAt(order, key, delta);
    var back := Move(r, key, -delta);
    assert back.Some? && |back.value| == |order| by {
      assert key in r && t + -delta == i;
    }
    assert forall j :: 0 <= j < |order| ==> back.value[j] == order[j];
    assert back.value == order;
  }

  /** After a move, the key's first occurrence is at the target, when no section is listed twice. */
  lemma MovedKeyFirstAt(order: seq<string>, key: string, delta: int)
    requires Distinct(order) && Move(order, key, delta).Some?
    ensures key in Move(order, key, delta).value
    ensures FirstIndex(Move(order, key, delta).value, key) == FirstIndex(order, key) + delta
  {
    var i := FirstIndex(order, key);
    var t := i + delta;
    var r := Move(order, key, delta).value;
    assert r[t] == key;
    assert key !in r[..t] by {
      forall j | 0 <= j < t ensures r[j] != key {
        if j == i {
          assert r[j] == order[t] && order[t] != order[i];
        } else {
          assert r[j] == order[j] && order[j] != order[i];
        }
      }
    }
    FirstIndexUnique(r, key, t);
  }

  /** `toggle(key)`: the key's visibility flips, a missing one counting as hidden; nothing else changes. */
  function Toggle(v: map<string, bool>, key: string): (r: map<string, bool>)
    ensures key in r && r[key] == !(key in v && v[key])
    ensures forall k :: k != key ==> (k in r <==> k in v) && (k in v ==> r[k] == v[k])
  {
    v[key := !(key in v && v[key])]
  }

  /** Toggling a stored key twice restores it; toggling a missing one twice leaves it hidden. */
  lemma ToggleTwice(v: map<string, bool>, key: string)
    ensures key in v ==> Toggle(Toggle(v, key), key) == v
    ensures key !in v ==> Toggle(Toggle(v, key), key) == v[key := false]
  {
  }

  /** Toggling changes visibility only: the stored order is the same object. */
  function TogglePrefs(prefs: LayoutPrefs, key: string): (next: LayoutPrefs)
    ensures next.order == prefs.order
    ensures next.visibility == Toggle(prefs.visibility, key)
  {
    prefs.(visibility := Toggle(prefs.visibility, key))
  }
}

=== FILE: learn.dfy ===
/**
 * The Learn page: the search box and the category and tag filters over the
 * articles, and the index of cards they produce.
 */
module Learn {
  import opened Text
  import opened Lists
  import opened Articles

  /** The typed query and the chosen category and tag; empty means no filter. */
  datatype Filters = Filters(query: string, category: string, tag: string)

  /** Some tag of the article contains the lower-cased query, ignoring the tag's case. */
  predicate TagMentions(a: Article, q: string) {
    exists i :: 0 <= i < |a.tags| && Contains(Lower(a.tags[i]), q)
  }

  /**
   * An article passes when the trimmed, lower-cased query is empty or occurs
   * in its lower-cased title, summary or some tag; its category is the chosen
   * one, if any; and the chosen tag, if any, is one of its tags exactly.
   */
  predicate Matches(a: Article, f: Filters) {
    var q := Lower(Trim(f.query));
    && (q == "" || Contains(Lower(a.title), q) || Contains(Lower(a.summary), q) || TagMentions(a, q))
    && (f.category == "" || a.category == f.category)
    && (f.tag == "" || f.tag in a.tags)
  }

  function MatchTest(f: Filters): Article -> bool {
    (a: Article) => Matches(a, f)
  }

  /** `useLearnFilters().filtered`: the matching articles, in their order. */
  function FilterArticles(articles: seq<Article>, f: Filters): (r: seq<Article>)
    ensures forall a :: a in r <==> a in articles && Matches(a, f)
    ensures Subsequence(r, articles)
  {
    FilterSubsequence(articles, MatchTest(f));
    Filter(articles, MatchTest(f))
  }

  /** With a blank query and no category or tag chosen, every article is listed, in order. */
  lemma NoFiltersListAll(articles: seq<Article>, query: string)
    requires Blank(query)
    ensures FilterArticles(articles, Filters(query, "", "")) == articles
  {
    TrimEmptyIffBlank(query);
    FilterAllPass(articles, MatchTest(Filters(query, "", "")));
  }

  /** Every tag the tag filter offers lists at least one article. */
  lemma OfferedTagListsSomething(articles: seq<Article>, tag: string)
    requires tag in TagsOf(articles)
    ensures FilterArticles(articles, Filters("", "", tag)) != []
  {
    var a :| a in articles && tag in a.tags;
    assert Matches(a, Filters("", "", tag)) by {
      assert Lower(Trim("")) == "";
    }
    assert a in FilterArticles(articles, Filters("", "", tag));
  }

  /** Every category the category filter offers lists at least one article. */
  lemma OfferedCategoryListsSomething(articles: seq<Article>, category: string)
    requires category in CategoriesOf(articles)
    ensures FilterArticles(articles, Filters("", category, "")) != []
  {
    var a :| a in articles && a.category == category;
    assert Matches(a, Filters("", category, "")) by {
      assert Lower(Trim("")) == "";
    }
    assert a in FilterArticles(articles, Filters("", category, ""));
  }

  /** Surrounding spaces and letter case in the query do not matter: a title holding the trimmed, lower-cased query at some position lists the article. */
  lemma QueryIgnoresTitleCase(a: Article, query: string, i: int)
    requires OccursAt(Lower(a.title), Lower(Trim(query)), i)
    ensures Matches(a, Filters(query, "", ""))
  {
  }

  /** One card of the index; `link` is the card's target. */
  datatype Card = Card(id: string, title: string, summary: string, category: string, shownTags: seq<string>, link: string)

  /** What `ArticleIndex` shows: a notice for no articles, or one card per article. */
  datatype IndexView = NoArticlesFound | Cards(cards: seq<Card>)

  /** The tags a card shows: the first four. */
  function ShownTags(tags: seq<string>): (r: seq<string>)
    ensures |r| == if |tags| < 4 then |tags| else 4
    ensures |r| <= |tags| && r == tags[..|r|]
  {
    if |tags| < 4 then tags else tags[..4]
  }

  function CardOf(a: Article): (c: Card)
    ensures c.id == a.id && c.title == a.title && c.summary == a.summary && c.category == a.category
    ensures |c.shownTags| <= 4 && |c.shownTags| <= |a.tags| && c.shownTags == a.tags[..|c.shownTags|]
    ensures c.link == "/learn/" + a.id
  {
    Card(a.id, a.title, a.summary, a.category, ShownTags(a.tags), "/learn/" + a.id)
  }

  /** `ArticleIndex({ articles })`. */
  function Index(articles: seq<Article>): (v: IndexView)
    ensures v.NoArticlesFound? <==> articles == []
    ensures v.Cards? ==> |v.cards| == |articles| && forall i :: 0 <= i < |articles| ==> v.cards[i] == CardOf(articles[i])
  {
    if |articles| == 0 then NoArticlesFound
    else Cards(seq(|articles|, i requires 0 <= i < |articles| => CardOf(articles[i])))
  }

  /** A card's link names its article: the id follows the fixed prefix. */
  lemma CardLinkNamesArticle(a: Article)
    ensures var link := CardOf(a).link;
      |link| >= 7 && link[..7] == "/learn/" && link[7..] == a.id
  {
  }

  /** Every card shows at most four tags, and all of them are the article's. */
  lemma CardsShowAtMostFourTags(articles: seq<Article>, i: int, t: string)
    requires Index(articles).Cards? && 0 <= i < |Index(articles).cards|
    ensures |Index(articles).cards[i].shownTags| <= 4
    ensures t in Index(articles).cards[i].shownTags ==> t in articles[i].tags
  {
    var c := Index(articles).cards[i];
    assert c.shownTags == articles[i].tags[..|c.shownTags|];
  }
}

=== FILE: lists.dfy ===
/**
 * Array operations the dashboard uses: `filter`, first-occurrence de-duplication
 * (`Array.from(new Set(xs))`), and the default `sort()` of an array of strings.
 */
module Lists {
  import opened Wrappers

  /** `xs.filter(f)`. */
  function Filter<T(!new)>(xs: seq<T>, f: T -> bool): (r: seq<T>)
    ensures |r| <= |xs|
    ensures forall x :: x in r <==> x in xs && f(x)
  {
    if xs == [] then [] else (if f(xs[0]) then [xs[0]] else []) + Filter(xs[1..], f)
  }

  /** A filter that every element passes returns the sequence itself. */
  lemma {:induction false} FilterAllPass<T(!new)>(xs: seq<T>, f: T -> bool)
    requires forall x :: x in xs ==> f(x)
    ensures Filter(xs, f) == xs
  {
    if xs != [] {
      FilterAllPass(xs[1..], f);
    }
  }

  /** A filter that no element passes returns the empty sequence. */
  lemma {:induction false} FilterNonePass<T(!new)>(xs: seq<T>, f: T -> bool)
    requires forall x :: x in xs ==> !f(x)
    ensures Filter(xs, f) == []
  {
    if xs != [] {
      FilterNonePass(xs[1..], f);
    }
  }

  /** Filtering distributes over concatenation, so a filter keeps the input order. */
  lemma {:induction false} FilterAppend<T(!new)>(xs: seq<T>, ys: seq<T>, f: T -> bool)
    ensures Filter(xs + ys, f) == Filter(xs, f) + Filter(ys, f)
  {
    if xs == [] {
      assert xs + ys == ys;
    } else {
      assert (xs + ys)[1..] == xs[1..] + ys;
      FilterAppend(xs[1..], ys, f);
    }
  }

  /** A filter keeps every copy of a value its predicate accepts. */
  lemma {:induction false} FilterCount<T(!new)>(xs: seq<T>, f: T -> bool, x: T)
    requires f(x)
    ensures multiset(Filter(xs, f))[x] == multiset(xs)[x]
  {
    if xs != [] {
      assert xs == [xs[0]] + xs[1..];
      FilterCount(xs[1..], f, x);
    }
  }

  predicate Distinct<T(==)>(xs: seq<T>) {
    forall i, j :: 0 <= i < j < |xs| ==> xs[i] != xs[j]
  }

  /** A filter of a list without repetitions has none either. */
  lemma {:induction false} FilterDistinct<T(!new)>(xs: seq<T>, f: T -> bool)
    requires Distinct(xs)
    ensures Distinct(Filter(xs, f))
  {
    if xs != [] {
      FilterDistinct(xs[1..], f);
      var rest := Filter(xs[1..], f);
      assert xs[0] !in xs[1..] by {
        assert forall j :: 0 <= j < |xs[1..]| ==> xs[1..][j] == xs[j + 1];
      }
      DistinctAppend(if f(xs[0]) then [xs[0]] else [], rest);
    }
  }

  /** Two lists without repetitions and without common values concatenate to a list without repetitions. */
  lemma DistinctAppend<T>(xs: seq<T>, ys: seq<T>)
    requires Distinct(xs) && Distinct(ys)
    requires forall x :: x in xs ==> x !in ys
    ensures Distinct(xs + ys)
  {
    var zs := xs + ys;
    forall i, j | 0 <= i < j < |zs| ensures zs[i] != zs[j] {
      if j < |xs| {
        assert zs[i] == xs[i] && zs[j] == xs[j];
      } else if i >= |xs| {
        assert zs[i] == ys[i - |xs|] && zs[j] == ys[j - |xs|];
      } else {
        assert zs[i] == xs[i] && zs[i] in xs;
        assert zs[j] == ys[j - |xs|] && zs[j] in ys;
      }
    }
  }

  /** `Array.from(new Set(xs))`: each value once, in order of first occurrence. */
  function Dedup<T(==,!new)>(xs: seq<T>): (r: seq<T>)
    ensures Distinct(r)
    ensures forall x :: x in r <==> x in xs
    ensures |r| <= |xs|
    decreases |xs|
  {
    if xs == [] then []
    else
      var d := Dedup(xs[..|xs| - 1]);
      assert forall x :: x in xs <==> x in xs[..|xs| - 1] || x == xs[|xs| - 1];
      if xs[|xs| - 1] in d then d else d + [xs[|xs| - 1]]
  }

  /** De-duplicating a longer list only appends to the shorter list's result. */
  lemma {:induction false} DedupPrefix<T(!new)>(xs: seq<T>, ys: seq<T>)
    ensures |Dedup(xs)| <= |Dedup(xs + ys)|
    ensures Dedup(xs + ys)[..|Dedup(xs)|] == Dedup(xs)
    decreases |ys|
  {
    if ys == [] {
      assert xs + ys == xs;
    } else {
      var init := ys[..|ys| - 1];
      assert (xs + ys)[..|xs + ys| - 1] == xs + init;
      DedupPrefix(xs, init);
    }
  }

  /** The last position of `x` in `xs`, or -1 when it does not occur. */
  function LastIndex<T(==)>(xs: seq<T>, x: T): (r: int)
    ensures -1 <= r < |xs|
    ensures r == -1 <==> x !in xs
    ensures r >= 0 ==> xs[r] == x && x !in xs[r + 1..]
  {
    if xs == [] then -1
    else
      var k := LastIndex(xs[1..], x);
      assert xs == [xs[0]] + xs[1..];
      if k >= 0 then
        assert xs[k + 1] == xs[1..][k] && xs[k + 2..] == xs[1..][k + 1..];
        k + 1
      else
        assert x !in xs[1..];
        if xs[0] == x then 0
        else
          assert x !in [xs[0]];
          -1
  }

  /** Index of the first occurrence of `x` in `xs`. */
  function FirstIndex<T(==)>(xs: seq<T>, x: T): (i: nat)
    requires x in xs
    ensures i < |xs| && xs[i] == x && x !in xs[..i]
  {
    if xs[0] == x then 0
    else
      var k := FirstIndex(xs[1..], x);
      assert xs[..k + 1] == [xs[0]] + xs[1..][..k];
      k + 1
  }

  /** The values of `Dedup(xs)` appear in the order of their first occurrence in `xs`. */
  lemma {:induction false} DedupFirstOccurrenceOrder<T(!new)>(xs: seq<T>, i: nat, j: nat)
    requires i < j < |Dedup(xs)|
    ensures Dedup(xs)[i] in xs && Dedup(xs)[j] in xs
    ensures FirstIndex(xs, Dedup(xs)[i]) < FirstIndex(xs, Dedup(xs)[j])
    decreases |xs|
  {
    var init := xs[..|xs| - 1];
    var last := xs[|xs| - 1];
    var d := Dedup(init);
    var a, b := Dedup(xs)[i], Dedup(xs)[j];
    FirstIndexPrefix(init, last, a);
    if j < |d| {
      DedupFirstOccurrenceOrder(init, i, j);
      FirstIndexPrefix(init, last, b);
    } else {
      assert b == last && last !in d && last !in init;
      assert FirstIndex(xs, b) == |xs| - 1 by {
        assert xs[..|xs| - 1] == init;
      }
    }
  }

  lemma FirstIndexPrefix<T>(init: seq<T>, last: T, x: T)
    requires x in init
    ensures x in init + [last]
    ensures FirstIndex(init + [last], x) == FirstIndex(init, x)
  {
    var xs := init + [last];
    var k := FirstIndex(init, x);
    assert xs[..k] == init[..k];
    FirstIndexUnique(xs, x, k);
  }

  /** The first index is the one position holding `x` with no `x` before it. */
  lemma {:induction false} FirstIndexUnique<T>(xs: seq<T>, x: T, i: nat)
    requires i < |xs| && xs[i] == x && x !in xs[..i]
    ensures FirstIndex(xs, x) == i
  {
    if i > 0 {
      assert xs[0] in xs[..i];
      assert xs[1..][..i - 1] == xs[..i][1..];
      FirstIndexUnique(xs[1..], x, i - 1);
    }
  }

  // ---- default string order (code-unit order) and sorting ----

  /** Lexicographic order on characters, as JavaScript's default `sort()` compares strings. */
  predicate StrLe(a: string, b: string) {
    a == [] || (b != [] && (a[0] < b[0] || (a[0] == b[0] && StrLe(a[1..], b[1..]))))
  }

  lemma {:induction false} StrLeTotal(a: string, b: string)
    ensures StrLe(a, b) || StrLe(b, a)
  {
    if a != [] && b != [] && a[0] == b[0] {
      StrLeTotal(a[1..], b[1..]);
    }
  }

  lemma {:induction false} StrLeTrans(a: string, b: string, c: string)
    requires StrLe(a, b) && StrLe(b, c)
    ensures StrLe(a, c)
  {
    if a != [] && b != [] && c != [] && a[0] == b[0] == c[0] {
      StrLeTrans(a[1..], b[1..], c[1..]);
    }
  }

  lemma {:induction false} StrLeAntisym(a: string, b: string)
    requires StrLe(a, b) && StrLe(b, a)
    ensures a == b
  {
    if a != [] && b != [] {
      StrLeAntisym(a[1..], b[1..]);
      assert a == [a[0]] + a[1..] && b == [b[0]] + b[1..];
    }
  }

  predicate Sorted(xs: seq<string>) {
    forall i, j :: 0 <= i < j < |xs| ==> StrLe(xs[i], xs[j])
  }

  function Insert(x: string, xs: seq<string>): (r: seq<string>)
    requires Sorted(xs)
    ensures Sorted(r)
    ensures multiset(r) == multiset(xs) + multiset{x}
  {
    if xs == [] then [x]
    else if StrLe(x, xs[0]) then
      InsertFront(x, xs);
      [x] + xs
    else
      StrLeTotal(x, xs[0]);
      var rest := Insert(x, xs[1..]);
      InsertBehind(xs[0], x, xs[1..], rest);
      assert xs == [xs[0]] + xs[1..];
      [xs[0]] + rest
  }

  lemma InsertFront(x: string, xs: seq<string>)
    requires Sorted(xs) && xs != [] && StrLe(x, xs[0])
    ensures Sorted([x] + xs)
  {
    forall j | 0 < j < |xs| + 1 ensures StrLe(x, ([x] + xs)[j]) {
      if j > 1 { StrLeTrans(x, xs[0], xs[j - 1]); }
    }
  }

  lemma InsertBehind(h: string, x: string, tail: seq<string>, rest: seq<string>)
    requires Sorted([h] + tail) && StrLe(h, x) && Sorted(rest)
    requires multiset(rest) == multiset(tail) + multiset{x}
    ensures Sorted([h] + rest)
  {
    forall j | 0 <= j < |rest| ensures StrLe(h, rest[j]) {
      assert rest[j] in multiset(rest);
      if rest[j] != x {
        assert rest[j] in multiset(tail);
        var k :| 0 <= k < |tail| && tail[k] == rest[j];
        assert ([h] + tail)[k + 1] == tail[k];
        assert StrLe(([h] + tail)[0], ([h] + tail)[k + 1]);
      }
    }
  }

  /** `xs.slice().sort()` with the default comparator. */
  function Sort(xs: seq<string>): (r: seq<string>)
    ensures Sorted(r)
    ensures multiset(r) == multiset(xs)
  {
    if xs == [] then []
    else
      assert xs == xs[..|xs| - 1] + [xs[|xs| - 1]];
      Insert(xs[|xs| - 1], Sort(xs[..|xs| - 1]))
  }

  /** Sorting a list without repetitions gives a list without repetitions. */
  lemma SortKeepsDistinct(xs: seq<string>)
    requires Distinct(xs)
    ensures Distinct(Sort(xs))
  {
    DistinctMultiplicity(xs);
    MultiplicityDistinct(Sort(xs));
  }

  /** Sorting keeps exactly the values of the list. */
  lemma SortSameValues(xs: seq<string>)
    ensures forall x :: x in Sort(xs) <==> x in xs
  {
    forall x ensures x in Sort(xs) <==> x in xs {
      assert x in Sort(xs) <==> x in multiset(Sort(xs));
      assert x in xs <==> x in multiset(xs);
    }
  }

  lemma {:induction false} MultiplicityDistinct<T>(xs: seq<T>)
    requires forall x :: multiset(xs)[x] <= 1
    ensures Distinct(xs)
  {
    if xs != [] {
      var t := xs[1..];
      assert xs == [xs[0]] + t;
      assert forall x :: multiset(t)[x] <= multiset(xs)[x];
      MultiplicityDistinct(t);
      assert multiset(t)[xs[0]] == 0;
      forall j | 0 < j < |xs| ensures xs[0] != xs[j] {
        assert xs[j] == t[j - 1] && t[j - 1] in multiset(t);
      }
    }
  }

  lemma {:induction false} DistinctMultiplicity<T>(xs: seq<T>)
    requires Distinct(xs)
    ensures forall x :: multiset(xs)[x] <= 1
  {
    if xs != [] {
      var t := xs[1..];
      assert Distinct(t);
      DistinctMultiplicity(t);
      assert xs == [xs[0]] + t;
      assert xs[0] !in t;
    }
  }

  /** A filter keeps the order in which the values it passes first occur. */
  lemma {:induction false} FilterFirstIndexOrder<T(!new)>(xs: seq<T>, f: T -> bool, a: T, b: T)
    requires a in Filter(xs, f) && b in Filter(xs, f)
    ensures a in xs && b in xs
    ensures FirstIndex(Filter(xs, f), a) < FirstIndex(Filter(xs, f), b) <==> FirstIndex(xs, a) < FirstIndex(xs, b)
  {
    var r := Filter(xs, f);
    var rest := Filter(xs[1..], f);
    if xs[0] != a && xs[0] != b {
      if f(xs[0]) {
        assert r == [xs[0]] + rest;
        assert r[1..] == rest;
      } else {
        assert r == rest;
      }
      FilterFirstIndexOrder(xs[1..], f, a, b);
    } else {
      assert f(xs[0]);
      assert r[0] == xs[0];
    }
  }

  /** The non-empty strings of `os`, with `None` read as the empty string. */
  function Present(os: seq<Option<string>>): (present: seq<string>)
    ensures |present| == |os|
    ensures forall i :: 0 <= i < |os| ==> present[i] == os[i].GetOr("")
  {
    seq(|os|, i requires 0 <= i < |os| => os[i].GetOr(""))
  }

  /** A non-empty string first occurs in `Present(os)` where `Some` of it first occurs in `os`. */
  lemma PresentFirstIndex(os: seq<Option<string>>, x: string)
    requires x != "" && Some(x) in os
    ensures x in Present(os) && FirstIndex(Present(os), x) == FirstIndex(os, Some(x))
  {
    var present := Present(os);
    var k := FirstIndex(os, Some(x));
    assert present[k] == x;
    forall i | 0 <= i < k ensures present[i] != x {
      assert os[i] in os[..k];
    }
    FirstIndexUnique(present, x, k);
  }

  /** `Array.from(new Set(values.filter(Boolean)))` over optional strings: each value once, in first-occurrence order. */
  function UniqueValues(os: seq<Option<string>>): (r: seq<string>)
    ensures Distinct(r)
    ensures forall x :: x in r <==> x != "" && Some(x) in os
    ensures forall i, j :: 0 <= i < j < |r| ==>
      Some(r[i]) in os && Some(r[j]) in os && FirstIndex(os, Some(r[i])) < FirstIndex(os, Some(r[j]))
  {
    var present := Present(os);
    var nonEmpty := (s: string) => s != "";
    assert forall x :: x != "" ==> (x in present <==> Some(x) in os) by {
      forall x | x != "" ensures x in present <==> Some(x) in os {
        if Some(x) in os {
          var i :| 0 <= i < |os| && os[i] == Some(x);
          assert present[i] == x;
        }
      }
    }
    var kept := Filter(present, nonEmpty);
    var r := Dedup(kept);
    forall i, j | 0 <= i < j < |r|
      ensures Some(r[i]) in os && Some(r[j]) in os && FirstIndex(os, Some(r[i])) < FirstIndex(os, Some(r[j]))
    {
      DedupFirstOccurrenceOrder(kept, i, j);
      FilterFirstIndexOrder(present, nonEmpty, r[i], r[j]);
      PresentFirstIndex(os, r[i]);
      PresentFirstIndex(os, r[j]);
    }
    r
  }

  /** `xs` is `ys` with some elements left out, the rest in their order. */
  predicate Subsequence<T(==)>(xs: seq<T>, ys: seq<T>)
    decreases |ys|
  {
    xs == [] || (ys != [] && ((xs[0] == ys[0] && Subsequence(xs[1..], ys[1..])) || Subsequence(xs, ys[1..])))
  }

  /** A filter keeps its survivors in their input order. */
  lemma {:induction false} FilterSubsequence<T(!new)>(xs: seq<T>, f: T -> bool)
    ensures Subsequence(Filter(xs, f), xs)
  {
    if xs != [] {
      FilterSubsequence(xs[1..], f);
      var r := Filter(xs, f);
      if f(xs[0]) {
        assert r[0] == xs[0] && r[1..] == Filter(xs[1..], f);
      } else {
        assert r == Filter(xs[1..], f);
      }
    }
  }
}

=== FILE: project_row.dfy ===
/**
 * One row of a project list: the initials shown when the project has no
 * picture, the owner badge on projects shared by someone else, and the
 * favourite star.
 */
module ProjectRow {
  import opened Wrappers
  import opened Text
  import opened Types
  import Dashboard

  /** The words the initials come from: those of the name, or of 'AI' when the name is empty. */
  function NameWords(projectName: string): seq<string> {
    Words(if projectName == "" then "AI" else projectName)
  }

  /** `w.charAt(0).toUpperCase()` for a non-empty word. */
  function Initial(w: string): string
    requires w != []
  {
    [UpperChar(w[0])]
  }

  /**
   * `initials`: the upper-cased first characters of the first two words of
   * the name (or of 'AI'), joined without separator.
   */
  function Initials(projectName: string): (r: string)
    ensures var ws := NameWords(projectName);
      && |r| == (if |ws| < 2 then |ws| else 2)
      && forall i :: 0 <= i < |r| ==> r[i] == UpperChar(ws[i][0])
    ensures |r| <= 2
  {
    var ws := NameWords(projectName);
    if |ws| == 0 then ""
    else if |ws| == 1 then
      Join([Initial(ws[0])], "")
    else
      JoinCons(Initial(ws[0]), [Initial(ws[1])], "");
      Join([Initial(ws[0]), Initial(ws[1])], "")
  }

  /** The first word of a string that starts with a non-space character starts with that character. */
  lemma FirstWordStart(s: string)
    requires s != [] && !IsSpace(s[0])
    ensures Words(s) != [] && Words(s)[0] != [] && Words(s)[0][0] == s[0]
  {
  }

  /** A string of white space only has no words. */
  lemma {:induction false} BlankHasNoWords(s: string)
    requires Blank(s)
    ensures Words(s) == []
    decreases |s|
  {
    if s != [] {
      assert Blank(s[1..]);
      BlankHasNoWords(s[1..]);
    }
  }

  /** A name that starts with a non-space character has initials starting with that character upper-cased. */
  lemma InitialsLead(projectName: string)
    requires projectName != [] && !IsSpace(projectName[0])
    ensures Initials(projectName) != [] && Initials(projectName)[0] == UpperChar(projectName[0])
  {
    FirstWordStart(projectName);
  }

  /** An unnamed project shows 'A': the fallback 'AI' is a single word. */
  lemma UnnamedInitials()
    ensures Initials("") == "A"
  {
    var ai := "AI";
    assert !IsSpace(ai[0]) && !IsSpace(ai[1]);
    assert WordLength(ai) == 2;
    assert ai[..2] == ai && ai[2..] == [];
    assert Words(ai) == [ai[..2]] + Words(ai[2..]);
    assert NameWords("") == [ai];
  }

  /** A name of spaces only is not empty, so it gets no fallback and shows no initials. */
  lemma BlankNameNoInitials(projectName: string)
    requires projectName != [] && Blank(projectName)
    ensures Initials(projectName) == ""
  {
    BlankHasNoWords(projectName);
  }

  /**
   * `sharedOwner`: nothing without an owner email, nothing when the signed-in
   * email equals it ignoring case, and otherwise the owner email as stored.
   */
  function SharedOwner(ownerEmail: Option<string>, currentUserEmail: Option<string>): (r: string)
    ensures r == "" || (ownerEmail.Some? && r == ownerEmail.value)
    ensures r == "" <==>
      ownerEmail.GetOr("") == "" || (currentUserEmail.GetOr("") != "" && Lower(ownerEmail.value) == Lower(currentUserEmail.value))
  {
    var owner := ownerEmail.GetOr("");
    var me := currentUserEmail.GetOr("");
    if owner == "" then ""
    else if me != "" && Lower(owner) == Lower(me) then ""
    else owner
  }

  /** The owner never sees the badge on a project they own, whatever the case of either email. */
  lemma OwnerSeesNoBadge(owner: string, me: string)
    requires owner != "" && Lower(owner) == Lower(me)
    ensures SharedOwner(Some(owner), Some(me)) == ""
  {
    assert |me| == |owner|;
  }

  /** A signed-out visitor sees every owner email verbatim. */
  lemma SignedOutSeesOwner(owner: string)
    ensures SharedOwner(Some(owner), None) == owner
    ensures SharedOwner(Some(owner), Some("")) == owner
  {
  }

  /** `isFavorite ? isFavorite(project.id) : false`. */
  function FavoriteFlag(isFavorite: Option<string -> bool>, id: string): (b: bool)
    ensures isFavorite.None? ==> !b
    ensures isFavorite.Some? ==> b == isFavorite.value(id)
  {
    match isFavorite
    case None => false
    case Some(f) => f(id)
  }

  /**
   * With the dashboard's callback, a listed project's star is lit exactly
   * when the project is in the dashboard's favourites section.
   */
  lemma StarMatchesFavoritesSection(projects: seq<Project>, favoriteIds: seq<string>, p: Project)
    requires p in projects
    ensures FavoriteFlag(Some((id: string) => id in favoriteIds), p.id) <==> p in Dashboard.FavoriteProjects(projects, favoriteIds)
  {
  }
}

=== FILE: projects_page.dfy ===
/**
 * The "My projects" page: the selection of projects for bulk deletion, the
 * search and filter box, and the category and provider choices it offers.
 */
module ProjectsPage {
  import opened Wrappers
  import opened Text
  import opened Types
  import opened Lists
  import Store

  // ---- filtering ----

  /** The page's filters as typed or chosen; an empty one matches everything. */
  datatype Filters = Filters(query: string, category: string, provider: string)

  /**
   * A project passes when the trimmed, lower-cased query is empty or occurs
   * in its lower-cased name or description, and the category and provider,
   * when chosen, are exactly the project's.
   */
  predicate Matches(p: Project, f: Filters) {
    var q := Lower(Trim(f.query));
    && (q == "" || Contains(Lower(p.projectName), q) || Contains(Lower(p.description), q))
    && (f.category == "" || p.category == Some(f.category))
    && (f.provider == "" || ProviderName(p.model.provider) == f.provider)
  }

  function MatchTest(f: Filters): Project -> bool {
    (p: Project) => Matches(p, f)
  }

  /** `filtered`: the matching projects, in list order. */
  function Filtered(projects: seq<Project>, f: Filters): (r: seq<Project>)
    ensures forall p :: p in r <==> p in projects && Matches(p, f)
    ensures Subsequence(r, projects)
  {
    FilterSubsequence(projects, MatchTest(f));
    Filter(projects, MatchTest(f))
  }

  /** With a blank query and no category or provider chosen, every project is listed, in order. */
  lemma NoFiltersListAll(projects: seq<Project>, query: string)
    requires Blank(query)
    ensures Filtered(projects, Filters(query, "", "")) == projects
  {
    TrimEmptyIffBlank(query);
    FilterAllPass(projects, MatchTest(Filters(query, "", "")));
  }

  /** A chosen category or provider lists only projects that have it. */
  lemma FilteredHaveChoice(projects: seq<Project>, f: Filters, p: Project)
    requires p in Filtered(projects, f)
    ensures f.category != "" ==> p.category == Some(f.category)
    ensures f.provider != "" ==> ProviderName(p.model.provider) == f.provider
  {
  }

  // ---- the choices offered ----

  /** `projects.map(p => p.category)`. */
  function Categories(projects: seq<Project>): (os: seq<Option<string>>)
    ensures |os| == |projects|
    ensures forall i :: 0 <= i < |projects| ==> os[i] == projects[i].category
  {
    seq(|projects|, i requires 0 <= i < |projects| => projects[i].category)
  }

  /** `uniqueCategories`: each non-empty category once, in order of first occurrence. */
  function UniqueCategories(projects: seq<Project>): (r: seq<string>)
    ensures Distinct(r)
    ensures forall c :: c in r <==> c != "" && exists p :: p in projects && p.category == Some(c)
    ensures forall i, j :: 0 <= i < j < |r| ==>
      Some(r[i]) in Categories(projects) && Some(r[j]) in Categories(projects)
      && FirstIndex(Categories(projects), Some(r[i])) < FirstIndex(Categories(projects), Some(r[j]))
  {
    var os := Categories(projects);
    forall c ensures Some(c) in os <==> exists p :: p in projects && p.category == Some(c) {
      if p :| p in projects && p.category == Some(c) {
        var i :| 0 <= i < |projects| && projects[i] == p;
        assert os[i] == Some(c);
      }
    }
    UniqueValues(os)
  }

  /** `projects.map(p => p.model?.provider)`; a provider name is never empty. */
  function Providers(projects: seq<Project>): (names: seq<string>)
    ensures |names| == |projects|
    ensures forall i :: 0 <= i < |projects| ==> names[i] == ProviderName(projects[i].model.provider)
  {
    seq(|projects|, i requires 0 <= i < |projects| => ProviderName(projects[i].model.provider))
  }

  /** `uniqueProviders`: each provider name once, in order of first occurrence. */
  function UniqueProviders(projects: seq<Project>): (r: seq<string>)
    ensures Distinct(r)
    ensures forall x :: x in r <==> exists p :: p in projects && ProviderName(p.model.provider) == x
    ensures forall i, j :: 0 <= i < j < |r| ==>
      r[i] in Providers(projects) && r[j] in Providers(projects)
      && FirstIndex(Providers(projects), r[i]) < FirstIndex(Providers(projects), r[j])
  {
    var names := Providers(projects);
    forall x ensures x in names <==> exists p :: p in projects && ProviderName(p.model.provider) == x {
      if p :| p in projects && ProviderName(p.model.provider) == x {
        var i :| 0 <= i < |projects| && projects[i] == p;
        assert names[i] == x;
      }
    }
    forall i, j | 0 <= i < j < |Dedup(names)|
      ensures Dedup(names)[i] in names && Dedup(names)[j] in names
      ensures FirstIndex(names, Dedup(names)[i]) < FirstIndex(names, Dedup(names)[j])
    {
      DedupFirstOccurrenceOrder(names, i, j);
    }
    Dedup(names)
  }

  /** Choosing any offered category, with nothing else set, lists at least one project. */
  lemma OfferedCategoryListsSomething(projects: seq<Project>, c: string)
    requires c in UniqueCategories(projects)
    ensures Filtered(projects, Filters("", c, "")) != []
  {
    var p :| p in projects && p.category == Some(c);
    assert Matches(p, Filters("", c, "")) by {
      assert Lower(Trim("")) == "";
    }
    assert p in Filtered(projects, Filters("", c, ""));
  }

  /** Choosing any offered provider, with nothing else set, lists at least one project. */
  lemma OfferedProviderListsSomething(projects: seq<Project>, x: string)
    requires x in UniqueProviders(projects)
    ensures Filtered(projects, Filters("", "", x)) != []
  {
    var p :| p in projects && ProviderName(p.model.provider) == x;
    assert Matches(p, Filters("", "", x)) by {
      assert Lower(Trim("")) == "";
    }
    assert p in Filtered(projects, Filters("", "", x));
  }

  // ---- selection ----

  /** The ids checked for bulk deletion. */
  class Selection {
    var selectedIds: seq<string>

    constructor()
      ensures selectedIds == []
    {
      selectedIds := [];
    }

    /** `allSelected`: something is selected and the count equals the number of projects. */
    predicate AllSelected(projects: seq<Project>)
      reads this
    {
      |selectedIds| > 0 && |selectedIds| == |projects|
    }

    /** `toggleSelect(id)`: a selected id is unselected (every copy); another is put first. */
    method ToggleSelect(id: string)
      modifies this
      ensures selectedIds == Store.Toggle(old(selectedIds), id)
      ensures id in selectedIds <==> id !in old(selectedIds)
    {
      Store.ToggleFlips(selectedIds, id);
      selectedIds := Store.Toggle(selectedIds, id);
    }

    /** `toggleSelectAll()`: clear when the count equals the number of projects, else select every project's id in list order. */
    method ToggleSelectAll(projects: seq<Project>)
      modifies this
      ensures |old(selectedIds)| == |projects| ==> selectedIds == []
      ensures |old(selectedIds)| != |projects| ==>
        (|selectedIds| == |projects| && forall i :: 0 <= i < |projects| ==> selectedIds[i] == projects[i].id)
      ensures projects != [] ==> (AllSelected(projects) <==> !old(AllSelected(projects)))
    {
      if |selectedIds| == |projects| {
        selectedIds := [];
      } else {
        selectedIds := seq(|projects|, i requires 0 <= i < |projects| => projects[i].id);
      }
    }

    /** `deleteSelected()`: nothing for an empty selection; otherwise the store drops every selected project and the selection is cleared. */
    method DeleteSelected(store: Store.ProjectStore)
      modifies this, store
      ensures old(selectedIds) == [] ==> selectedIds == [] && store.projects == old(store.projects)
      ensures old(selectedIds) != [] ==>
        (selectedIds == [] && store.projects == Store.Without(old(store.projects), set x | x in old(selectedIds)))
    {
      if |selectedIds| == 0 {
        return;
      }
      store.RemoveMany(selectedIds);
      selectedIds := [];
    }
  }
}

=== FILE: scaffold.dfy ===
/**
 * Turning a one-line idea into the starting fields of a project: ask OpenAI,
 * then Gemini, and fall back to a keyword heuristic. The two HTTP exchanges
 * are inputs (`Reply`), and `JSON.parse` is the host's opaque parser.
 */
module Scaffold {
  import opened Wrappers
  import opened Text
  import opened Js
  import Infer
  import Lists

  /** The fields a scaffold sets on a new project. */
  datatype Scaffold = Scaffold(projectName: string, description: string, category: Option<string>, systemInstructions: string)

  // ---- the keyword heuristic ----

  /** The category the heuristic picks; earlier keyword groups win. */
  function HeuristicCategory(input: string): (c: string)
    ensures var l := Lower(input);
      && (Contains(l, "quiz") || Contains(l, "grade") ==> c == "Assessment")
      && (!Contains(l, "quiz") && !Contains(l, "grade") && (Contains(l, "study") || Contains(l, "student")) ==> c == "Student")
      && ((!Contains(l, "quiz") && !Contains(l, "grade") && !Contains(l, "study") && !Contains(l, "student")
          && (Contains(l, "faq") || Contains(l, "assistant"))) ==> c == "Assistant")
    ensures c in {"Assessment", "Student", "Assistant", "Teaching"}
  {
    var l := Lower(input);
    if Contains(l, "quiz") || Contains(l, "grade") then "Assessment"
    else if Contains(l, "study") || Contains(l, "student") then "Student"
    else if Contains(l, "faq") || Contains(l, "assistant") then "Assistant"
    else "Teaching"
  }

  /** The heuristic's project name: the capitalised first 60 characters, or 'Untitled Project' for inputs of 3 characters or fewer. */
  function HeuristicName(input: string): (name: string)
    ensures |input| <= 3 ==> name == "Untitled Project"
    ensures |input| > 3 ==> |name| <= 60 && name != [] && name[0] == UpperChar(input[0]) && name[1..] == Take(input, 60)[1..]
  {
    if |input| > 3 then Capitalize(Take(input, 60)) else "Untitled Project"
  }

  /** `heuristicScaffold(input)`. */
  function HeuristicScaffold(input: string): (s: Scaffold)
    ensures s.description == input
    ensures s.projectName == HeuristicName(input) && s.category == Some(HeuristicCategory(input))
    ensures s.systemInstructions == "You are " + s.projectName + ", an AI assistant for " + s.category.value + ". Be helpful and concise."
  {
    var name := HeuristicName(input);
    var category := HeuristicCategory(input);
    Scaffold(name, input, Some(category), "You are " + name + ", an AI assistant for " + category + ". Be helpful and concise.")
  }

  /** The heuristic classifies case-insensitively: "Quiz maker" is an assessment. */
  lemma HeuristicExample()
    ensures HeuristicScaffold("Quiz maker").projectName == "Quiz maker"
    ensures HeuristicScaffold("Quiz maker").category == Some("Assessment")
  {
    assert Lower("Quiz maker") == "quiz maker";
    assert OccursAt("quiz maker", "quiz", 0);
    assert HeuristicCategory("Quiz maker") == "Assessment";
    assert Take("Quiz maker", 60) == "Quiz maker";
    assert HeuristicName("Quiz maker") == "Quiz maker";
  }

  /** With no keyword, the heuristic falls back to Teaching; short inputs keep the default name. */
  lemma HeuristicFallbackExample()
    ensures HeuristicScaffold("ab").projectName == "Untitled Project"
    ensures HeuristicScaffold("ab").category == Some("Teaching")
  {
    assert Lower("ab") == "ab";
    MissingCharNotContained("ab", "quiz", 'q');
    MissingCharNotContained("ab", "grade", 'g');
    MissingCharNotContained("ab", "study", 's');
    MissingCharNotContained("ab", "student", 's');
    MissingCharNotContained("ab", "faq", 'f');
    MissingCharNotContained("ab", "assistant", 's');
    assert HeuristicCategory("ab") == "Teaching";
    assert HeuristicName("ab") == "Untitled Project";
  }

  // ---- model replies ----

  /** `safeParseJson(text)`: parse from the first `{` to the last `}` if both exist, else the whole text; failure is None. */
  function SafeParseJson(h: Host, text: string): (r: Option<Json>)
    ensures '{' in text && '}' in text ==>
      r == (match h.parseJson(Slice(text, IndexOf(text, '{') as nat, (LastIndexOf(text, '}') + 1) as nat))
            case Ok(v) => Some(v) case Err(_) => None)
    ensures !('{' in text && '}' in text) ==>
      r == (match h.parseJson(text) case Ok(v) => Some(v) case Err(_) => None)
  {
    var start := IndexOf(text, '{');
    var end := LastIndexOf(text, '}');
    var parsed := if start != -1 && end != -1 then h.parseJson(Slice(text, start as nat, (end + 1) as nat)) else h.parseJson(text);
    match parsed
    case Ok(v) => Some(v)
    case Err(_) => None
  }

  /** Once braces are found the whole text is never tried: a failing slice gives None even when the whole text parses. */
  lemma SafeParseJsonNoRetry(h: Host, text: string)
    requires '{' in text && '}' in text
    requires h.parseJson(Slice(text, IndexOf(text, '{') as nat, (LastIndexOf(text, '}') + 1) as nat)).Err?
    ensures SafeParseJson(h, text) == None
  {
  }

  /** The slice parsed runs from the first `{` through the last `}`, so it starts with `{` and ends with `}` when they are in order. */
  lemma SafeParseJsonSlice(text: string)
    requires '{' in text && '}' in text && IndexOf(text, '{') < LastIndexOf(text, '}')
    ensures var s := Slice(text, IndexOf(text, '{') as nat, (LastIndexOf(text, '}') + 1) as nat);
      |s| >= 2 && s[0] == '{' && s[|s| - 1] == '}' && '{' !in text[..IndexOf(text, '{')]
  {
  }

  /**
   * A truthy field value as the model's `Scaffold` keeps it. The source stores
   * the raw value; the model's fields are strings, so a value of another type
   * is kept as its `String()` text.
   */
  function AsText(h: Host, v: Json): string {
    ToStr(h, v)
  }

  /**
   * `mapToProject(obj)`: name defaults to 'Untitled Project', description and
   * instructions to ''. The category is taken as is: a string is kept, and a
   * falsy value (undefined, null, false, 0, NaN), which every reader of
   * `category` treats as no category, is None.
   */
  function MapToProject(h: Host, obj: Json): (s: Scaffold)
    ensures !Truthy(Get(obj, "projectName")) ==> s.projectName == "Untitled Project"
    ensures Truthy(Get(obj, "projectName")) ==> s.projectName == ToStr(h, Get(obj, "projectName"))
    ensures Get(obj, "projectName").Str? && Truthy(Get(obj, "projectName")) ==> s.projectName == Get(obj, "projectName").s
    ensures !Truthy(Get(obj, "description")) ==> s.description == ""
    ensures Truthy(Get(obj, "description")) ==> s.description == ToStr(h, Get(obj, "description"))
    ensures !Truthy(Get(obj, "systemInstructions")) ==> s.systemInstructions == ""
    ensures Truthy(Get(obj, "systemInstructions")) ==> s.systemInstructions == ToStr(h, Get(obj, "systemInstructions"))
    ensures Get(obj, "category").Str? ==> s.category == Some(Get(obj, "category").s)
    ensures Get(obj, "category").Null? || Get(obj, "category").Undefined? ==> s.category == None
    ensures !Get(obj, "category").Str? && !Truthy(Get(obj, "category")) ==> s.category == None
    ensures !Get(obj, "category").Str? && Truthy(Get(obj, "category")) ==> s.category == Some(ToStr(h, Get(obj, "category")))
  {
    var name := Get(obj, "projectName");
    var desc := Get(obj, "description");
    var cat := Get(obj, "category");
    var sys := Get(obj, "systemInstructions");
    Scaffold(
      if Truthy(name) then AsText(h, name) else "Untitled Project",
      if Truthy(desc) then AsText(h, desc) else "",
      if cat.Str? then Some(cat.s) else if Truthy(cat) then Some(AsText(h, cat)) else None,
      if Truthy(sys) then AsText(h, sys) else "")
  }

  /** A truthy mapped name is never empty, so `generateFromPrompt`'s own fallback never fires. */
  lemma MapToProjectNameNonEmpty(h: Host, obj: Json)
    requires !Get(obj, "projectName").Num? && !Get(obj, "projectName").Arr?
    ensures MapToProject(h, obj).projectName != ""
  {
  }

  /** The outcome of one provider attempt: the request or body parse threw, or the decoded response body. */
  datatype Reply = Failed | Replied(data: Json)

  /** `JSON.parse(text)`, with a throw as None. */
  function ParseOpt(h: Host, text: string): Option<Json> {
    match h.parseJson(text)
    case Ok(v) => Some(v)
    case Err(_) => None
  }

  /** `items.indexOf(v)`: the first element equal to `v` as a whole, or -1. */
  function ItemIndexOf(items: seq<Json>, v: Json): (r: int)
    ensures -1 <= r < |items|
    ensures r == -1 <==> v !in items
    ensures r >= 0 ==> items[r] == v && v !in items[..r]
  {
    if v in items then Lists.FirstIndex(items, v) else -1
  }

  /** `items.lastIndexOf(v)`: the last element equal to `v` as a whole, or -1. */
  function ItemLastIndexOf(items: seq<Json>, v: Json): (r: int)
    ensures -1 <= r < |items|
    ensures r == -1 <==> v !in items
    ensures r >= 0 ==> items[r] == v && v !in items[r + 1..]
  {
    Lists.LastIndex(items, v)
  }

  /**
   * `safeParseJson(text)` when the reply text is an array: `indexOf('{')` and
   * `lastIndexOf('}')` look for whole elements equal to those one-character
   * strings, `slice` cuts the array, and `JSON.parse` parses the `String()` of
   * what it is given.
   */
  function SafeParseItems(h: Host, items: seq<Json>): (r: Option<Json>)
    ensures !(Str("{") in items && Str("}") in items) ==> r == ParseOpt(h, ToStr(h, Arr(items)))
    ensures Str("{") in items && Str("}") in items ==>
      var i, j := ItemIndexOf(items, Str("{")), ItemLastIndexOf(items, Str("}"));
      && (i <= j ==> r == ParseOpt(h, ToStr(h, Arr(items[i..j + 1]))))
      && (j < i ==> r == ParseOpt(h, ""))
  {
    var start := ItemIndexOf(items, Str("{"));
    var end := ItemLastIndexOf(items, Str("}"));
    if start == -1 || end == -1 then ParseOpt(h, ToStr(h, Arr(items)))
    else if start <= end then ParseOpt(h, ToStr(h, Arr(items[start..end + 1])))
    else
      // `slice` with its end before its start gives [], whose `String()` is ''.
      assert ToStr(h, Arr([])) == "";
      ParseOpt(h, ToStr(h, Arr([])))
  }

  /**
   * `safeParseJson(text)` on whatever `... || ''` produced: strings and arrays
   * have `indexOf`; on any other value the call throws inside the `try`, which
   * gives null.
   */
  function SafeParseValue(h: Host, text: Json): (r: Option<Json>)
    ensures text.Str? ==> r == SafeParseJson(h, text.s)
    ensures text.Arr? ==> r == SafeParseItems(h, text.items)
    ensures !text.Str? && !text.Arr? ==> r == None
  {
    match text
    case Str(s) => SafeParseJson(h, s)
    case Arr(items) => SafeParseItems(h, items)
    case _ => None
  }

  /** The `String()` of a one-string array is that string. */
  lemma OneStringArrayText(h: Host, inner: string)
    ensures ToStr(h, Arr([Str(inner)])) == inner
  {
    var parts := seq(1, i requires 0 <= i < 1 => if Nullish([Str(inner)][i]) then "" else ToStr(h, [Str(inner)][i]));
    assert parts == [inner];
  }

  /**
   * One provider attempt: the reply's content, or '' when it is falsy, goes
   * through `safeParseJson`, and a truthy parse becomes the scaffold.
   */
  function Attempt(h: Host, reply: Reply, extract: Json -> Json): (r: Option<Scaffold>)
    ensures reply.Failed? ==> r.None?
    ensures reply.Replied? ==>
      var v := SafeParseValue(h, Or(extract(reply.data), Str("")));
      && (r.Some? <==> v.Some? && Truthy(v.value))
      && (r.Some? ==> r.value == MapToProject(h, v.value))
    ensures reply.Replied? && Truthy(extract(reply.data)) && !extract(reply.data).Str? && !extract(reply.data).Arr? ==> r.None?
  {
    match reply
    case Failed => None
    case Replied(data) =>
      match SafeParseValue(h, Or(extract(data), Str("")))
      case Some(v) => if Truthy(v) then Some(MapToProject(h, v)) else None
      case None => None
  }

  /**
   * A reply whose content is an array holding one string is parsed as that
   * string, whole: `['{"projectName":"X"}']` yields the scaffold named X.
   */
  lemma ArrayContentScaffolds(h: Host, reply: Reply, extract: Json -> Json, inner: string, v: Json)
    requires reply.Replied? && extract(reply.data) == Arr([Str(inner)])
    requires h.parseJson(inner) == Ok(v) && Truthy(v)
    ensures Attempt(h, reply, extract) == Some(MapToProject(h, v))
  {
    var items := [Str(inner)];
    OneStringArrayText(h, inner);
    assert !(Str("{") in items && Str("}") in items);
    assert SafeParseItems(h, items) == Some(v);
  }

  /**
   * `scaffoldProjectFromPrompt(prompt)`: OpenAI if keyed and usable, then Gemini
   * if keyed and usable, then the heuristic on the trimmed prompt. It always
   * produces a scaffold.
   */
  function ScaffoldFromPrompt(h: Host, prompt: string, openaiKey: Option<string>, geminiKey: Option<string>,
                              openai: Reply, gemini: Reply): (s: Scaffold)
    ensures !Infer.Present(openaiKey) && !Infer.Present(geminiKey) ==> s == HeuristicScaffold(Trim(prompt))
    ensures Infer.Present(openaiKey) && Attempt(h, openai, Infer.ChoiceContent).Some? ==>
      s == Attempt(h, openai, Infer.ChoiceContent).value
    ensures ((!Infer.Present(openaiKey) || Attempt(h, openai, Infer.ChoiceContent).None?)
      && Infer.Present(geminiKey) && Attempt(h, gemini, Infer.CandidateText).Some?) ==>
      s == Attempt(h, gemini, Infer.CandidateText).value
    ensures ((!Infer.Present(openaiKey) || Attempt(h, openai, Infer.ChoiceContent).None?)
      && (!Infer.Present(geminiKey) || Attempt(h, gemini, Infer.CandidateText).None?)) ==>
      s == HeuristicScaffold(Trim(prompt))
  {
    var first := if Infer.Present(openaiKey) then Attempt(h, openai, Infer.ChoiceContent) else None;
    var second := if Infer.Present(geminiKey) then Attempt(h, gemini, Infer.CandidateText) else None;
    if first.Some? then first.value
    else if second.Some? then second.value
    else HeuristicScaffold(Trim(prompt))
  }

  /** A failed request never prevents a scaffold: with both attempts failing, the heuristic answers. */
  lemma FailuresFallBack(h: Host, prompt: string, openaiKey: Option<string>, geminiKey: Option<string>)
    ensures ScaffoldFromPrompt(h, prompt, openaiKey, geminiKey, Failed, Failed) == HeuristicScaffold(Trim(prompt))
  {
  }
}

=== FILE: share.dfy ===
/**
 * The share dialog: a draft of the project's general access and invite list,
 * reset when the dialog opens, extended by Invite, and written into the
 * project by Save. The invite role comes from the dialog's role selector and
 * is an input here.
 */
module Share {
  import opened Wrappers
  import opened Types
  import App

  /** The access the draft starts from: the project's, or private when it has none. */
  function OpeningAccess(p: Project): (a: Access)
    ensures p.generalAccess.Some? ==> a == p.generalAccess.value
    ensures p.generalAccess.None? ==> a == Private
  {
    p.generalAccess.GetOr(Private)
  }

  /** The invites the draft starts from: the project's, or none. */
  function OpeningInvites(p: Project): (invites: seq<Invite>)
    ensures p.invites.Some? ==> invites == p.invites.value
    ensures p.invites.None? ==> invites == []
  {
    p.invites.GetOr([])
  }

  /** `{ ...project, invites, generalAccess: access, updatedAt: now }`. */
  function Saved(p: Project, access: Access, invites: seq<Invite>, now: string): (next: Project)
    ensures next.generalAccess == Some(access) && next.invites == Some(invites) && next.updatedAt == now
    ensures forall k :: k != GeneralAccessField && k != InvitesField && k != UpdatedAtField ==> FieldOf(next, k) == FieldOf(p, k)
  {
    p.(invites := Some(invites), generalAccess := Some(access), updatedAt := now)
  }

  /**
   * Opening and saving without edits only moves the timestamp of a project
   * that has both sharing fields, and fills in private access and an empty
   * invite list for one that lacks them.
   */
  lemma SaveUnedited(p: Project, now: string)
    ensures Saved(p, OpeningAccess(p), OpeningInvites(p), now)
      == p.(generalAccess := Some(p.generalAccess.GetOr(Private)), invites := Some(p.invites.GetOr([])), updatedAt := now)
    ensures p.generalAccess.Some? && p.invites.Some? ==> Saved(p, OpeningAccess(p), OpeningInvites(p), now) == p.(updatedAt := now)
  {
  }

  /** Saving keeps who may open the project in step with the draft: the saved project's access and invites are the draft's. */
  lemma SavedSharingReadsBack(p: Project, access: Access, invites: seq<Invite>, now: string)
    ensures Saved(p, access, invites, now).generalAccess.GetOr(Private) == access
    ensures Saved(p, access, invites, now).invites.GetOr([]) == invites
  {
  }

  /**
   * An invite added in the dialog and saved takes effect on the route: the
   * invited email opens the saved project in the editor for an edit invite,
   * and, on a private project, in the viewer for a view invite.
   */
  lemma SavedInviteGrants(p: Project, access: Access, invites: seq<Invite>, now: string, email: string, role: Role)
    ensures var next := Saved(p, access, invites + [Invite(email, role)], now);
      && (role == CanEdit ==> App.ChooseSurface(Some(next), email) == App.EditorSurface)
      && (role == CanView && access == Private && !App.HasInvite(invites, email, CanEdit) ==>
            App.ChooseSurface(Some(next), email) == App.ViewerSurface)
  {
    var all := invites + [Invite(email, role)];
    assert all[|invites|] == Invite(email, role);
    assert App.HasInvite(all, email, role);
    assert App.HasInvite(all, email, CanEdit) ==> App.HasInvite(invites, email, CanEdit) || role == CanEdit by {
      if App.HasInvite(all, email, CanEdit) {
        var i :| 0 <= i < |all| && all[i].email == email && all[i].role == CanEdit;
        if i < |invites| {
          assert invites[i] == all[i];
        }
      }
    }
  }

  /** The dialog's draft; Save hands `Saved(project, access, invites, now)` to `onUpdate`, and Close hands nothing. */
  class ShareDraft {
    var access: Access
    var inviteEmail: string
    var invites: seq<Invite>

    constructor()
      ensures access == Private && inviteEmail == "" && invites == []
    {
      access := Private;
      inviteEmail := "";
      invites := [];
    }

    /** Opening the dialog on a project resets the draft from it. */
    method Open(p: Project)
      modifies this
      ensures inviteEmail == "" && invites == OpeningInvites(p) && access == OpeningAccess(p)
    {
      inviteEmail := "";
      invites := p.invites.GetOr([]);
      access := p.generalAccess.GetOr(Private);
    }

    /** Typing in the email field. */
    method SetEmail(email: string)
      modifies this
      ensures inviteEmail == email && invites == old(invites) && access == old(access)
    {
      inviteEmail := email;
    }

    /** Choosing the general access. */
    method SetAccess(a: Access)
      modifies this
      ensures access == a && inviteEmail == old(inviteEmail) && invites == old(invites)
    {
      access := a;
    }

    /**
     * The Invite button: nothing for an empty email; otherwise the email, as
     * typed, is appended with the selected role, and the field is cleared.
     * Repeated emails are kept.
     */
    method AddInvite(role: Role)
      modifies this
      ensures old(inviteEmail) == "" ==> invites == old(invites) && inviteEmail == ""
      ensures old(inviteEmail) != "" ==> invites == old(invites) + [Invite(old(inviteEmail), role)] && inviteEmail == ""
      ensures access == old(access)
    {
      if inviteEmail == "" {
        return;
      }
      invites := invites + [Invite(inviteEmail, role)];
      inviteEmail := "";
    }
  }
}

=== FILE: sidebar.dfy ===
/**
 * The sidebar: the fixed navigation list and which entry is highlighted for
 * the current path, and the collapsed flag, restored from and written back
 * to browser storage.
 */
module Sidebar {
  import opened Wrappers
  import opened Text
  import opened Lists

  /** One navigation entry; the icon is presentation and is not modelled. */
  datatype NavItem = NavItem(to: string, labelText: string)

  /** `nav`, in display order. */
  const Nav: seq<NavItem> := [
    NavItem("/", "Dashboard"),
    NavItem("/projects", "My projects"),
    NavItem("/templates", "Templates"),
    NavItem("/shared", "Shared with me"),
    NavItem("/learn", "Learn"),
    NavItem("/help", "Help & feedback")
  ]

  /** An entry is active on its exact path or, except for the root, on any path it is a plain string prefix of. */
  predicate IsActive(pathname: string, to: string) {
    pathname == to || (to != "/" && StartsWith(pathname, to))
  }

  /** The root entry is active on the root path and nowhere else. */
  lemma RootActiveOnlyAtRoot(pathname: string)
    ensures IsActive(pathname, "/") <==> pathname == "/"
  {
  }

  /** Any other entry is active exactly on the paths that start with its target, deeper pages and longer names alike. */
  lemma ActiveIffPrefix(pathname: string, to: string)
    requires to != "/"
    ensures IsActive(pathname, to) <==> StartsWith(pathname, to)
    ensures IsActive(to + pathname, to)
  {
    assert (to + pathname)[..|to|] == to;
  }

  /** The entries' targets, which React also uses as their keys. */
  function Targets(items: seq<NavItem>): (ts: seq<string>)
    ensures |ts| == |items|
    ensures forall i :: 0 <= i < |items| ==> ts[i] == items[i].to
  {
    seq(|items|, i requires 0 <= i < |items| => items[i].to)
  }

  /** Two navigation targets other than the root differ in their second character. */
  lemma SecondCharsDiffer(i: int, j: int)
    requires 1 <= i < |Nav| && 1 <= j < |Nav| && i != j
    ensures |Nav[i].to| >= 5 && |Nav[j].to| >= 5 && Nav[i].to[1] != Nav[j].to[1]
  {
    assert Nav[1].to[1] == 'p' && Nav[2].to[1] == 't' && Nav[3].to[1] == 's';
    assert Nav[4].to[1] == 'l' && Nav[5].to[1] == 'h';
  }

  /** The six targets are distinct, so the keys are unique. */
  lemma NavTargetsDistinct()
    ensures |Nav| == 6 && Nav[0].to == "/"
    ensures Distinct(Targets(Nav))
  {
    var ts := Targets(Nav);
    forall i, j | 0 <= i < j < |ts| ensures ts[i] != ts[j] {
      if i == 0 {
        SecondCharsDiffer(j, if j == 1 then 2 else 1);
      } else {
        SecondCharsDiffer(i, j);
      }
    }
  }

  /** Whatever the path, at most one entry of the list is highlighted. */
  lemma AtMostOneActive(pathname: string, i: int, j: int)
    requires 0 <= i < |Nav| && 0 <= j < |Nav|
    requires IsActive(pathname, Nav[i].to) && IsActive(pathname, Nav[j].to)
    ensures i == j
  {
    if i != j {
      if i == 0 || j == 0 {
        var k := if i == 0 then j else i;
        SecondCharsDiffer(k, if k == 1 then 2 else 1);
      } else {
        SecondCharsDiffer(i, j);
      }
    }
  }

  /** What reading the stored flag gave: a value, nothing stored, or an exception. */
  datatype StorageRead = Stored(value: string) | NotStored | ReadFailed

  /** The initial `collapsed`: true exactly when the stored value is the string 'true'. */
  function Restore(read: StorageRead): (collapsed: bool)
    ensures collapsed <==> read == Stored("true")
  {
    match read
    case Stored(raw) => raw == "true"
    case NotStored => false
    case ReadFailed => false
  }

  /** `String(collapsed)`, the value written to storage. */
  function Persist(collapsed: bool): (raw: string)
    ensures raw == "true" <==> collapsed
    ensures raw == "true" || raw == "false"
  {
    if collapsed then "true" else "false"
  }

  /** A persisted flag is restored unchanged on the next visit. */
  lemma RestorePersisted(collapsed: bool)
    ensures Restore(Stored(Persist(collapsed))) == collapsed
  {
  }

  /**
   * The sidebar's state: the collapsed flag and the value it last wrote to
   * storage (`None` before any successful write). Each write may fail
   * silently, which `writeOk` stands for.
   */
  class SidebarState {
    var collapsed: bool
    var written: Option<string>

    /** Storage holds the current flag. */
    predicate Synced()
      reads this
    {
      written == Some(Persist(collapsed))
    }

    /** Mounting: restore the flag, then the effect writes it back. */
    constructor(read: StorageRead, writeOk: bool)
      ensures collapsed == Restore(read)
      ensures written == (if writeOk then Some(Persist(collapsed)) else None)
      ensures writeOk ==> Synced()
    {
      collapsed := Restore(read);
      written := if writeOk then Some(Persist(Restore(read))) else None;
    }

    /** `setCollapsed(b)`: the effect writes the flag only when it changes. */
    method SetCollapsed(b: bool, writeOk: bool)
      modifies this
      ensures collapsed == b
      ensures written == (if b != old(collapsed) && writeOk then Some(Persist(b)) else old(written))
      ensures writeOk && (old(Synced()) || b != old(collapsed)) ==> Synced()
    {
      if b != collapsed {
        collapsed := b;
        if writeOk {
          written := Some(Persist(b));
        }
      }
    }

    /** The collapse button, shown while open. */
    method Collapse(writeOk: bool)
      modifies this
      ensures collapsed
      ensures written == (if !old(collapsed) && writeOk then Some("true") else old(written))
    {
      SetCollapsed(true, writeOk);
    }

    /** The open button, shown while collapsed. */
    method Open(writeOk: bool)
      modifies this
      ensures !collapsed
      ensures written == (if old(collapsed) && writeOk then Some("false") else old(written))
    {
      SetCollapsed(false, writeOk);
    }

    /** The logo: `collapsed && setCollapsed(false)`, so it only ever opens. */
    method LogoClick(writeOk: bool)
      modifies this
      ensures !collapsed
      ensures written == (if old(collapsed) && writeOk then Some("false") else old(written))
    {
      if collapsed {
        SetCollapsed(false, writeOk);
      }
    }
  }
}

=== FILE: store.dfy ===
/**
 * The in-memory project list and the per-user favourites list. Persistence to
 * local storage and the cross-tab synchronisation events are not modelled:
 * each store is a single sequence that its methods replace.
 */
module Store {
  import opened Wrappers
  import opened Types
  import Lists

  // ---- the list transforms the store applies ----

  /** `arr.map(x => x.id === p.id ? p : x)`. */
  function Replace(ps: seq<Project>, p: Project): (r: seq<Project>)
    ensures |r| == |ps|
    ensures forall i :: 0 <= i < |ps| ==> r[i] == if ps[i].id == p.id then p else ps[i]
  {
    seq(|ps|, i requires 0 <= i < |ps| => if ps[i].id == p.id then p else ps[i])
  }

  predicate HasId(ps: seq<Project>, id: string) {
    exists i :: 0 <= i < |ps| && ps[i].id == id
  }

  /** `arr.filter(x => !ids.has(x.id))`. */
  function Without(ps: seq<Project>, ids: set<string>): (r: seq<Project>)
    ensures |r| <= |ps|
    ensures forall q :: q in r <==> q in ps && q.id !in ids
  {
    Lists.Filter(ps, (q: Project) => q.id !in ids)
  }

  /** Position of the first project with this id, or -1. */
  function FindIndex(ps: seq<Project>, id: string): (i: int)
    ensures -1 <= i < |ps|
    ensures i == -1 <==> !HasId(ps, id)
    ensures i >= 0 ==> ps[i].id == id && forall j :: 0 <= j < i ==> ps[j].id != id
  {
    if ps == [] then -1
    else if ps[0].id == id then 0
    else
      var k := FindIndex(ps[1..], id);
      assert HasId(ps, id) ==> HasId(ps[1..], id) by {
        if HasId(ps, id) {
          var i :| 0 <= i < |ps| && ps[i].id == id;
          assert ps[1..][i - 1].id == id;
        }
      }
      if k < 0 then -1 else k + 1
  }

  /** `projects.find(p => p.id === id) ?? null`: the first project with the id, or None. */
  function Find(ps: seq<Project>, id: string): (r: Option<Project>)
    ensures r.None? <==> !HasId(ps, id)
    ensures r.Some? ==> r.value.id == id && r.value == ps[FindIndex(ps, id)]
  {
    var i := FindIndex(ps, id);
    if i < 0 then None else Some(ps[i])
  }

  /** `p.invites?.some(i => i.email === email)`: false when the invites list is missing. */
  predicate InvitedByEmail(p: Project, email: string) {
    p.invites.Some? && exists i :: 0 <= i < |p.invites.value| && p.invites.value[i].email == email
  }

  /**
   * The sharing test of `listSharedWith`: an invite for exactly this email, or
   * general access that is not `'private'`. A missing `generalAccess` is
   * `undefined`, which is not `'private'`, so such a project counts as shared.
   */
  predicate SharedWith(p: Project, email: string) {
    InvitedByEmail(p, email) || p.generalAccess != Some(Private)
  }

  /** The key under which a user's favourites are stored. */
  function FavKey(email: string): (k: string)
    ensures email != "" ==> k == "asu-ai-forge:favorites:" + email
    ensures email == "" ==> k == "asu-ai-forge:favorites:anon"
  {
    "asu-ai-forge:favorites:" + (if email == "" then "anon" else email)
  }

  /** Distinct signed-in users get distinct favourites keys. */
  lemma FavKeyInjective(a: string, b: string)
    requires a != "" && b != "" && FavKey(a) == FavKey(b)
    ensures a == b
  {
    var prefix := "asu-ai-forge:favorites:";
    assert a == FavKey(a)[|prefix|..];
    assert b == FavKey(b)[|prefix|..];
  }

  /** A user whose email is literally `anon` shares the signed-out user's favourites. */
  lemma FavKeyAnonShared()
    ensures FavKey("anon") == FavKey("")
  {
  }

  /** `ids.includes(id) ? ids.filter(x => x !== id) : [id, ...ids]`. */
  function Toggle(ids: seq<string>, id: string): (r: seq<string>)
    ensures id in ids ==> id !in r && forall x :: x != id ==> (x in r <==> x in ids)
    ensures id !in ids ==> r == [id] + ids
  {
    if id in ids then Lists.Filter(ids, (x: string) => x != id) else [id] + ids
  }

  /** Toggling an id that is not a favourite, twice, restores the list exactly. */
  lemma ToggleTwiceAbsent(ids: seq<string>, id: string)
    requires id !in ids
    ensures Toggle(Toggle(ids, id), id) == ids
  {
    var once := [id] + ids;
    assert id in once;
    assert forall x :: x in ids ==> x != id;
    Lists.FilterAppend([id], ids, (x: string) => x != id);
    Lists.FilterAllPass(ids, (x: string) => x != id);
    assert Lists.Filter([id], (x: string) => x != id) == [];
  }

  /** Toggling flips membership of the toggled id. */
  lemma ToggleFlips(ids: seq<string>, id: string)
    ensures (id in Toggle(ids, id)) <==> id !in ids
  {
  }

  class ProjectStore {
    var projects: seq<Project>

    constructor(initial: seq<Project>)
      ensures projects == initial
    {
      projects := initial;
    }

    /** `create(name)`: a default project with the given name (or 'Untitled Project'), put first. */
    method Create(id: string, now: string, name: Option<string>) returns (p: Project)
      modifies this
      ensures p == CreateDefaultProject(id, now, [ProjectName(name.GetOr("Untitled Project"))])
      ensures p.id == id && p.projectName == name.GetOr("Untitled Project")
      ensures projects == [p] + old(projects)
    {
      p := CreateDefaultProject(id, now, [ProjectName(name.GetOr("Untitled Project"))]);
      NamedDefaultProject(id, now, name.GetOr("Untitled Project"));
      projects := [p] + projects;
    }

    /** `update(p)`: every entry with `p`'s id becomes `p`. */
    method Update(p: Project)
      modifies this
      ensures projects == Replace(old(projects), p)
    {
      projects := Replace(projects, p);
    }

    method Remove(id: string)
      modifies this
      ensures projects == Without(old(projects), {id})
    {
      projects := Without(projects, {id});
    }

    method RemoveMany(ids: seq<string>)
      modifies this
      ensures projects == Without(old(projects), set x | x in ids)
    {
      projects := Without(projects, set x | x in ids);
    }

    function Get(id: string): (r: Option<Project>)
      reads this
      ensures r == Find(projects, id)
    {
      Find(projects, id)
    }

    /** `listSharedWith(email)`: the shared projects, in store order. */
    function ListSharedWith(email: string): (r: seq<Project>)
      reads this
      ensures forall p :: p in r <==> p in projects && SharedWith(p, email)
      ensures Lists.Subsequence(r, projects)
    {
      Lists.FilterSubsequence(projects, (p: Project) => SharedWith(p, email));
      Lists.Filter(projects, (p: Project) => SharedWith(p, email))
    }
  }

  class Favorites {
    var favoriteIds: seq<string>

    constructor(initial: seq<string>)
      ensures favoriteIds == initial
    {
      favoriteIds := initial;
    }

    function IsFavorite(id: string): (b: bool)
      reads this
      ensures b <==> id in favoriteIds
    {
      id in favoriteIds
    }

    method ToggleFavorite(id: string)
      modifies this
      ensures favoriteIds == Toggle(old(favoriteIds), id)
    {
      favoriteIds := Toggle(favoriteIds, id);
    }
  }

  // ---- properties relating the store operations ----

  /** Updating with an id no entry has leaves the list unchanged. */
  lemma ReplaceUnknownId(ps: seq<Project>, p: Project)
    requires !HasId(ps, p.id)
    ensures Replace(ps, p) == ps
  {
  }

  /** After an update, looking the id up gives the new project, if the id was present. */
  lemma GetAfterReplace(ps: seq<Project>, p: Project)
    ensures Find(Replace(ps, p), p.id) == if HasId(ps, p.id) then Some(p) else None
  {
    var r := Replace(ps, p);
    if HasId(ps, p.id) {
      var i :| 0 <= i < |ps| && ps[i].id == p.id;
      assert r[i].id == p.id;
      var f := Find(r, p.id);
      assert f.Some?;
    } else {
      assert !HasId(r, p.id);
    }
  }

  /** A freshly created project is what `get` finds under its id. */
  lemma GetAfterCreate(ps: seq<Project>, p: Project)
    ensures Find([p] + ps, p.id) == Some(p)
  {
  }

  /** After removal no project carries a removed id, and the survivors keep their order. */
  lemma RemovedAreGone(ps: seq<Project>, ids: set<string>, id: string)
    requires id in ids
    ensures Find(Without(ps, ids), id) == None
  {
  }

  /** Removal keeps the order: removing from a concatenation removes from each part. */
  lemma WithoutAppend(xs: seq<Project>, ys: seq<Project>, ids: set<string>)
    ensures Without(xs + ys, ids) == Without(xs, ids) + Without(ys, ids)
  {
    Lists.FilterAppend(xs, ys, (q: Project) => q.id !in ids);
  }

  /** `remove(id)` is `removeMany([id])`. */
  lemma RemoveIsRemoveMany(ps: seq<Project>, id: string)
    ensures Without(ps, {id}) == Without(ps, set x | x in [id])
  {
    assert (set x | x in [id]) == {id};
  }
}

=== FILE: templates.dfy ===
/**
 * The template library: decoding DynamoDB-style exported records into
 * templates, classifying provider names, choosing a catalogue model for a
 * template, filtering the list, and turning a template into a new project.
 * `fetch` of the template file and local storage are not modelled; the parsed
 * JSON document is an input.
 */
module Templates {
  import opened Wrappers
  import opened Text
  import opened Js
  import opened Types
  import Lists
  import Store

  // ---- DynamoDB attribute values ----

  /**
   * `unwrap(v)`: decode a DynamoDB attribute value. The tags are tried in the
   * order S, N, BOOL, NULL (when true), L, M; a falsy input gives `undefined`,
   * and a value with none of the tags is returned as it is. None stands for a
   * `TypeError`: an `L` that is truthy but not an array has no `map`.
   */
  function Unwrap(h: Host, v: Json): (r: Option<Json>)
    ensures !Truthy(v) ==> r == Some(Undefined)
    ensures Truthy(v) && !v.Obj? ==> r == Some(v)
    decreases v
  {
    if !Truthy(v) then Some(Undefined)
    else if !v.Obj? then Some(v)
    else
        var fs := v.fields;
        if Get(v, "S") != Undefined then Some(Get(v, "S"))
        else if Get(v, "N") != Undefined then Some(Num(ToNumber(h, Get(v, "N"))))
        else if Get(v, "BOOL") != Undefined then Some(Get(v, "BOOL"))
        else if Truthy(Get(v, "NULL")) then Some(Null)
        else
          var li := FieldIndex(fs, "L");
          var mi := FieldIndex(fs, "M");
          if li >= 0 && Truthy(fs[li].value) then
            var l := fs[li].value;
            if l.Arr? then
              var us := AllSome(seq(|l.items|, i requires 0 <= i < |l.items| => Unwrap(h, l.items[i])));
              if us.Some? then Some(Arr(us.value)) else None
            else None
          else if mi >= 0 && Truthy(fs[mi].value) then
            var m := fs[mi].value;
            if m.Obj? then
              var us := AllSome(seq(|m.fields|, i requires 0 <= i < |m.fields| => Unwrap(h, m.fields[i].value)));
              if us.Some? then Some(Obj(seq(|m.fields|, i requires 0 <= i < |m.fields| => Field(m.fields[i].key, us.value[i])))) else None
            else if m.Arr? then
              var us := AllSome(seq(|m.items|, i requires 0 <= i < |m.items| => Unwrap(h, m.items[i])));
              if us.Some? then Some(Obj(seq(|m.items|, i requires 0 <= i < |m.items| => Field(NatToString(i), us.value[i])))) else None
            else if m.Str? then
              // `Object.keys` of a string lists its indices; each one-character string passes through.
              Some(Obj(seq(|m.s|, i requires 0 <= i < |m.s| => Field(NatToString(i), Str([m.s[i]])))))
            else Some(Obj([]))
          else Some(v)
  }

  /** An `S` tag wins over every other tag on the same value. */
  lemma UnwrapStringFirst(h: Host, fs: seq<Field>, i: nat)
    requires i < |fs| && fs[i].key == "S" && fs[i].value != Undefined
    requires forall j :: i < j < |fs| ==> fs[j].key != "S"
    ensures Unwrap(h, Obj(fs)) == Some(fs[i].value)
  {
    GetField(fs, "S", i);
  }

  /** A map whose only key is an unknown tag, or whose `NULL` is false, comes back unchanged. */
  lemma UnwrapUntagged(h: Host, key: string, value: Json)
    requires key !in {"S", "N", "BOOL", "NULL", "L", "M"} || (key == "NULL" && !Truthy(value))
    ensures Unwrap(h, Obj([Field(key, value)])) == Some(Obj([Field(key, value)]))
  {
  }

  /** An `L` list decodes element by element: same length, same order. */
  lemma UnwrapList(h: Host, items: seq<Json>)
    ensures var r := Unwrap(h, Obj([Field("L", Arr(items))]));
      (r.Some? <==> forall i :: 0 <= i < |items| ==> Unwrap(h, items[i]).Some?)
      && (r.Some? ==>
            r.value.Arr? && |r.value.items| == |items|
            && forall i :: 0 <= i < |items| ==> Unwrap(h, items[i]) == Some(r.value.items[i]))
  {
    var fs := [Field("L", Arr(items))];
    assert Get(Obj(fs), "S") == Get(Obj(fs), "N") == Get(Obj(fs), "BOOL") == Get(Obj(fs), "NULL") == Undefined;
    assert FieldIndex(fs, "L") == 0;
    var os := seq(|items|, i requires 0 <= i < |items| => Unwrap(h, items[i]));
    assert forall i :: 0 <= i < |items| ==> os[i] == Unwrap(h, items[i]);
    var us := AllSome(os);
    assert Unwrap(h, Obj(fs)) == if us.Some? then Some(Arr(us.value)) else None;
  }

  /** An `M` map decodes value by value and keeps its keys, in order. */
  lemma UnwrapMap(h: Host, fs: seq<Field>)
    ensures var r := Unwrap(h, Obj([Field("M", Obj(fs))]));
      (r.Some? <==> forall i :: 0 <= i < |fs| ==> Unwrap(h, fs[i].value).Some?)
      && (r.Some? ==>
            r.value.Obj? && ObjKeys(r.value.fields) == ObjKeys(fs)
            && forall i :: 0 <= i < |fs| ==> Unwrap(h, fs[i].value) == Some(r.value.fields[i].value))
  {
    var top := [Field("M", Obj(fs))];
    assert Get(Obj(top), "S") == Get(Obj(top), "N") == Get(Obj(top), "BOOL") == Get(Obj(top), "NULL") == Undefined;
    assert FieldIndex(top, "L") == -1 && FieldIndex(top, "M") == 0;
    var os := seq(|fs|, i requires 0 <= i < |fs| => Unwrap(h, fs[i].value));
    var us := AllSome(os);
    if us.Some? {
      var out := seq(|fs|, i requires 0 <= i < |fs| => Field(fs[i].key, us.value[i]));
      assert Unwrap(h, Obj(top)) == Some(Obj(out));
      assert ObjKeys(out) == ObjKeys(fs);
    } else {
      assert Unwrap(h, Obj(top)) == None;
    }
  }

  /** A JSON value DynamoDB can store: no `undefined`, no NaN, and numbers whose text reads back as the same number. */
  predicate Storable(h: Host, x: Json)
    decreases x
  {
    match x
    case Undefined => false
    case Num(n) => n.Finite? && h.parseNumber(h.showNumber(n.value)) == n
    case Arr(items) => forall i :: 0 <= i < |items| ==> Storable(h, items[i])
    case Obj(fs) => forall i :: 0 <= i < |fs| ==> Storable(h, fs[i].value)
    case _ => true
  }

  /** DynamoDB's marshalling of a JSON value into a tagged attribute value, the inverse `unwrap` undoes. */
  function Marshal(h: Host, x: Json): (a: Json)
    ensures a.Obj? && |a.fields| <= 1
    decreases x
  {
    match x
    case Undefined => Obj([])
    case Null => Obj([Field("NULL", Bool(true))])
    case Bool(_) => Obj([Field("BOOL", x)])
    case Num(n) => Obj([Field("N", Str(ShowNumber(h, n)))])
    case Str(_) => Obj([Field("S", x)])
    case Arr(items) => Obj([Field("L", Arr(seq(|items|, i requires 0 <= i < |items| => Marshal(h, items[i]))))])
    case Obj(fs) => Obj([Field("M", Obj(seq(|fs|, i requires 0 <= i < |fs| => Field(fs[i].key, Marshal(h, fs[i].value)))))])
  }

  /** `unwrap` decodes every marshalled storable value back to itself. */
  lemma {:induction false} UnwrapMarshal(h: Host, x: Json)
    requires Storable(h, x)
    ensures Unwrap(h, Marshal(h, x)) == Some(x)
    decreases x
  {
    match x
    case Arr(items) =>
      var ms := seq(|items|, i requires 0 <= i < |items| => Marshal(h, items[i]));
      forall i | 0 <= i < |items| ensures Unwrap(h, ms[i]) == Some(items[i]) {
        UnwrapMarshal(h, items[i]);
      }
      UnwrapList(h, ms);
      var r := Unwrap(h, Obj([Field("L", Arr(ms))]));
      assert r.value.items == items;
    case Obj(fs) =>
      var ms := seq(|fs|, i requires 0 <= i < |fs| => Field(fs[i].key, Marshal(h, fs[i].value)));
      forall i | 0 <= i < |fs| ensures Unwrap(h, ms[i].value) == Some(fs[i].value) {
        UnwrapMarshal(h, fs[i].value);
      }
      UnwrapMap(h, ms);
      var r := Unwrap(h, Obj([Field("M", Obj(ms))]));
      assert forall i :: 0 <= i < |fs| ==> r.value.fields[i].key == ObjKeys(r.value.fields)[i] == ObjKeys(ms)[i] == fs[i].key;
      assert r.value.fields == fs;
    case _ =>
  }

  // ---- template records ----

  /** A template. The boolean flags are optional in the source and read only through `!!`, so absent is false. */
  datatype Template = Template(
    id: string,
    title: string,
    description: Option<string>,
    systemInstructions: Option<string>,
    provider: Option<string>,
    modelName: Option<string>,
    temperature: Option<real>,
    ragEnabled: bool,
    ragTopK: Option<Number>,
    category: Option<string>,
    tags: seq<Json>,
    providerNormalized: Option<string>,
    audience: Option<string>,
    viewerAllowUpload: bool,
    viewerAllowDictation: bool)

  /** The decoded attributes of one exported record that the normaliser reads. */
  datatype Record = Record(
    iface: Json, projectName: Json, description: Json, modelName: Json, provider: Json,
    params: Json, searchParams: Json, enableSearch: Json, useCases: Json)

  /** `unwrap(entry.<attribute>)` for each attribute read; None if one of them throws. */
  function UnwrapRecord(h: Host, entry: Json): Option<Record> {
    var iface :- Unwrap(h, Get(entry, "interface"));
    var projectName :- Unwrap(h, Get(entry, "project_name"));
    var description :- Unwrap(h, Get(entry, "description"));
    var modelName :- Unwrap(h, Get(entry, "model_name"));
    var provider :- Unwrap(h, Get(entry, "model_provider"));
    var params :- Unwrap(h, Get(entry, "model_params"));
    var searchParams :- Unwrap(h, Get(entry, "search_params"));
    var enableSearch :- Unwrap(h, Get(entry, "enable_search"));
    var useCases :- Unwrap(h, Get(entry, "use_cases"));
    Some(Record(iface, projectName, description, modelName, provider, params, searchParams, enableSearch, useCases))
  }

  /** The text of one starter group: its `starters` joined by "\n- ", or '' when it has none; None when `starters` is truthy but not an array. */
  function GroupText(h: Host, g: Json): (r: Option<string>)
    ensures !(Truthy(g) && Truthy(Get(g, "starters"))) ==> r == Some("")
    ensures Truthy(g) && Get(g, "starters").Arr? ==> r == Some(ArrayJoin(h, Get(g, "starters").items, "\n- "))
  {
    if Truthy(g) && Truthy(Get(g, "starters")) then
      var st := Get(g, "starters");
      if st.Arr? then Some(ArrayJoin(h, st.items, "\n- ")) else None
    else Some("")
  }

  /** The starter groups of an interface, or none unless `starter_groups` is an array. */
  function StarterGroups(iface: Json): (gs: seq<Json>)
    ensures Truthy(iface) && Get(iface, "starter_groups").Arr? ==> gs == Get(iface, "starter_groups").items
    ensures !Truthy(iface) || !Get(iface, "starter_groups").Arr? ==> gs == []
  {
    if Truthy(iface) && Truthy(Get(iface, "starter_groups")) && Get(iface, "starter_groups").Arr? then
      Get(iface, "starter_groups").items
    else []
  }

  /** The example prompts: the non-empty group texts joined by "\n- "; None if a group's `starters` cannot be joined. */
  function StartersText(h: Host, iface: Json): (r: Option<string>)
    ensures var gs := StarterGroups(iface);
      r.Some? <==> forall i :: 0 <= i < |gs| ==> GroupText(h, gs[i]).Some?
  {
    var gs := StarterGroups(iface);
    if gs == [] then Some("")
    else
      var os := seq(|gs|, i requires 0 <= i < |gs| => GroupText(h, gs[i]));
      assert forall i :: 0 <= i < |gs| ==> os[i] == GroupText(h, gs[i]);
      var texts := AllSome(os);
      if texts.None? then None
      else Some(Join(Lists.Filter(texts.value, (t: string) => t != ""), "\n- "))
  }

  /** The first line of every composed prompt. */
  function Lead(title: string): (s: string)
    ensures s != [] && !IsSpace(s[0]) && !IsSpace(s[|s| - 1])
  {
    "You are an assistant for \"" + title + "\"."
  }

  function PurposeSection(h: Host, fallbackDescription: Json): (s: string)
    ensures s == "" <==> !Truthy(fallbackDescription)
  {
    if Truthy(fallbackDescription) then "\n\nPurpose:\n" + ToStr(h, fallbackDescription) else ""
  }

  function UseCasesSection(h: Host, useCases: Json): (s: string)
    ensures s == "" <==> !(useCases.Arr? && |useCases.items| > 0)
  {
    if useCases.Arr? && |useCases.items| > 0 then "\n\nUse cases:\n- " + ArrayJoin(h, useCases.items, "\n- ") else ""
  }

  function ExamplesSection(startersText: string): (s: string)
    ensures s == "" <==> startersText == ""
  {
    if startersText != "" then "\n\nExample prompts:\n- " + startersText else ""
  }

  /** The retrieval guidance appears only when search is enabled and a search prompt is set. */
  function RetrievalSection(enableSearch: Json, searchPrompt: string): (s: string)
    ensures s == "" <==> !(Truthy(enableSearch) && searchPrompt != "")
    ensures s != "" ==> s == "\n\nWhen retrieval is enabled, follow this retrieval guidance:\n" + searchPrompt
  {
    if Truthy(enableSearch) && searchPrompt != "" then
      "\n\nWhen retrieval is enabled, follow this retrieval guidance:\n" + searchPrompt
    else ""
  }

  /** The instructions composed when a record has no system prompt: never empty, always led by the assistant line. */
  function ComposedFallback(h: Host, title: string, fallbackDescription: Json, useCases: Json, startersText: string,
                            enableSearch: Json, searchPrompt: string): (s: string)
    ensures StartsWith(s, Lead(title)) && s != ""
  {
    var rest := PurposeSection(h, fallbackDescription) + UseCasesSection(h, useCases) + ExamplesSection(startersText)
      + RetrievalSection(enableSearch, searchPrompt);
    TrimKeepsLead(Lead(title), rest);
    Trim(Lead(title) + rest)
  }

  /** Trimming a text that starts and ends its first part with non-space characters keeps that part. */
  lemma TrimKeepsLead(lead: string, rest: string)
    requires lead != [] && !IsSpace(lead[0]) && !IsSpace(lead[|lead| - 1])
    ensures StartsWith(Trim(lead + rest), lead)
  {
    var s := lead + rest;
    assert TrimStart(s) == s;
    var r := TrimEnd(s);
    assert !IsSpace(s[|lead| - 1]);
    assert |r| >= |lead|;
    assert r[..|lead|] == s[..|lead|] == lead;
  }

  /** `typeof t === 'number' ? t : typeof t === 'string' ? Number(t) : undefined`, kept only when not NaN. */
  function TemperatureOf(h: Host, t: Json): (r: Option<real>)
    ensures r.Some? ==> t.Num? || t.Str?
    ensures t.Num? ==> (r.Some? <==> t.n.Finite?)
  {
    var n := if t.Num? then t.n else if t.Str? then ToNumber(h, t) else NaN;
    if n.Finite? then Some(n.value) else None
  }

  /** `params?.system_prompt?.[0] || ''`, where `params` falls back to `{}`. */
  function SystemPrompt(rec: Record): Json {
    Or(At(Get(Or(rec.params, Obj([])), "system_prompt"), 0), Str(""))
  }

  /** `String(project_name || interface.title || 'Untitled')`. */
  function TitleOf(h: Host, rec: Record): (title: string)
    ensures Truthy(rec.projectName) ==> title == ToStr(h, rec.projectName)
    ensures !Truthy(rec.projectName) && Truthy(rec.iface) && Truthy(Get(rec.iface, "title")) ==>
      title == ToStr(h, Get(rec.iface, "title"))
    ensures !Truthy(rec.projectName) && !(Truthy(rec.iface) && Truthy(Get(rec.iface, "title"))) ==> title == "Untitled"
  {
    var projectName := Or(Or(rec.projectName, And(rec.iface, Get(rec.iface, "title"))), Str("Untitled"));
    ToStr(h, Or(projectName, Str("Untitled")))
  }

  /** `description || interface.description`, the value before it is rendered. */
  function DescriptionValue(rec: Record): Json {
    Or(rec.description, And(rec.iface, Get(rec.iface, "description")))
  }

  /** The template's description: the record's, else the interface's, else none. */
  function DescriptionOf(h: Host, rec: Record): (d: Option<string>)
    ensures Truthy(rec.description) ==> d == Some(ToStr(h, rec.description))
    ensures !Truthy(rec.description) && Truthy(rec.iface) && Truthy(Get(rec.iface, "description")) ==>
      d == Some(ToStr(h, Get(rec.iface, "description")))
    ensures !Truthy(rec.description) && !(Truthy(rec.iface) && Truthy(Get(rec.iface, "description"))) ==> d == None
  {
    var description := DescriptionValue(rec);
    if Truthy(description) then Some(ToStr(h, description)) else None
  }

  /** `searchParams.search_prompt` as text, or ''. */
  function SearchPrompt(h: Host, rec: Record): string {
    if Truthy(rec.searchParams) && Truthy(Get(rec.searchParams, "search_prompt"))
    then ToStr(h, Get(rec.searchParams, "search_prompt")) else ""
  }

  /**
   * The template's system instructions: the first system prompt if there is
   * one, else the composed fallback. Either way they are present.
   */
  function InstructionsOf(h: Host, rec: Record, title: string, startersText: string): (r: Option<string>)
    ensures r.Some?
    ensures Truthy(SystemPrompt(rec)) ==> r == Some(ToStr(h, SystemPrompt(rec)))
    ensures !Truthy(SystemPrompt(rec)) ==> StartsWith(r.value, Lead(title))
  {
    var sys := SystemPrompt(rec);
    var composed := ComposedFallback(h, title, Or(DescriptionValue(rec), Str("")), rec.useCases, startersText,
      rec.enableSearch, SearchPrompt(h, rec));
    if Truthy(sys) then Some(ToStr(h, sys)) else if composed != "" then Some(composed) else None
  }

  /** `use_cases` if it is an array, else no tags. */
  function TagsOf(rec: Record): (tags: seq<Json>)
    ensures rec.useCases.Arr? ==> tags == rec.useCases.items
    ensures !rec.useCases.Arr? ==> tags == []
  {
    if rec.useCases.Arr? then rec.useCases.items else []
  }

  /** The first use case, as text, is the category. */
  function CategoryOf(h: Host, rec: Record): (c: Option<string>)
    ensures c.Some? <==> |TagsOf(rec)| > 0
    ensures c.Some? ==> c.value == ToStr(h, TagsOf(rec)[0])
  {
    if rec.useCases.Arr? && |rec.useCases.items| > 0 then Some(ToStr(h, rec.useCases.items[0])) else None
  }

  /** `searchParams.top_k` when it is a number (NaN included). */
  function TopKOf(rec: Record): (k: Option<Number>)
    ensures k.Some? <==> Truthy(rec.searchParams) && Get(rec.searchParams, "top_k").Num?
  {
    var topK := if Truthy(rec.searchParams) then Get(rec.searchParams, "top_k") else Undefined;
    if topK.Num? then Some(topK.n) else None
  }

  /** `!!(iface && iface[name] === true)`: set only by the boolean `true`. */
  function InterfaceFlag(iface: Json, name: string): (b: bool)
    ensures b ==> iface.Obj? && Get(iface, name) == Bool(true)
  {
    Truthy(iface) && Get(iface, name) == Bool(true)
  }

  /** The template built from one decoded record, stored under `key`. */
  function Build(h: Host, key: string, rec: Record, startersText: string): (t: Template)
    ensures t.id == key && t.systemInstructions.Some?
  {
    var title := TitleOf(h, rec);
    var params := Or(rec.params, Obj([]));
    var providerText := if Truthy(rec.provider) then ToStr(h, rec.provider) else "";
    Template(
      id := key,
      title := title,
      description := DescriptionOf(h, rec),
      systemInstructions := InstructionsOf(h, rec, title, startersText),
      provider := if Truthy(rec.provider) then Some(ToStr(h, rec.provider)) else None,
      modelName := if Truthy(rec.modelName) then Some(ToStr(h, rec.modelName)) else None,
      temperature := TemperatureOf(h, Get(params, "temperature")),
      ragEnabled := Truthy(rec.enableSearch),
      ragTopK := TopKOf(rec),
      category := CategoryOf(h, rec),
      tags := TagsOf(rec),
      providerNormalized := NormalizeProvider(providerText),
      audience := None,
      viewerAllowUpload := InterfaceFlag(rec.iface, "enable_upload"),
      viewerAllowDictation := InterfaceFlag(rec.iface, "enable_voice"))
  }

  /**
   * One record of the exported object. None stands for a thrown error: a
   * `null` or missing record (reading `entry.interface` throws), or a nested
   * value `unwrap` or `join` cannot handle.
   */
  function RecordToTemplate(h: Host, key: string, entry: Json): (r: Option<Template>)
    ensures Nullish(entry) ==> r.None?
    ensures r.Some? ==> r.value.id == key && r.value.systemInstructions.Some?
  {
    if Nullish(entry) then None
    else
      var rec :- UnwrapRecord(h, entry);
      var startersText :- StartersText(h, rec.iface);
      Some(Build(h, key, rec, startersText))
  }

  /** The templates of a list of entries, converted one by one in order; None if one conversion throws. */
  function ParseEntries(es: seq<Field>, convert: (string, Json) -> Option<Template>): (r: Option<seq<Template>>)
    ensures r.Some? <==> forall i :: 0 <= i < |es| ==> convert(es[i].key, es[i].value).Some?
    ensures r.Some? ==> (|r.value| == |es|
      && forall i :: 0 <= i < |es| ==> convert(es[i].key, es[i].value) == Some(r.value[i]))
  {
    if es == [] then Some([])
    else
      var init := ParseEntries(es[..|es| - 1], convert);
      assert forall i :: 0 <= i < |es| - 1 ==> es[..|es| - 1][i] == es[i];
      var t := convert(es[|es| - 1].key, es[|es| - 1].value);
      if init.None? || t.None? then None else Some(init.value + [t.value])
  }

  /** Converting one more entry appends its template, or makes the whole parse throw. */
  lemma ParseEntriesSnoc(es: seq<Field>, e: Field, convert: (string, Json) -> Option<Template>)
    ensures ParseEntries(es + [e], convert) ==
      if ParseEntries(es, convert).Some? && convert(e.key, e.value).Some?
      then Some(ParseEntries(es, convert).value + [convert(e.key, e.value).value]) else None
  {
    assert (es + [e])[..|es|] == es;
  }

  /** What `parseDynamoObject(obj)` returns (None: it throws). */
  function Parse(h: Host, obj: Json): (r: Option<seq<Template>>)
    ensures !(Truthy(obj) && IsObjectType(obj)) ==> r == Some([])
  {
    if !Truthy(obj) || !IsObjectType(obj) then Some([])
    else ParseEntries(OwnEntries(obj), (key: string, entry: Json) => RecordToTemplate(h, key, entry))
  }

  /** Every parsed template is keyed by its record and carries system instructions. */
  lemma ParsedTemplates(h: Host, obj: Json)
    requires Truthy(obj) && IsObjectType(obj) && Parse(h, obj).Some?
    ensures var ts := Parse(h, obj).value;
      |ts| == |OwnEntries(obj)|
      && forall i :: 0 <= i < |ts| ==> ts[i].id == OwnEntries(obj)[i].key && ts[i].systemInstructions.Some?
  {
    var es := OwnEntries(obj);
    var ts := Parse(h, obj).value;
    forall i | 0 <= i < |ts| ensures ts[i].id == es[i].key && ts[i].systemInstructions.Some? {
      assert RecordToTemplate(h, es[i].key, es[i].value) == Some(ts[i]);
    }
  }

  /** The loop of `parseDynamoObject`: convert each entry in order and push its template; stop at the first throw. */
  method ConvertAll(es: seq<Field>, convert: (string, Json) -> Option<Template>) returns (r: Option<seq<Template>>)
    ensures r == ParseEntries(es, convert)
  {
    var out: seq<Template> := [];
    var i := 0;
    while i < |es|
      invariant 0 <= i <= |es|
      invariant ParseEntries(es[..i], convert) == Some(out)
    {
      var t := convert(es[i].key, es[i].value);
      assert es[..i + 1] == es[..i] + [es[i]];
      ParseEntriesSnoc(es[..i], es[i], convert);
      if t.None? {
        return None;
      }
      out := out + [t.value];
      i := i + 1;
    }
    assert es[..i] == es;
    return Some(out);
  }

  /**
   * `parseDynamoObject(obj)`: nothing for a value that is not an object, and
   * otherwise one template per own key, in key order.
   */
  method ParseDynamoObject(h: Host, obj: Json) returns (r: Option<seq<Template>>)
    ensures r == Parse(h, obj)
  {
    if !Truthy(obj) || !IsObjectType(obj) {
      return Some([]);
    }
    r := ConvertAll(OwnEntries(obj), (key: string, entry: Json) => RecordToTemplate(h, key, entry));
  }

  /** Templates parsed from an object have distinct ids, because an object's keys are distinct. */
  lemma ParsedIdsDistinct(h: Host, fs: seq<Field>)
    requires Parse(h, Obj(fs)).Some?
    ensures var ts := Parse(h, Obj(fs)).value;
      forall i, j :: 0 <= i < j < |ts| ==> ts[i].id != ts[j].id
  {
    var keys := Lists.Dedup(ObjKeys(fs));
    var es := OwnEntries(Obj(fs));
    var ts := Parse(h, Obj(fs)).value;
    ParsedTemplates(h, Obj(fs));
    forall i, j | 0 <= i < j < |ts| ensures ts[i].id != ts[j].id {
      assert ts[i].id == es[i].key == keys[i];
      assert ts[j].id == es[j].key == keys[j];
    }
  }

  /** A `null` record makes the whole parse throw. */
  lemma NullRecordThrows(h: Host, key: string)
    ensures Parse(h, Obj([Field(key, Null)])) == None
  {
    var obj := Obj([Field(key, Null)]);
    var es := OwnEntries(obj);
    assert Lists.Dedup(ObjKeys([Field(key, Null)])) == [key];
    assert |es| == 1 && es[0] == Field(key, Null);
    assert RecordToTemplate(h, key, Null) == None;
    assert ParseEntries(es, (key: string, entry: Json) => RecordToTemplate(h, key, entry)) == None;
  }

  // ---- provider names ----

  /** A provider family: the substrings that identify it and the name it is shown under. */
  datatype Family = Family(needles: seq<string>, name: string)

  /** The families in the order `normalizeProvider` tests them. */
  const Families: seq<Family> := [
    Family(["openai"], "OpenAI"),
    Family(["anthropic", "claude"], "Anthropic"),
    Family(["google", "gemini"], "Google"),
    Family(["mistral"], "Mistral"),
    Family(["groq"], "Groq"),
    Family(["cohere"], "Cohere"),
    Family(["meta", "llama"], "Meta"),
    Family(["aws", "bedrock", "nova"], "AWS")]

  /** Some needle occurs in `v`. */
  predicate AnyOccurs(v: string, needles: seq<string>) {
    needles != [] && (Contains(v, needles[0]) || AnyOccurs(v, needles[1..]))
  }

  predicate FamilyMatches(f: Family, v: string) {
    AnyOccurs(v, f.needles)
  }

  lemma AnyOccursLiteral(v: string, a: string, b: string, c: string)
    ensures AnyOccurs(v, [a]) <==> Contains(v, a)
    ensures AnyOccurs(v, [a, b]) <==> Contains(v, a) || Contains(v, b)
    ensures AnyOccurs(v, [a, b, c]) <==> Contains(v, a) || Contains(v, b) || Contains(v, c)
  {
    assert [a][1..] == [] && [a, b][1..] == [b] && [a, b, c][1..] == [b, c];
    assert [b][1..] == [] && [b, c][1..] == [c] && [c][1..] == [];
    assert AnyOccurs(v, [b]) <==> Contains(v, b);
    assert AnyOccurs(v, [c]) <==> Contains(v, c);
    assert AnyOccurs(v, [b, c]) <==> Contains(v, b) || Contains(v, c);
  }

  /** The name of the first family that matches, or None. */
  function Classify(v: string, fams: seq<Family>): (r: Option<string>)
    ensures r.None? <==> forall i :: 0 <= i < |fams| ==> !FamilyMatches(fams[i], v)
    ensures r.Some? ==> (exists i :: (0 <= i < |fams| && FamilyMatches(fams[i], v) && r.value == fams[i].name
      && forall j :: 0 <= j < i ==> !FamilyMatches(fams[j], v)))
  {
    if fams == [] then None
    else if FamilyMatches(fams[0], v) then Some(fams[0].name)
    else
      var r := Classify(v, fams[1..]);
      assert r.Some? ==> (exists i :: (1 <= i < |fams| && FamilyMatches(fams[i], v) && r.value == fams[i].name
        && forall j :: 0 <= j < i ==> !FamilyMatches(fams[j], v))) by {
        if r.Some? {
          var k :| 0 <= k < |fams[1..]| && FamilyMatches(fams[1..][k], v) && r.value == fams[1..][k].name
            && forall j :: 0 <= j < k ==> !FamilyMatches(fams[1..][j], v);
          assert fams[k + 1] == fams[1..][k];
          assert forall j :: 1 <= j < k + 1 ==> fams[j] == fams[1..][j - 1];
        }
      }
      r
  }

  /**
   * `normalizeProvider(p)`: None for the empty string; otherwise the first
   * family whose substring occurs in the lower-cased name, checked in a fixed
   * order; otherwise the name with its first character upper-cased and the
   * rest left as it is.
   */
  function NormalizeProvider(p: string): (r: Option<string>)
    ensures r.None? <==> p == ""
    ensures p != "" ==> r == (match Classify(Lower(p), Families) case Some(n) => Some(n) case None => Some(Capitalize(p)))
  {
    if p == "" then None
    else
      var v := Lower(p);
      ClassifyFamilies(v);
      if Contains(v, "openai") then Some("OpenAI")
      else if Contains(v, "anthropic") || Contains(v, "claude") then Some("Anthropic")
      else if Contains(v, "google") || Contains(v, "gemini") then Some("Google")
      else if Contains(v, "mistral") then Some("Mistral")
      else if Contains(v, "groq") then Some("Groq")
      else if Contains(v, "cohere") then Some("Cohere")
      else if Contains(v, "meta") || Contains(v, "llama") then Some("Meta")
      else if Contains(v, "aws") || Contains(v, "bedrock") || Contains(v, "nova") then Some("AWS")
      else Some(Capitalize(p))
  }

  /** The family table, unfolded into the chain of tests `normalizeProvider` writes out. */
  lemma ClassifyFamilies(v: string)
    ensures Classify(v, Families) ==
      if Contains(v, "openai") then Some("OpenAI")
      else if Contains(v, "anthropic") || Contains(v, "claude") then Some("Anthropic")
      else if Contains(v, "google") || Contains(v, "gemini") then Some("Google")
      else if Contains(v, "mistral") then Some("Mistral")
      else if Contains(v, "groq") then Some("Groq")
      else if Contains(v, "cohere") then Some("Cohere")
      else if Contains(v, "meta") || Contains(v, "llama") then Some("Meta")
      else if Contains(v, "aws") || Contains(v, "bedrock") || Contains(v, "nova") then Some("AWS")
      else None
  {
    var fs := Families;
    var c8 := Classify(v, fs[8..]);
    assert c8 == None by {
      assert fs[8..] == [];
    }
    var c7 := Classify(v, fs[7..]);
    assert c7 == if Contains(v, "aws") || Contains(v, "bedrock") || Contains(v, "nova") then Some("AWS") else c8 by {
      ClassifyStep(v, fs, 7);
      AnyOccursLiteral(v, "aws", "bedrock", "nova");
    }
    var c6 := Classify(v, fs[6..]);
    assert c6 == if Contains(v, "meta") || Contains(v, "llama") then Some("Meta") else c7 by {
      ClassifyStep(v, fs, 6);
      AnyOccursLiteral(v, "meta", "llama", "");
    }
    var c5 := Classify(v, fs[5..]);
    assert c5 == if Contains(v, "cohere") then Some("Cohere") else c6 by {
      ClassifyStep(v, fs, 5);
      AnyOccursLiteral(v, "cohere", "", "");
    }
    var c4 := Classify(v, fs[4..]);
    assert c4 == if Contains(v, "groq") then Some("Groq") else c5 by {
      ClassifyStep(v, fs, 4);
      AnyOccursLiteral(v, "groq", "", "");
    }
    var c3 := Classify(v, fs[3..]);
    assert c3 == if Contains(v, "mistral") then Some("Mistral") else c4 by {
      ClassifyStep(v, fs, 3);
      AnyOccursLiteral(v, "mistral", "", "");
    }
    var c2 := Classify(v, fs[2..]);
    assert c2 == if Contains(v, "google") || Contains(v, "gemini") then Some("Google") else c3 by {
      ClassifyStep(v, fs, 2);
      AnyOccursLiteral(v, "google", "gemini", "");
    }
    var c1 := Classify(v, fs[1..]);
    assert c1 == if Contains(v, "anthropic") || Contains(v, "claude") then Some("Anthropic") else c2 by {
      ClassifyStep(v, fs, 1);
      AnyOccursLiteral(v, "anthropic", "claude", "");
    }
    assert Classify(v, fs) == if Contains(v, "openai") then Some("OpenAI") else c1 by {
      ClassifyStep(v, fs, 0);
      assert fs[0..] == fs;
      AnyOccursLiteral(v, "openai", "", "");
    }
  }

  /** One step of the classification: family `i` wins if it matches, else the rest decide. */
  lemma ClassifyStep(v: string, fams: seq<Family>, i: nat)
    requires i < |fams|
    ensures Classify(v, fams[i..]) == if FamilyMatches(fams[i], v) then Some(fams[i].name) else Classify(v, fams[i + 1..])
  {
    assert fams[i..][1..] == fams[i + 1..];
  }

  /** A family name wins over the vendor that hosts it: "Claude on Bedrock" is Anthropic. */
  lemma NormalizeClaudeOnBedrock()
    ensures NormalizeProvider("Claude on Bedrock") == Some("Anthropic")
  {
    var a := Lower("Claude on Bedrock");
    assert a == "claude on bedrock";
    MissingCharNotContained(a, "openai", 'p');
    assert OccursAt(a, "claude", 0);
  }

  /** The substring test finds a family inside a longer word: "ollama" is Meta. */
  lemma NormalizeOllama()
    ensures NormalizeProvider("ollama") == Some("Meta")
  {
    var b := Lower("ollama");
    assert b == "ollama";
    MissingCharNotContained(b, "openai", 'p');
    MissingCharNotContained(b, "anthropic", 'n');
    MissingCharNotContained(b, "claude", 'c');
    MissingCharNotContained(b, "google", 'g');
    MissingCharNotContained(b, "gemini", 'g');
    MissingCharNotContained(b, "mistral", 'i');
    MissingCharNotContained(b, "groq", 'g');
    MissingCharNotContained(b, "cohere", 'c');
    MissingCharNotContained(b, "meta", 'e');
    assert OccursAt(b, "llama", 1);
  }

  /** No family substring occurs in "customvendor". */
  lemma NoFamilyInCustomVendor()
    ensures var c := "customvendor";
      && !Contains(c, "openai") && !Contains(c, "anthropic") && !Contains(c, "claude")
      && !Contains(c, "google") && !Contains(c, "gemini") && !Contains(c, "mistral")
      && !Contains(c, "groq") && !Contains(c, "cohere") && !Contains(c, "meta")
      && !Contains(c, "llama") && !Contains(c, "aws") && !Contains(c, "bedrock") && !Contains(c, "nova")
  {
    var c := "customvendor";
    MissingCharNotContained(c, "openai", 'p');
    MissingCharNotContained(c, "anthropic", 'a');
    MissingCharNotContained(c, "claude", 'a');
    MissingCharNotContained(c, "google", 'g');
    MissingCharNotContained(c, "gemini", 'g');
    MissingCharNotContained(c, "mistral", 'a');
    MissingCharNotContained(c, "groq", 'g');
    MissingCharNotContained(c, "cohere", 'h');
    MissingCharNotContained(c, "meta", 'a');
    MissingCharNotContained(c, "llama", 'a');
    MissingCharNotContained(c, "aws", 'a');
    MissingCharNotContained(c, "bedrock", 'b');
    MissingCharNotContained(c, "nova", 'a');
  }

  /** A name no family claims keeps its own spelling. */
  lemma NormalizeUnknownVendor()
    ensures NormalizeProvider("CustomVendor") == Some("CustomVendor")
  {
    assert Lower("CustomVendor") == "customvendor";
    NoFamilyInCustomVendor();
    assert Capitalize("CustomVendor") == "CustomVendor";
  }

  // ---- choosing a catalogue model ----

  /** A catalogue entry matches when its provider contains `prov` and its id or label contains `name` (empty strings match anything). */
  predicate ModelMatches(m: ModelOption, prov: string, name: string) {
    (prov == "" || Contains(Lower(ProviderName(m.provider)), prov))
    && (name == "" || Contains(Lower(m.id), name) || Contains(Lower(m.labelText), name))
  }

  /** Position of the first matching entry, or -1. */
  function FirstModel(ms: seq<ModelOption>, prov: string, name: string): (i: int)
    ensures -1 <= i < |ms|
    ensures i >= 0 ==> ModelMatches(ms[i], prov, name) && forall j :: 0 <= j < i ==> !ModelMatches(ms[j], prov, name)
    ensures i == -1 ==> forall j :: 0 <= j < |ms| ==> !ModelMatches(ms[j], prov, name)
  {
    if ms == [] then -1
    else if ModelMatches(ms[0], prov, name) then 0
    else
      var k := FirstModel(ms[1..], prov, name);
      assert forall j :: 1 <= j < |ms| ==> ms[j] == ms[1..][j - 1];
      if k < 0 then -1 else k + 1
  }

  /**
   * `pickModel(provider, modelName)`: nothing when both are missing or empty;
   * otherwise the first catalogue entry that matches both, compared in lower
   * case, or nothing.
   */
  function PickModel(provider: Option<string>, modelName: Option<string>): (r: Option<ModelOption>)
    ensures provider.GetOr("") == "" && modelName.GetOr("") == "" ==> r.None?
    ensures r.Some? ==> (exists i :: (0 <= i < |ModelOptions| && r.value == ModelOptions[i]
      && ModelMatches(ModelOptions[i], Lower(provider.GetOr("")), Lower(modelName.GetOr("")))
      && forall j :: 0 <= j < i ==> !ModelMatches(ModelOptions[j], Lower(provider.GetOr("")), Lower(modelName.GetOr("")))))
    ensures r.None? && (provider.GetOr("") != "" || modelName.GetOr("") != "") ==>
      forall j :: 0 <= j < |ModelOptions| ==> !ModelMatches(ModelOptions[j], Lower(provider.GetOr("")), Lower(modelName.GetOr("")))
  {
    var prov := provider.GetOr("");
    var name := modelName.GetOr("");
    if prov == "" && name == "" then None
    else
      var i := FirstModel(ModelOptions, Lower(prov), Lower(name));
      if i < 0 then None else Some(ModelOptions[i])
  }

  /** The providers the catalogue uses. */
  lemma CatalogueProviders()
    ensures forall i :: 0 <= i < |ModelOptions| ==> ModelOptions[i].provider in {AWS, OpenAI, Google, Meta}
    ensures forall i :: 0 <= i < 23 ==> ModelOptions[i].provider == AWS
    ensures ModelOptions[23].provider == OpenAI
  {
  }

  /** An entry that matches, with no match before it, is the one `FirstModel` finds. */
  lemma FirstModelAt(ms: seq<ModelOption>, prov: string, name: string, k: nat)
    requires k < |ms| && ModelMatches(ms[k], prov, name)
    requires forall j :: 0 <= j < k ==> !ModelMatches(ms[j], prov, name)
    ensures FirstModel(ms, prov, name) == k
  {
  }

  /** The first catalogue entry whose provider contains 'openai' is entry 23, o1. */
  lemma FirstOpenAIEntry()
    ensures FirstModel(ModelOptions, "openai", "") == 23
  {
    CatalogueProviders();
    assert ModelMatches(ModelOptions[23], "openai", "") by {
      assert Lower(ProviderName(OpenAI)) == "openai";
      assert OccursAt("openai", "openai", 0);
    }
    assert Lower(ProviderName(AWS)) == "aws";
    forall j | 0 <= j < 23 ensures !ModelMatches(ModelOptions[j], "openai", "") {
      assert ModelOptions[j].provider == AWS;
    }
    FirstModelAt(ModelOptions, "openai", "", 23);
  }

  /** `pickModel` returns the entry `FirstModel` finds for the lower-cased names. */
  lemma PickModelFirst(provider: Option<string>, modelName: Option<string>, k: nat)
    requires provider.GetOr("") != "" || modelName.GetOr("") != ""
    requires FirstModel(ModelOptions, Lower(provider.GetOr("")), Lower(modelName.GetOr(""))) == k
    ensures PickModel(provider, modelName) == Some(ModelOptions[k])
  {
  }

  /** A template whose provider is 'openai', in any casing, gets the first OpenAI entry of the catalogue. */
  lemma PickModelOpenAI(provider: string)
    requires Lower(provider) == "openai"
    ensures PickModel(Some(provider), None) == Some(ModelOptions[23])
  {
    assert FirstModel(ModelOptions, Lower(provider), Lower("")) == 23 by {
      assert Lower("") == "";
      FirstOpenAIEntry();
    }
    PickModelFirst(Some(provider), None, 23);
  }

  /**
   * The provider test compares against the catalogue's provider names, and
   * the catalogue lists Claude under AWS: an 'Anthropic' template, in any
   * casing, matches no entry and keeps the project's default model.
   */
  lemma PickModelAnthropic(provider: string)
    requires Lower(provider) == "anthropic"
    ensures PickModel(Some(provider), None) == None
  {
    CatalogueProviders();
    assert Lower("") == "";
    forall j | 0 <= j < |ModelOptions| ensures !ModelMatches(ModelOptions[j], "anthropic", "") {
      assert |Lower(ProviderName(ModelOptions[j].provider))| < |"anthropic"|;
    }
  }

  // ---- the built-in templates and the page's filters ----

  function Starter(id: string, title: string, description: string, category: string, audience: string, tags: seq<string>): (t: Template)
    ensures t.id == id && t.provider.None? && t.modelName.None?
  {
    Template(id, title, Some(description), None, None, None, None, false, None, Some(category),
      seq(|tags|, i requires 0 <= i < |tags| => Str(tags[i])), None, Some(audience), false, false)
  }

  /** The seven built-in templates: four teaching templates and three quick starts. */
  const Builtins: seq<Template> := [
    Starter("builtin-lesson-planner", "Lesson Planner", "Generate lesson outlines and activities aligned to outcomes.",
      "Teaching", "Instructor", ["Teaching", "Planning"]),
    Starter("builtin-rubric-builder", "Rubric Builder", "Create grading rubrics and performance descriptors.",
      "Assessment", "Instructor", ["Assessment", "Rubrics"]),
    Starter("builtin-study-guide", "Study Guide", "Summarize materials into student-ready study guides.",
      "Student", "Student", ["Student", "Study"]),
    Starter("builtin-qa-assistant", "Q&A Assistant", "Create a course-specific chatbot for FAQs and resources.",
      "Assistant", "Instructor", ["Assistant", "FAQ"]),
    Starter("builtin-blank", "Blank AI project", "Begin from scratch with full control.",
      "General", "Builder", ["Starter"]),
    Starter("builtin-study-guide-assistant", "Study guide assistant", "Generate student study guides.",
      "Student", "Student", ["Starter", "Study"]),
    Starter("builtin-course-faq", "Course FAQ chatbot", "Answer common course questions.",
      "Assistant", "Instructor", ["Starter", "FAQ"])]

  /** No built-in template names a provider or model, so applying one keeps the default model. */
  lemma BuiltinsPickNoModel()
    ensures forall i :: 0 <= i < |Builtins| ==> PickModel(Builtins[i].provider, Builtins[i].modelName).None?
  {
    forall i | 0 <= i < |Builtins| ensures Builtins[i].provider.None? && Builtins[i].modelName.None? {
    }
  }

  /** The filter controls of the page; '' means "any". */
  datatype Filters = Filters(query: string, provider: string, tag: string, category: string, audience: string)

  /** `filterFn(t)`: every non-empty filter must hold; the query is a case-insensitive substring of the title, description or instructions. */
  predicate Matches(t: Template, f: Filters) {
    var q := Lower(Trim(f.query));
    (q == "" || Contains(Lower(t.title), q) || Contains(Lower(t.description.GetOr("")), q)
      || Contains(Lower(t.systemInstructions.GetOr("")), q))
    && (f.provider == "" || t.providerNormalized == Some(f.provider))
    && (f.tag == "" || Str(f.tag) in t.tags)
    && (f.category == "" || t.category == Some(f.category))
    && (f.audience == "" || t.audience == Some(f.audience))
  }

  /** `templates.filter(filterFn)`. */
  function FilterTemplates(ts: seq<Template>, f: Filters): (r: seq<Template>)
    ensures forall t :: t in r <==> t in ts && Matches(t, f)
  {
    Lists.Filter(ts, (t: Template) => Matches(t, f))
  }

  /** With every filter empty (a blank or all-space query included) the list is shown whole, in order. */
  lemma NoFiltersKeepAll(ts: seq<Template>, query: string)
    requires Trim(query) == ""
    ensures FilterTemplates(ts, Filters(query, "", "", "", "")) == ts
  {
    Lists.FilterAllPass(ts, (t: Template) => Matches(t, Filters(query, "", "", "", "")));
  }

  /** Clearing any one filter never hides a template that was shown. */
  lemma ClearingFilterWidens(t: Template, f: Filters)
    requires Matches(t, f)
    ensures Matches(t, f.(query := "")) && Matches(t, f.(provider := "")) && Matches(t, f.(tag := ""))
    ensures Matches(t, f.(category := "")) && Matches(t, f.(audience := ""))
  {
  }

  /** `ts.map(t => t.providerNormalized)`. */
  function ProviderColumn(ts: seq<Template>): (os: seq<Option<string>>)
    ensures |os| == |ts| && forall i :: 0 <= i < |ts| ==> os[i] == ts[i].providerNormalized
  {
    seq(|ts|, i requires 0 <= i < |ts| => ts[i].providerNormalized)
  }

  /** `ts.map(t => t.category)`. */
  function CategoryColumn(ts: seq<Template>): (os: seq<Option<string>>)
    ensures |os| == |ts| && forall i :: 0 <= i < |ts| ==> os[i] == ts[i].category
  {
    seq(|ts|, i requires 0 <= i < |ts| => ts[i].category)
  }

  /** `ts.map(t => t.audience)`. */
  function AudienceColumn(ts: seq<Template>): (os: seq<Option<string>>)
    ensures |os| == |ts| && forall i :: 0 <= i < |ts| ==> os[i] == ts[i].audience
  {
    seq(|ts|, i requires 0 <= i < |ts| => ts[i].audience)
  }

  /**
   * The provider, category and audience choices offered by the filters:
   * distinct, non-empty, exactly the values present, and in the order of
   * their first occurrence among the templates.
   */
  function UniqueProviders(ts: seq<Template>): (r: seq<string>)
    ensures Lists.Distinct(r)
    ensures forall x :: x in r <==> x != "" && exists t :: t in ts && t.providerNormalized == Some(x)
    ensures forall i, j :: 0 <= i < j < |r| ==>
      Some(r[i]) in ProviderColumn(ts) && Some(r[j]) in ProviderColumn(ts)
      && Lists.FirstIndex(ProviderColumn(ts), Some(r[i])) < Lists.FirstIndex(ProviderColumn(ts), Some(r[j]))
  {
    var os := ProviderColumn(ts);
    forall x ensures Some(x) in os <==> exists t :: t in ts && t.providerNormalized == Some(x) {
      if t :| t in ts && t.providerNormalized == Some(x) {
        var i :| 0 <= i < |ts| && ts[i] == t;
        assert os[i] == Some(x);
      }
    }
    Lists.UniqueValues(os)
  }

  function UniqueCategories(ts: seq<Template>): (r: seq<string>)
    ensures Lists.Distinct(r)
    ensures forall x :: x in r <==> x != "" && exists t :: t in ts && t.category == Some(x)
    ensures forall i, j :: 0 <= i < j < |r| ==>
      Some(r[i]) in CategoryColumn(ts) && Some(r[j]) in CategoryColumn(ts)
      && Lists.FirstIndex(CategoryColumn(ts), Some(r[i])) < Lists.FirstIndex(CategoryColumn(ts), Some(r[j]))
  {
    var os := CategoryColumn(ts);
    forall x ensures Some(x) in os <==> exists t :: t in ts && t.category == Some(x) {
      if t :| t in ts && t.category == Some(x) {
        var i :| 0 <= i < |ts| && ts[i] == t;
        assert os[i] == Some(x);
      }
    }
    Lists.UniqueValues(os)
  }

  function UniqueAudiences(ts: seq<Template>): (r: seq<string>)
    ensures Lists.Distinct(r)
    ensures forall x :: x in r <==> x != "" && exists t :: t in ts && t.audience == Some(x)
    ensures forall i, j :: 0 <= i < j < |r| ==>
      Some(r[i]) in AudienceColumn(ts) && Some(r[j]) in AudienceColumn(ts)
      && Lists.FirstIndex(AudienceColumn(ts), Some(r[i])) < Lists.FirstIndex(AudienceColumn(ts), Some(r[j]))
  {
    var os := AudienceColumn(ts);
    forall x ensures Some(x) in os <==> exists t :: t in ts && t.audience == Some(x) {
      if t :| t in ts && t.audience == Some(x) {
        var i :| 0 <= i < |ts| && ts[i] == t;
        assert os[i] == Some(x);
      }
    }
    Lists.UniqueValues(os)
  }

  /** All tags of all templates, in order (`flatMap`). */
  function AllTags(ts: seq<Template>): (r: seq<Json>)
    ensures forall x :: x in r <==> exists t :: t in ts && x in t.tags
  {
    if ts == [] then []
    else
      assert forall t :: t in ts <==> t == ts[0] || t in ts[1..];
      ts[0].tags + AllTags(ts[1..])
  }

  /** The tag choices: each tag once, in first-occurrence order; unlike the other lists, empty tags are kept. */
  function UniqueTags(ts: seq<Template>): (r: seq<Json>)
    ensures Lists.Distinct(r)
    ensures forall x :: x in r <==> exists t :: t in ts && x in t.tags
    ensures forall i, j :: 0 <= i < j < |r| ==>
      r[i] in AllTags(ts) && r[j] in AllTags(ts)
      && Lists.FirstIndex(AllTags(ts), r[i]) < Lists.FirstIndex(AllTags(ts), r[j])
  {
    var all := AllTags(ts);
    forall i, j | 0 <= i < j < |Lists.Dedup(all)|
      ensures Lists.Dedup(all)[i] in all && Lists.Dedup(all)[j] in all
      ensures Lists.FirstIndex(all, Lists.Dedup(all)[i]) < Lists.FirstIndex(all, Lists.Dedup(all)[j])
    {
      Lists.DedupFirstOccurrenceOrder(all, i, j);
    }
    Lists.Dedup(all)
  }

  // ---- applying a template ----

  /**
   * The project `applyTemplate` stores: the new project with the template's
   * title, description and instructions, its model when one was found, its
   * temperature when numeric, its retrieval and viewer flags, and a new
   * timestamp.
   */
  function ApplyTo(p: Project, t: Template, model: Option<ModelOption>, now: string): (next: Project)
    ensures next.projectName == t.title && next.displayName == t.title
    ensures next.description == t.description.GetOr("") && next.systemInstructions == t.systemInstructions.GetOr("")
    ensures next.model == model.GetOr(p.model) && next.temperature == t.temperature.GetOr(p.temperature)
    ensures next.rag == p.rag.(enabled := t.ragEnabled, topK := t.ragTopK.GetOr(p.rag.topK))
    ensures next.viewerConfig == p.viewerConfig.(allowFileUpload := t.viewerAllowUpload, allowDictation := t.viewerAllowDictation)
    ensures next.updatedAt == now
    ensures forall k :: (k !in {ProjectNameField, DisplayNameField, DescriptionField, SystemInstructionsField, ModelField,
      TemperatureField, RagField, ViewerConfigField, UpdatedAtField}) ==> FieldOf(next, k) == FieldOf(p, k)
  {
    p.(projectName := t.title, displayName := t.title, description := t.description.GetOr(""),
       systemInstructions := t.systemInstructions.GetOr(""), model := model.GetOr(p.model),
       temperature := t.temperature.GetOr(p.temperature),
       rag := p.rag.(enabled := t.ragEnabled, topK := t.ragTopK.GetOr(p.rag.topK)),
       viewerConfig := p.viewerConfig.(allowFileUpload := t.viewerAllowUpload, allowDictation := t.viewerAllowDictation),
       updatedAt := now)
  }

  /**
   * `applyTemplate(t)`: create a project named after the template, overwrite
   * it with the template's settings, store it, and navigate to it.
   */
  method ApplyTemplate(store: Store.ProjectStore, t: Template, id: string, created: string, now: string)
    returns (next: Project, path: string)
    modifies store
    ensures var p := CreateDefaultProject(id, created, [ProjectName(t.title)]);
      next == ApplyTo(p, t, PickModel(t.provider, t.modelName), now)
      && store.projects == Store.Replace([p] + old(store.projects), next)
    ensures next.id == id && next.createdAt == created && path == "/project/" + id
  {
    var p := store.Create(id, created, Some(t.title));
    NamedDefaultProject(id, created, t.title);
    next := ApplyTo(p, t, PickModel(t.provider, t.modelName), now);
    store.Update(next);
    path := "/project/" + next.id;
  }

  /** A built-in template yields a project on the default model with retrieval and viewer uploads off. */
  lemma ApplyBuiltin(id: string, created: string, now: string, i: nat)
    requires i < |Builtins|
    ensures var next := ApplyTo(CreateDefaultProject(id, created, [ProjectName(Builtins[i].title)]), Builtins[i],
        PickModel(Builtins[i].provider, Builtins[i].modelName), now);
      next.model == ModelOptions[0] && !next.rag.enabled && next.systemInstructions == ""
      && !next.viewerConfig.allowFileUpload && next.projectName == Builtins[i].title
  {
    var p := CreateDefaultProject(id, created, [ProjectName(Builtins[i].title)]);
    assert LastFor([ProjectName(Builtins[i].title)], ModelField).None?;
    assert FieldOf(p, ModelField) == FieldOf(Defaults(id, created), ModelField);
    assert LastFor([ProjectName(Builtins[i].title)], ViewerConfigField).None?;
    assert FieldOf(p, ViewerConfigField) == FieldOf(Defaults(id, created), ViewerConfigField);
  }

  /** The imported templates, which `setTemplates` replaces. */
  class TemplateLibrary {
    var templates: seq<Template>

    constructor(initial: seq<Template>)
      ensures templates == initial
    {
      templates := initial;
    }

    /** Every template shown: the built-ins first, then the imported ones. */
    function All(): (r: seq<Template>)
      reads this
      ensures |r| == |Builtins| + |templates| && r[..|Builtins|] == Builtins && r[|Builtins|..] == templates
    {
      Builtins + templates
    }

    /**
     * Loading a template file: the parsed templates replace the library only
     * when parsing succeeds with at least one template; otherwise nothing
     * changes.
     */
    method Import(h: Host, obj: Json) returns (loaded: bool)
      modifies this
      ensures loaded <==> Parse(h, obj).Some? && Parse(h, obj).value != []
      ensures loaded ==> templates == Parse(h, obj).value
      ensures !loaded ==> templates == old(templates)
    {
      var parsed := ParseDynamoObject(h, obj);
      if parsed.Some? && |parsed.value| > 0 {
        templates := parsed.value;
        loaded := true;
      } else {
        loaded := false;
      }
    }
  }
}

=== FILE: text.dfy ===
/**
 * The JavaScript string operations the dashboard relies on, over `seq<char>`.
 * Case mapping is ASCII-only; whitespace is the ECMAScript WhiteSpace and
 * LineTerminator set that `trim()` and the `\s` class use.
 */
module Text {

  /** ECMAScript WhiteSpace or LineTerminator code point. */
  predicate IsSpace(c: char) {
    c == '\t' || c == '\n' || c == '\U{000B}' || c == '\U{000C}' || c == '\r' || c == ' '
    || c == '\U{00A0}' || c == '\U{1680}' || ('\U{2000}' <= c <= '\U{200A}')
    || c == '\U{2028}' || c == '\U{2029}' || c == '\U{202F}' || c == '\U{205F}'
    || c == '\U{3000}' || c == '\U{FEFF}'
  }

  function LowerChar(c: char): (r: char)
    ensures 'A' <= c <= 'Z' ==> r != c && 'a' <= r <= 'z'
    ensures !('A' <= c <= 'Z') ==> r == c
  {
    if 'A' <= c <= 'Z' then (c as int - 'A' as int + 'a' as int) as char else c
  }

  function UpperChar(c: char): (r: char)
    ensures 'a' <= c <= 'z' ==> 'A' <= r <= 'Z'
    ensures !('a' <= c <= 'z') ==> r == c
  {
    if 'a' <= c <= 'z' then (c as int - 'a' as int + 'A' as int) as char else c
  }

  /** `s.toLowerCase()` restricted to ASCII letters. */
  function Lower(s: string): (r: string)
    ensures |r| == |s|
    ensures forall i :: 0 <= i < |s| ==> r[i] == LowerChar(s[i])
  {
    seq(|s|, i requires 0 <= i < |s| => LowerChar(s[i]))
  }

  /** `s.charAt(0).toUpperCase() + s.slice(1)`. */
  function Capitalize(s: string): (r: string)
    ensures |r| == |s|
    ensures |s| > 0 ==> r[0] == UpperChar(s[0]) && r[1..] == s[1..]
  {
    if s == [] then [] else [UpperChar(s[0])] + s[1..]
  }

  predicate StartsWith(s: string, prefix: string) {
    |prefix| <= |s| && s[..|prefix|] == prefix
  }

  predicate OccursAt(s: string, sub: string, i: int) {
    0 <= i && i + |sub| <= |s| && s[i..i + |sub|] == sub
  }

  /** `s.includes(sub)`. */
  predicate Contains(s: string, sub: string) {
    exists i | 0 <= i <= |s| - |sub| :: OccursAt(s, sub, i)
  }

  /** A string that lacks one of the characters of `sub` cannot contain `sub`. */
  lemma MissingCharNotContained(s: string, sub: string, c: char)
    requires c in sub && c !in s
    ensures !Contains(s, sub)
  {
  }

  /** `s.indexOf(c)`: the first index of `c`, or -1. */
  function IndexOf(s: string, c: char): (r: int)
    ensures -1 <= r < |s|
    ensures r == -1 <==> c !in s
    ensures r >= 0 ==> s[r] == c && c !in s[..r]
  {
    if s == [] then -1
    else if s[0] == c then 0
    else
      var k := IndexOf(s[1..], c);
      assert s[1..][..if k < 0 then 0 else k] == s[1..if k < 0 then 1 else k + 1];
      if k < 0 then -1 else k + 1
  }

  /** `s.lastIndexOf(c)`: the last index of `c`, or -1. */
  function LastIndexOf(s: string, c: char): (r: int)
    ensures -1 <= r < |s|
    ensures r == -1 <==> c !in s
    ensures r >= 0 ==> s[r] == c && c !in s[r + 1..]
  {
    if s == [] then -1
    else if s[|s| - 1] == c then |s| - 1
    else
      var k := LastIndexOf(s[..|s| - 1], c);
      assert k >= 0 ==> s[k + 1..] == s[..|s| - 1][k + 1..] + [s[|s| - 1]];
      assert s == s[..|s| - 1] + [s[|s| - 1]];
      k
  }

  /** `s.slice(start, end)` for non-negative arguments. */
  function Slice(s: string, start: nat, end: nat): (r: string)
    ensures start < end <= |s| ==> r == s[start..end]
    ensures end <= start ==> r == []
  {
    var b := if end < |s| then end else |s|;
    if b <= start then [] else s[start..b]
  }

  /** `s.slice(0, n)`. */
  function Take(s: string, n: nat): (r: string)
    ensures |r| == if n < |s| then n else |s|
    ensures StartsWith(s, r)
  {
    if n < |s| then s[..n] else s
  }

  function TrimStart(s: string): (r: string)
    ensures |r| <= |s| && r == s[|s| - |r|..]
    ensures r != [] ==> !IsSpace(r[0])
    ensures forall i :: 0 <= i < |s| - |r| ==> IsSpace(s[i])
  {
    if s != [] && IsSpace(s[0]) then TrimStart(s[1..]) else s
  }

  function TrimEnd(s: string): (r: string)
    ensures |r| <= |s| && r == s[..|r|]
    ensures r != [] ==> !IsSpace(r[|r| - 1])
    ensures forall i :: |r| <= i < |s| ==> IsSpace(s[i])
  {
    if s != [] && IsSpace(s[|s| - 1]) then TrimEnd(s[..|s| - 1]) else s
  }

  /** Every character is white space (the empty string included). */
  predicate Blank(s: string) {
    forall i :: 0 <= i < |s| ==> IsSpace(s[i])
  }

  /** `s.trim()`: `s` without the white space at either end (see `TrimMiddle`). */
  function Trim(s: string): (r: string)
    ensures r == [] || (!IsSpace(r[0]) && !IsSpace(r[|r| - 1]))
  {
    TrimEnd(TrimStart(s))
  }

  /** The trim is the middle of `s`, between a blank front and a blank back. */
  lemma TrimMiddle(s: string)
    ensures exists a :: (0 <= a <= |s| - |Trim(s)| && Trim(s) == s[a..a + |Trim(s)|]
      && Blank(s[..a]) && Blank(s[a + |Trim(s)|..]))
  {
    var t := TrimStart(s);
    BlankEnds(s, t, TrimEnd(t));
  }

  /**
   * A blank front cut off before a suffix `t`, and a blank back cut off `t`
   * after its prefix `r`, leave `r` as the middle of `s`.
   */
  lemma BlankEnds(s: string, t: string, r: string)
    requires |t| <= |s| && t == s[|s| - |t|..] && |r| <= |t| && r == t[..|r|]
    requires forall i :: 0 <= i < |s| - |t| ==> IsSpace(s[i])
    requires forall i :: |r| <= i < |t| ==> IsSpace(t[i])
    ensures var a := |s| - |t|;
      && a + |r| <= |s| && r == s[a..a + |r|] && Blank(s[..a]) && Blank(s[a + |r|..])
  {
    var a := |s| - |t|;
    var front, back := s[..a], s[a + |r|..];
    forall i | 0 <= i < |front| ensures IsSpace(front[i]) {
      assert front[i] == s[i];
    }
    forall i | 0 <= i < |back| ensures IsSpace(back[i]) {
      assert back[i] == t[|r| + i];
    }
  }

  /** `!s.trim()` holds exactly for blank strings. */
  lemma TrimEmptyIffBlank(s: string)
    ensures Trim(s) == "" <==> Blank(s)
  {
    var t := TrimStart(s);
    assert |t| > 0 ==> t[0] == s[|s| - |t|] && !IsSpace(t[0]);
    assert |t| > 0 ==> |TrimEnd(t)| > 0;
  }

  /** Trimming leaves a string that starts with a non-space character alone at the front. */
  lemma TrimKeepsFront(s: string)
    requires s != [] && !IsSpace(s[0])
    ensures Trim(s) == TrimEnd(s) && Trim(s) != [] && Trim(s)[0] == s[0]
  {
    assert TrimStart(s) == s;
    assert TrimEnd(s) == s[..|TrimEnd(s)|];
  }

  /** `parts.join(sep)`. */
  function Join(parts: seq<string>, sep: string): (r: string)
    ensures |parts| == 1 ==> r == parts[0]
  {
    if |parts| == 0 then []
    else if |parts| == 1 then parts[0]
    else parts[0] + sep + Join(parts[1..], sep)
  }

  lemma {:induction false} JoinCons(x: string, rest: seq<string>, sep: string)
    ensures Join([x] + rest, sep) == if rest == [] then x else x + sep + Join(rest, sep)
  {
    assert ([x] + rest)[1..] == rest;
  }

  function DigitChar(d: nat): (c: char)
    requires d < 10
  {
    ['0', '1', '2', '3', '4', '5', '6', '7', '8', '9'][d]
  }

  /** `String(n)` for a natural number below 10^21: its decimal digits. */
  function NatToString(n: nat): (r: string)
    ensures |r| > 0
    ensures forall i :: 0 <= i < |r| ==> '0' <= r[i] <= '9'
  {
    if n < 10 then [DigitChar(n)] else NatToString(n / 10) + [DigitChar(n % 10)]
  }

  /** Length of the run of non-space characters at the front of `s`. */
  function WordLength(s: string): (n: nat)
    ensures n <= |s|
    ensures forall i :: 0 <= i < n ==> !IsSpace(s[i])
    ensures n < |s| ==> IsSpace(s[n])
  {
    if s == [] || IsSpace(s[0]) then 0 else 1 + WordLength(s[1..])
  }

  /** The characters of `s` that are not white space, in order. */
  function DropSpaces(s: string): string {
    if s == [] then [] else (if IsSpace(s[0]) then [] else [s[0]]) + DropSpaces(s[1..])
  }

  /** The words written one after another. */
  function Concat(ws: seq<string>): string {
    if ws == [] then [] else ws[0] + Concat(ws[1..])
  }

  /** A prefix without white space passes through `DropSpaces` unchanged. */
  lemma {:induction false} DropSpacesWord(s: string, n: nat)
    requires n <= |s| && forall i :: 0 <= i < n ==> !IsSpace(s[i])
    ensures DropSpaces(s) == s[..n] + DropSpaces(s[n..])
  {
    if n == 0 {
      assert s[n..] == s;
    } else {
      DropSpacesWord(s[1..], n - 1);
      assert s[1..][n - 1..] == s[n..];
      assert s[..n] == [s[0]] + s[1..][..n - 1];
    }
  }

  /**
   * `s.split(/\s+/).filter(Boolean)`: the maximal runs of non-space characters,
   * in order. There are none exactly for a blank string, and together they
   * spell `s` without its white space; `WordsFirst` says where each one ends.
   */
  function Words(s: string): (ws: seq<string>)
    ensures forall k :: 0 <= k < |ws| ==> ws[k] != [] && forall i :: 0 <= i < |ws[k]| ==> !IsSpace(ws[k][i])
    ensures ws == [] <==> Blank(s)
    ensures Concat(ws) == DropSpaces(s)
    decreases |s|
  {
    if s == [] then []
    else if IsSpace(s[0]) then
      SpaceStep(s);
      Words(s[1..])
    else
      var n := WordLength(s);
      var rest := Words(s[n..]);
      WordStep(s, n, rest);
      [s[..n]] + rest
  }

  /** Leading white space changes neither blankness nor the non-space characters. */
  lemma SpaceStep(s: string)
    requires s != [] && IsSpace(s[0])
    ensures Blank(s) <==> Blank(s[1..])
    ensures DropSpaces(s) == DropSpaces(s[1..])
  {
    if Blank(s[1..]) {
      forall i | 0 <= i < |s| ensures IsSpace(s[i]) {
        if i > 0 { assert s[i] == s[1..][i - 1]; }
      }
    }
  }

  /** A leading word followed by the words of the rest keeps the contract of `Words`. */
  lemma WordStep(s: string, n: nat, rest: seq<string>)
    requires s != [] && !IsSpace(s[0]) && n == WordLength(s)
    requires forall k :: 0 <= k < |rest| ==> rest[k] != [] && forall i :: 0 <= i < |rest[k]| ==> !IsSpace(rest[k][i])
    requires Concat(rest) == DropSpaces(s[n..])
    ensures var ws := [s[..n]] + rest;
      && (forall k :: 0 <= k < |ws| ==> ws[k] != [] && forall i :: 0 <= i < |ws[k]| ==> !IsSpace(ws[k][i]))
      && !Blank(s)
      && Concat(ws) == DropSpaces(s)
  {
    var ws := [s[..n]] + rest;
    DropSpacesWord(s, n);
    assert ws[1..] == rest;
    assert Concat(ws) == s[..n] + Concat(rest);
    assert !Blank(s) by {
      assert !IsSpace(s[0]);
    }
    forall k | 0 <= k < |ws| ensures ws[k] != [] && forall i :: 0 <= i < |ws[k]| ==> !IsSpace(ws[k][i]) {
      if k > 0 {
        assert ws[k] == rest[k - 1];
      }
    }
  }

  /**
   * The first word is the whole run of non-space characters that follows the
   * leading white space, so it ends at white space or at the end of `s`; the
   * other words are those of what follows it.
   */
  lemma {:induction false} WordsFirst(s: string)
    requires !Blank(s)
    ensures var t := TrimStart(s);
      && Words(s) != [] && Words(s)[0] == t[..WordLength(t)]
      && (WordLength(t) == |t| || IsSpace(t[WordLength(t)]))
      && Words(s)[1..] == Words(t[WordLength(t)..])
    decreases |s|
  {
    if IsSpace(s[0]) {
      assert !Blank(s[1..]) by {
        var i :| 0 <= i < |s| && !IsSpace(s[i]);
        assert s[1..][i - 1] == s[i];
      }
      WordsFirst(s[1..]);
    }
  }
}

=== FILE: types.dfy ===
/**
 * The records of the dashboard (projects, models, invites, settings), the model
 * catalogue, and the construction of a default project.
 */
module Types {
  import opened Wrappers
  import Js

  datatype Provider = OpenAI | Anthropic | Google | Mistral | Meta | Nova | O1 | Titan | AWS

  /** The provider's name as the source spells it. */
  function ProviderName(p: Provider): (s: string)
    ensures s != []
  {
    match p
    case OpenAI => "OpenAI"
    case Anthropic => "Anthropic"
    case Google => "Google"
    case Mistral => "Mistral"
    case Meta => "Meta"
    case Nova => "Nova"
    case O1 => "O1"
    case Titan => "Titan"
    case AWS => "AWS"
  }

  /** A catalogue entry; `labelText` is the source's `label` (a reserved word in Dafny). */
  datatype ModelOption = ModelOption(provider: Provider, id: string, labelText: string, contextWindow: int, description: string)

  /** `topK` is a JavaScript number because a template may set it to any numeric value, NaN included. */
  datatype RagSettings = RagSettings(enabled: bool, topK: Js.Number, chunkSize: int, overlap: int)

  datatype MemorySettings = MemorySettings(enabled: bool, window: int)

  datatype KnowledgeFile = KnowledgeFile(
    id: string, name: string, size: int, mime: string,
    dataUrl: Option<string>, text: Option<string>, addedAt: string)

  datatype Role = CanView | CanEdit

  datatype Invite = Invite(email: string, role: Role)

  datatype Access = Private | View | Edit

  /** `exposeModelPicker`/`exposeTemperature` are optional in the source; absent reads as false. */
  datatype ViewerConfig = ViewerConfig(
    enableChat: bool, showDescription: bool, allowFileUpload: bool, allowDictation: bool,
    exposeModelPicker: bool, exposeTemperature: bool)

  /**
   * A project. `generalAccess` and `invites` are optional here because stored
   * projects written by older versions may lack them (or hold a non-array
   * `invites`), and every reader of these fields defends against that.
   */
  datatype Project = Project(
    id: string,
    projectName: string,
    displayName: string,
    description: string,
    category: Option<string>,
    ownerEmail: Option<string>,
    profileImage: Option<string>,
    enableDictation: bool,
    systemInstructions: string,
    model: ModelOption,
    temperature: real,
    outputTokens: int,
    rag: RagSettings,
    memory: MemorySettings,
    knowledgeBase: seq<KnowledgeFile>,
    generalAccess: Option<Access>,
    invites: Option<seq<Invite>>,
    viewerConfig: ViewerConfig,
    createdAt: string,
    updatedAt: string)

  const ModelOptions: seq<ModelOption> := [
      ModelOption(AWS, "claude3_opus", "Claude 3 Opus", 200000, "High cost, with most advanced intelligence"),
      ModelOption(AWS, "llama3-405b", "Llama 3 405B", 128000, "High-capacity reasoning"),
      ModelOption(AWS, "nova-pro", "Nova Pro", 300000, "General-purpose multimodal model"),
      ModelOption(AWS, "llama3_2-3b", "Llama 3.2 3B", 128000, "Efficient chat model"),
      ModelOption(AWS, "claude2_1", "Claude 2.1", 100000, "Stable general-purpose chat"),
      ModelOption(AWS, "claude3_sonnet", "Claude 3 Sonnet", 200000, "Recommended for creative tasks"),
      ModelOption(AWS, "nova-lite", "Nova Lite", 300000, "Efficient multimodal text & vision"),
      ModelOption(AWS, "nova-micro", "Nova Micro", 128000, "Low-latency text completions"),
      ModelOption(AWS, "mistral-7b", "Mistral 7B", 8000, "Efficient general-purpose text"),
      ModelOption(AWS, "llama3_2-90b", "Llama 3.2 90B", 128000, "Multimodal vision & chat"),
      ModelOption(AWS, "llama3-70b", "Llama 3 70B", 128000, "High-quality text generation"),
      ModelOption(AWS, "llama3-8b", "Llama 3 8B", 128000, "Balanced chat performance"),
      ModelOption(AWS, "claude3_haiku", "Claude 3 Haiku", 200000, "Fast, low-latency tasks"),
      ModelOption(AWS, "mistral-large", "Mistral Large", 128000, "High-quality text modeling"),
      ModelOption(AWS, "claudeinstant", "Claude Instant", 100000, "Fast chat & QA"),
      ModelOption(AWS, "claude3_7_sonnet", "Claude 3.7 Sonnet", 200000, "Advanced creative and coding tasks"),
      ModelOption(AWS, "claude2", "Claude 2", 100000, "General-purpose chat"),
      ModelOption(AWS, "llama3_2-1b", "Llama 3.2 1B", 128000, "Lightweight chat model"),
      ModelOption(AWS, "titang1lite", "Titan G1 Lite", 4000, "Lightweight text tasks"),
      ModelOption(AWS, "titang1express", "Titan G1 Express", 8000, "Express embeddings"),
      ModelOption(AWS, "mistral-8x7b", "Mistral 8x7B", 128000, "Ensemble efficiency"),
      ModelOption(AWS, "claude3_5_sonnet", "Claude 3.5 Sonnet", 200000, "High-speed intelligent tasks"),
      ModelOption(AWS, "llama3_2-11b", "Llama 3.2 11B", 128000, "Vision-enabled chat"),
      ModelOption(OpenAI, "o1", "O1", 200000, "Recommended for reasoning"),
      ModelOption(OpenAI, "gpt4-32k", "GPT-4 32K", 32000, "Large context comprehension"),
      ModelOption(OpenAI, "gpt3_5-16k", "GPT-3.5 Turbo 16K", 16000, "Extended context chat"),
      ModelOption(OpenAI, "o3-mini", "O3 Mini", 200000, "Fast reasoning & chat"),
      ModelOption(OpenAI, "o3", "O3", 200000, "Recommended for complex reasoning"),
      ModelOption(OpenAI, "gpt4_1-nano", "GPT-4.1 Nano", 1000000, "Compact multimodal chat"),
      ModelOption(OpenAI, "gpt4_1", "GPT-4.1", 1000000, "Vision-enabled GPT-4"),
      ModelOption(OpenAI, "gpt4_1-mini", "GPT-4.1 Mini", 1000000, "Great for quick coding and analysis"),
      ModelOption(OpenAI, "gpt4o_mini", "GPT-4o Mini", 128000, "Cost effective for most tasks"),
      ModelOption(OpenAI, "gpt4o", "GPT-4o", 128000, "Great for most tasks"),
      ModelOption(OpenAI, "gpt4turbo", "GPT-4 Turbo", 128000, "Optimized GPT-4"),
      ModelOption(OpenAI, "gpt3_5", "GPT-3.5 Turbo", 4000, "Efficient chat model"),
      ModelOption(OpenAI, "o4-mini", "O4 Mini", 200000, "Cost-efficient reasoning"),
      ModelOption(Google, "gemini-2.5-flash", "Gemini 2.5 Flash", 1000000, "Adaptive thinking, cost efficiency"),
      ModelOption(Google, "gemini-2.0-flash", "Gemini 2.0 Flash", 1000000, "Next generation features, speed, and realtime streaming"),
      ModelOption(Google, "gemini-2.0-flash-lite", "Gemini 2.0 Flash-Lite", 1000000, "Cost efficiency and low latency"),
      ModelOption(Meta, "Llama-4-Maverick-17B-128E-Instruct-FP8", "Llama 4 Maverick 17B", 128000, "Industry-leading multimodal model with 128 experts"),
      ModelOption(Meta, "Llama-4-Scout-17B-16E-Instruct-FP8", "Llama 4 Scout 17B", 128000, "Class-leading multimodal model with superior intelligence")
    ]

  // ---- single-field assignments, the model of `{ ...p, [key]: value }` and of `Partial<Project>` ----

  datatype FieldKey =
    | IdField | ProjectNameField | DisplayNameField | DescriptionField | CategoryField
    | OwnerEmailField | ProfileImageField | EnableDictationField | SystemInstructionsField
    | ModelField | TemperatureField | OutputTokensField | RagField | MemoryField
    | KnowledgeBaseField | GeneralAccessField | InvitesField | ViewerConfigField
    | CreatedAtField | UpdatedAtField

  datatype FieldValue =
    | Id(string)
    | ProjectName(string)
    | DisplayName(string)
    | Description(string)
    | Category(Option<string>)
    | OwnerEmail(Option<string>)
    | ProfileImage(Option<string>)
    | EnableDictation(bool)
    | SystemInstructions(string)
    | ModelChoice(ModelOption)
    | Temperature(real)
    | OutputTokens(int)
    | Rag(RagSettings)
    | Memory(MemorySettings)
    | KnowledgeBase(seq<KnowledgeFile>)
    | GeneralAccess(Option<Access>)
    | Invites(Option<seq<Invite>>)
    | Viewer(ViewerConfig)
    | CreatedAt(string)
    | UpdatedAt(string)

  function KeyOf(v: FieldValue): FieldKey {
    match v
    case Id(_) => IdField
    case ProjectName(_) => ProjectNameField
    case DisplayName(_) => DisplayNameField
    case Description(_) => DescriptionField
    case Category(_) => CategoryField
    case OwnerEmail(_) => OwnerEmailField
    case ProfileImage(_) => ProfileImageField
    case EnableDictation(_) => EnableDictationField
    case SystemInstructions(_) => SystemInstructionsField
    case ModelChoice(_) => ModelField
    case Temperature(_) => TemperatureField
    case OutputTokens(_) => OutputTokensField
    case Rag(_) => RagField
    case Memory(_) => MemoryField
    case KnowledgeBase(_) => KnowledgeBaseField
    case GeneralAccess(_) => GeneralAccessField
    case Invites(_) => InvitesField
    case Viewer(_) => ViewerConfigField
    case CreatedAt(_) => CreatedAtField
    case UpdatedAt(_) => UpdatedAtField
  }

  /** `p[k]`, as a field value. */
  function FieldOf(p: Project, k: FieldKey): (v: FieldValue)
    ensures KeyOf(v) == k
  {
    match k
    case IdField => Id(p.id)
    case ProjectNameField => ProjectName(p.projectName)
    case DisplayNameField => DisplayName(p.displayName)
    case DescriptionField => Description(p.description)
    case CategoryField => Category(p.category)
    case OwnerEmailField => OwnerEmail(p.ownerEmail)
    case ProfileImageField => ProfileImage(p.profileImage)
    case EnableDictationField => EnableDictation(p.enableDictation)
    case SystemInstructionsField => SystemInstructions(p.systemInstructions)
    case ModelField => ModelChoice(p.model)
    case TemperatureField => Temperature(p.temperature)
    case OutputTokensField => OutputTokens(p.outputTokens)
    case RagField => Rag(p.rag)
    case MemoryField => Memory(p.memory)
    case KnowledgeBaseField => KnowledgeBase(p.knowledgeBase)
    case GeneralAccessField => GeneralAccess(p.generalAccess)
    case InvitesField => Invites(p.invites)
    case ViewerConfigField => Viewer(p.viewerConfig)
    case CreatedAtField => CreatedAt(p.createdAt)
    case UpdatedAtField => UpdatedAt(p.updatedAt)
  }

  /** `{ ...p, [key]: value }`: the assigned field reads back, every other field is unchanged. */
  function Assign(p: Project, v: FieldValue): (q: Project)
    ensures FieldOf(q, KeyOf(v)) == v
    ensures forall k :: k != KeyOf(v) ==> FieldOf(q, k) == FieldOf(p, k)
  {
    match v
    case Id(x) => p.(id := x)
    case ProjectName(x) => p.(projectName := x)
    case DisplayName(x) => p.(displayName := x)
    case Description(x) => p.(description := x)
    case Category(x) => p.(category := x)
    case OwnerEmail(x) => p.(ownerEmail := x)
    case ProfileImage(x) => p.(profileImage := x)
    case EnableDictation(x) => p.(enableDictation := x)
    case SystemInstructions(x) => p.(systemInstructions := x)
    case ModelChoice(x) => p.(model := x)
    case Temperature(x) => p.(temperature := x)
    case OutputTokens(x) => p.(outputTokens := x)
    case Rag(x) => p.(rag := x)
    case Memory(x) => p.(memory := x)
    case KnowledgeBase(x) => p.(knowledgeBase := x)
    case GeneralAccess(x) => p.(generalAccess := x)
    case Invites(x) => p.(invites := x)
    case Viewer(x) => p.(viewerConfig := x)
    case CreatedAt(x) => p.(createdAt := x)
    case UpdatedAt(x) => p.(updatedAt := x)
  }

  /** Two projects with the same value in every field are the same project. */
  lemma FieldsDetermineProject(p: Project, q: Project)
    requires forall k :: FieldOf(p, k) == FieldOf(q, k)
    ensures p == q
  {
    assert p.id == q.id by { assert FieldOf(p, IdField) == FieldOf(q, IdField); }
    assert p.projectName == q.projectName by { assert FieldOf(p, ProjectNameField) == FieldOf(q, ProjectNameField); }
    assert p.displayName == q.displayName by { assert FieldOf(p, DisplayNameField) == FieldOf(q, DisplayNameField); }
    assert p.description == q.description by { assert FieldOf(p, DescriptionField) == FieldOf(q, DescriptionField); }
    assert p.category == q.category by { assert FieldOf(p, CategoryField) == FieldOf(q, CategoryField); }
    assert p.ownerEmail == q.ownerEmail by { assert FieldOf(p, OwnerEmailField) == FieldOf(q, OwnerEmailField); }
    assert p.profileImage == q.profileImage by { assert FieldOf(p, ProfileImageField) == FieldOf(q, ProfileImageField); }
    assert p.enableDictation == q.enableDictation by { assert FieldOf(p, EnableDictationField) == FieldOf(q, EnableDictationField); }
    assert p.systemInstructions == q.systemInstructions by { assert FieldOf(p, SystemInstructionsField) == FieldOf(q, SystemInstructionsField); }
    assert p.model == q.model by { assert FieldOf(p, ModelField) == FieldOf(q, ModelField); }
    assert p.temperature == q.temperature by { assert FieldOf(p, TemperatureField) == FieldOf(q, TemperatureField); }
    assert p.outputTokens == q.outputTokens by { assert FieldOf(p, OutputTokensField) == FieldOf(q, OutputTokensField); }
    assert p.rag == q.rag by { assert FieldOf(p, RagField) == FieldOf(q, RagField); }
    assert p.memory == q.memory by { assert FieldOf(p, MemoryField) == FieldOf(q, MemoryField); }
    assert p.knowledgeBase == q.knowledgeBase by { assert FieldOf(p, KnowledgeBaseField) == FieldOf(q, KnowledgeBaseField); }
    assert p.generalAccess == q.generalAccess by { assert FieldOf(p, GeneralAccessField) == FieldOf(q, GeneralAccessField); }
    assert p.invites == q.invites by { assert FieldOf(p, InvitesField) == FieldOf(q, InvitesField); }
    assert p.viewerConfig == q.viewerConfig by { assert FieldOf(p, ViewerConfigField) == FieldOf(q, ViewerConfigField); }
    assert p.createdAt == q.createdAt by { assert FieldOf(p, CreatedAtField) == FieldOf(q, CreatedAtField); }
    assert p.updatedAt == q.updatedAt by { assert FieldOf(p, UpdatedAtField) == FieldOf(q, UpdatedAtField); }
  }

  /** Assigning a field the value it already holds changes nothing. */
  lemma AssignOwnValue(p: Project, k: FieldKey)
    ensures Assign(p, FieldOf(p, k)) == p
  {
    var q := Assign(p, FieldOf(p, k));
    forall k' ensures FieldOf(q, k') == FieldOf(p, k') { }
    FieldsDetermineProject(q, p);
  }

  /** A `Partial<Project>`: the fields it sets, in the order they are written. */
  type Partial = seq<FieldValue>

  /** `{ ...p, ...partial }`. */
  function Spread(p: Project, partial: Partial): Project
    decreases |partial|
  {
    if partial == [] then p else Spread(Assign(p, partial[0]), partial[1..])
  }

  /** The value a partial gives to field `k`: the last one it writes, if any. */
  function LastFor(partial: Partial, k: FieldKey): (r: Option<FieldValue>)
    ensures r.Some? ==> r.value in partial && KeyOf(r.value) == k
    ensures r.None? <==> forall i :: 0 <= i < |partial| ==> KeyOf(partial[i]) != k
  {
    if partial == [] then None
    else if KeyOf(partial[|partial| - 1]) == k then Some(partial[|partial| - 1])
    else LastFor(partial[..|partial| - 1], k)
  }

  /** The last write to a field is the value the partial gives it. */
  lemma {:induction false} LastForAt(partial: Partial, k: FieldKey, i: nat)
    requires i < |partial| && KeyOf(partial[i]) == k
    requires forall j :: i < j < |partial| ==> KeyOf(partial[j]) != k
    ensures LastFor(partial, k) == Some(partial[i])
    decreases |partial|
  {
    if i < |partial| - 1 {
      LastForAt(partial[..|partial| - 1], k, i);
    }
  }

  /** After a spread, each field holds the partial's last value for it, or its old value if the partial does not set it. */
  lemma {:induction false} SpreadField(p: Project, partial: Partial, k: FieldKey)
    ensures FieldOf(Spread(p, partial), k) == LastFor(partial, k).GetOr(FieldOf(p, k))
    decreases |partial|
  {
    if partial != [] {
      SpreadSnoc(p, partial[..|partial| - 1], partial[|partial| - 1]);
      assert partial == partial[..|partial| - 1] + [partial[|partial| - 1]];
      SpreadField(p, partial[..|partial| - 1], k);
    }
  }

  lemma {:induction false} SpreadSnoc(p: Project, partial: Partial, v: FieldValue)
    ensures Spread(p, partial + [v]) == Assign(Spread(p, partial), v)
    decreases |partial|
  {
    if partial != [] {
      assert (partial + [v])[1..] == partial[1..] + [v];
      SpreadSnoc(Assign(p, partial[0]), partial[1..], v);
    }
  }

  /** The project `createDefaultProject` builds before the partial is spread over it. */
  function Defaults(id: string, now: string): Project {
    Project(
      id := id,
      projectName := "Untitled Project",
      displayName := "My AI",
      description := "",
      category := None,
      ownerEmail := None,
      profileImage := None,
      enableDictation := false,
      systemInstructions := "",
      model := ModelOptions[0],
      temperature := 0.7,
      outputTokens := 1024,
      rag := RagSettings(false, Js.Finite(5.0), 800, 120),
      memory := MemorySettings(true, 20),
      knowledgeBase := [],
      generalAccess := Some(Private),
      invites := Some([]),
      viewerConfig := ViewerConfig(
        enableChat := true, showDescription := true, allowFileUpload := false,
        allowDictation := false, exposeModelPicker := false, exposeTemperature := false),
      createdAt := now,
      updatedAt := now)
  }

  /**
   * `createDefaultProject(partial)`, with the generated id and the current time
   * passed in. Every field the partial leaves alone holds its default; every
   * field it sets, the id included, takes the partial's last value.
   */
  function CreateDefaultProject(id: string, now: string, partial: Partial): (p: Project)
    ensures forall k :: LastFor(partial, k).None? ==> FieldOf(p, k) == FieldOf(Defaults(id, now), k)
    ensures forall k :: LastFor(partial, k).Some? ==> FieldOf(p, k) == LastFor(partial, k).value
  {
    var p := Spread(Defaults(id, now), partial);
    forall k ensures FieldOf(p, k) == LastFor(partial, k).GetOr(FieldOf(Defaults(id, now), k)) {
      SpreadField(Defaults(id, now), partial, k);
    }
    p
  }

  /** With no partial: the first catalogue model, private sharing, no invites, equal timestamps, and the documented numbers. */
  lemma CreateDefaultProjectDefaults(id: string, now: string)
    ensures var p := CreateDefaultProject(id, now, []);
      && p.id == id
      && p.model == ModelOptions[0] && p.model.id == "claude3_opus"
      && p.generalAccess == Some(Private) && p.invites == Some([])
      && p.createdAt == p.updatedAt == now
      && p.temperature == 0.7 && p.outputTokens == 1024
      && p.rag == RagSettings(false, Js.Finite(5.0), 800, 120)
      && p.memory == MemorySettings(true, 20)
      && p.viewerConfig.enableChat && p.viewerConfig.showDescription
      && !p.viewerConfig.allowFileUpload && !p.viewerConfig.allowDictation
      && !p.viewerConfig.exposeModelPicker && !p.viewerConfig.exposeTemperature
      && p.knowledgeBase == []
  {
    var p := CreateDefaultProject(id, now, []);
    assert FieldOf(p, IdField) == FieldOf(Defaults(id, now), IdField);
    assert FieldOf(p, ModelField) == FieldOf(Defaults(id, now), ModelField);
    assert FieldOf(p, GeneralAccessField) == FieldOf(Defaults(id, now), GeneralAccessField);
    assert FieldOf(p, InvitesField) == FieldOf(Defaults(id, now), InvitesField);
    assert FieldOf(p, CreatedAtField) == FieldOf(Defaults(id, now), CreatedAtField);
    assert FieldOf(p, UpdatedAtField) == FieldOf(Defaults(id, now), UpdatedAtField);
    assert FieldOf(p, TemperatureField) == FieldOf(Defaults(id, now), TemperatureField);
    assert FieldOf(p, OutputTokensField) == FieldOf(Defaults(id, now), OutputTokensField);
    assert FieldOf(p, RagField) == FieldOf(Defaults(id, now), RagField);
    assert FieldOf(p, MemoryField) == FieldOf(Defaults(id, now), MemoryField);
    assert FieldOf(p, ViewerConfigField) == FieldOf(Defaults(id, now), ViewerConfigField);
    assert FieldOf(p, KnowledgeBaseField) == FieldOf(Defaults(id, now), KnowledgeBaseField);
  }

  /** A partial that sets `id` overrides the generated id, because the spread comes last. */
  lemma PartialOverridesId(id: string, now: string, other: string)
    ensures CreateDefaultProject(id, now, [Id(other)]).id == other
  {
    var p := CreateDefaultProject(id, now, [Id(other)]);
    assert LastFor([Id(other)], IdField) == Some(Id(other));
    assert FieldOf(p, IdField) == Id(other);
  }

  /** `createDefaultProject({ projectName: name })`, the call the store makes. */
  lemma NamedDefaultProject(id: string, now: string, name: string)
    ensures var p := CreateDefaultProject(id, now, [ProjectName(name)]);
      p.projectName == name && p.id == id && p.displayName == "My AI" && p.createdAt == p.updatedAt == now
  {
    var p := CreateDefaultProject(id, now, [ProjectName(name)]);
    assert LastFor([ProjectName(name)], ProjectNameField) == Some(ProjectName(name));
    assert FieldOf(p, ProjectNameField) == ProjectName(name);
    assert FieldOf(p, IdField) == Id(id);
    assert FieldOf(p, DisplayNameField) == DisplayName("My AI");
    assert FieldOf(p, CreatedAtField) == CreatedAt(now);
    assert FieldOf(p, UpdatedAtField) == UpdatedAt(now);
  }
}

=== FILE: viewer.dfy ===
/**
 * The viewer page: what `send` asks the model (the effective project, the
 * attachment note, the remembered history), how picked files become
 * attachments, and when the viewer's model and temperature controls are
 * written back to the project. The reply is `Infer.ChatOnce` on an HTTP
 * outcome given as a parameter; reading a file's text is an input too.
 */
module Viewer {
  import opened Wrappers
  import opened Text
  import opened Js
  import opened Types
  import opened Infer

  // ---- the effective project ----

  /** Position of the first catalogue entry with this id, or -1. */
  function ModelIndex(ms: seq<ModelOption>, id: string): (i: int)
    ensures -1 <= i < |ms|
    ensures i >= 0 ==> ms[i].id == id && forall j :: 0 <= j < i ==> ms[j].id != id
    ensures i == -1 ==> forall j :: 0 <= j < |ms| ==> ms[j].id != id
  {
    if ms == [] then -1
    else if ms[0].id == id then 0
    else
      var k := ModelIndex(ms[1..], id);
      assert forall j :: 1 <= j < |ms| ==> ms[j] == ms[1..][j - 1];
      if k < 0 then -1 else k + 1
  }

  /** `MODEL_OPTIONS.find(m => m.id === id)`. */
  function FindModel(id: string): (r: Option<ModelOption>)
    ensures r.Some? ==> r.value in ModelOptions && r.value.id == id
    ensures r.None? <==> forall j :: 0 <= j < |ModelOptions| ==> ModelOptions[j].id != id
  {
    var i := ModelIndex(ModelOptions, id);
    if i < 0 then None else Some(ModelOptions[i])
  }

  /**
   * The project the chat is sent with: the viewer's model choice when the
   * picker is exposed and the id is in the catalogue, the viewer's temperature
   * when that control is exposed, and the project otherwise.
   */
  function Effective(p: Project, userModelId: string, userTemp: real): (e: Project)
    ensures p.viewerConfig.exposeModelPicker && FindModel(userModelId).Some? ==> e.model.id == userModelId && e.model in ModelOptions
    ensures !p.viewerConfig.exposeModelPicker || FindModel(userModelId).None? ==> e.model == p.model
    ensures e.temperature == if p.viewerConfig.exposeTemperature then userTemp else p.temperature
  {
    var model := if p.viewerConfig.exposeModelPicker then FindModel(userModelId).GetOr(p.model) else p.model;
    var temperature := if p.viewerConfig.exposeTemperature then userTemp else p.temperature;
    p.(model := model, temperature := temperature)
  }

  /** The viewer's controls touch only the model and the temperature: every other field goes out as stored. */
  lemma EffectiveKeepsOtherFields(p: Project, userModelId: string, userTemp: real)
    ensures forall k :: k != ModelField && k != TemperatureField ==> FieldOf(Effective(p, userModelId, userTemp), k) == FieldOf(p, k)
  {
    var e := Effective(p, userModelId, userTemp);
    ModelTemperatureFrame(p, e.model, e.temperature);
  }

  /** Setting the model and the temperature leaves every other field as it was. */
  lemma ModelTemperatureFrame(p: Project, m: ModelOption, t: real)
    ensures forall k :: k != ModelField && k != TemperatureField ==> FieldOf(p.(model := m, temperature := t), k) == FieldOf(p, k)
  {
  }

  /** Setting the model and the timestamp leaves every other field as it was. */
  lemma ModelStampFrame(p: Project, m: ModelOption, now: string)
    ensures forall k :: k != ModelField && k != UpdatedAtField ==> FieldOf(p.(model := m, updatedAt := now), k) == FieldOf(p, k)
  {
  }

  /** Setting the temperature and the timestamp leaves every other field as it was. */
  lemma TemperatureStampFrame(p: Project, t: real, now: string)
    ensures forall k :: k != TemperatureField && k != UpdatedAtField ==> FieldOf(p.(temperature := t, updatedAt := now), k) == FieldOf(p, k)
  {
  }

  /** With neither control exposed, the chat goes out with the project exactly as stored. */
  lemma EffectiveWithoutControls(p: Project, userModelId: string, userTemp: real)
    requires !p.viewerConfig.exposeModelPicker && !p.viewerConfig.exposeTemperature
    ensures Effective(p, userModelId, userTemp) == p
  {
  }

  // ---- attachments ----

  /** A file kept for context: its name, its type ('unknown' when blank) and its text, if any was read. */
  datatype Attachment = Attachment(name: string, mime: string, text: Option<string>)

  const TruncationMark := "\n[truncated]"
  const MaxExcerpt := 2000

  /**
   * The text an attachment contributes: '(no text extracted)' when there is
   * none (or it is empty), its first 2000 characters and a truncation mark
   * when it is longer, and the whole text otherwise.
   */
  function Excerpt(text: Option<string>): (body: string)
    ensures text.GetOr("") == "" ==> body == "(no text extracted)"
    ensures text.GetOr("") != "" ==> |body| <= MaxExcerpt + |TruncationMark|
    ensures text.GetOr("") != "" && |text.value| <= MaxExcerpt ==> body == text.value
    ensures text.GetOr("") != "" && |text.value| > MaxExcerpt ==>
      |body| == MaxExcerpt + |TruncationMark| && body[..MaxExcerpt] == text.value[..MaxExcerpt] && body[MaxExcerpt..] == TruncationMark
  {
    if text.None? || text.value == "" then "(no text extracted)"
    else if |text.value| > MaxExcerpt then text.value[..MaxExcerpt] + TruncationMark
    else text.value
  }

  /** One attachment's block in the note. */
  function Summary(a: Attachment): (s: string)
    ensures StartsWith(s, "\n---\nFile: " + a.name)
  {
    "\n---\nFile: " + a.name + " (" + a.mime + ")\n" + Excerpt(a.text)
  }

  /** The blocks of all attachments, in order, with nothing between them. */
  function Summaries(atts: seq<Attachment>): (s: string)
    ensures atts != [] ==> StartsWith(s, Summary(atts[0]))
    ensures atts == [] ==> s == ""
  {
    if atts == [] then "" else Summary(atts[0]) + Summaries(atts[1..])
  }

  const AttachmentHeader := "\n\n[Attachments for context]"

  /** The note appended to the user turn: nothing without attachments, the header and every block otherwise. */
  function AttachmentNote(atts: seq<Attachment>): (note: string)
    ensures note == "" <==> atts == []
    ensures atts != [] ==> StartsWith(note, AttachmentHeader) && note[|AttachmentHeader|..] == Summaries(atts)
  {
    if atts == [] then "" else AttachmentHeader + Summaries(atts)
  }

  // ---- the remembered history ----

  /** `Math.max(1, Math.min(window, length))`. */
  function KeepCount(window: int, length: nat): (keep: nat)
    ensures 1 <= keep
    ensures length >= 1 ==> keep <= length
    ensures 1 <= window <= length ==> keep == window
    ensures window > length >= 1 ==> keep == length
  {
    var m := if window < length then window else length;
    if m < 1 then 1 else m
  }

  /**
   * The messages sent: the prior turns followed by the new user turn, cut to
   * the memory window when memory is on and to the new turn alone when it is
   * off.
   */
  function HistoryToSend(memory: MemorySettings, prior: seq<ChatMessage>, turn: ChatMessage): (hist: seq<ChatMessage>)
    ensures 1 <= |hist| <= |prior| + 1
    ensures hist[|hist| - 1] == turn
    ensures hist == (prior + [turn])[|prior| + 1 - |hist|..]
    ensures memory.enabled ==> |hist| == KeepCount(memory.window, |prior| + 1)
    ensures !memory.enabled ==> hist == [turn]
  {
    var raw := prior + [turn];
    var keep := if memory.enabled then KeepCount(memory.window, |raw|) else 1;
    raw[|raw| - keep..]
  }

  /** A window at least as long as the conversation sends the whole conversation. */
  lemma WideWindowSendsAll(memory: MemorySettings, prior: seq<ChatMessage>, turn: ChatMessage)
    requires memory.enabled && memory.window > |prior|
    ensures HistoryToSend(memory, prior, turn) == prior + [turn]
  {
  }

  /** A window of zero or less still sends the new turn. */
  lemma EmptyWindowSendsTurn(memory: MemorySettings, prior: seq<ChatMessage>, turn: ChatMessage)
    requires memory.enabled && memory.window <= 1
    ensures HistoryToSend(memory, prior, turn) == [turn]
  {
  }

  // ---- picked files ----

  /** A picked file: its name, type and size, and what reading its text would give (None when reading fails). */
  datatype PickedFile = PickedFile(name: string, mime: string, size: int, contents: Option<string>)

  const TextTypes: seq<string> := ["text/", "application/json", "application/xml", "application/javascript"]
  const MaxTextSize := 2000000

  /** The type starts with one of the text-like prefixes. */
  predicate IsTextType(mime: string) {
    exists i :: 0 <= i < |TextTypes| && StartsWith(mime, TextTypes[i])
  }

  /** The attachment a picked file becomes: text is read only for text-like types of at most 2,000,000 bytes. */
  function ToAttachment(f: PickedFile): (a: Attachment)
    ensures a.name == f.name
    ensures a.mime == if f.mime == "" then "unknown" else f.mime
    ensures a.text.Some? ==> IsTextType(f.mime) && f.size <= MaxTextSize && a.text == f.contents
    ensures IsTextType(f.mime) && f.size <= MaxTextSize ==> a.text == f.contents
  {
    var text := if IsTextType(f.mime) && f.size <= MaxTextSize then f.contents else None;
    Attachment(f.name, if f.mime == "" then "unknown" else f.mime, text)
  }

  /** Images and other binary types are attached without text, whatever their size. */
  lemma ImagesCarryNoText(f: PickedFile)
    requires StartsWith(f.mime, "image/")
    ensures ToAttachment(f).text.None?
  {
    forall i | 0 <= i < |TextTypes| ensures !StartsWith(f.mime, TextTypes[i]) {
      assert f.mime[0] == 'i';
      assert TextTypes[i][0] != 'i';
    }
  }

  // ---- writing viewer choices back to the project ----

  /**
   * The model effect: with the picker exposed and a catalogue model chosen
   * whose id differs from the project's, the project with that model and a
   * new timestamp; otherwise no update.
   */
  function ModelWriteBack(p: Project, userModelId: string, now: string): (r: Option<Project>)
    ensures r.Some? <==> p.viewerConfig.exposeModelPicker && FindModel(userModelId).Some? && userModelId != p.model.id
    ensures r.Some? ==> r.value.model.id == userModelId && r.value.model in ModelOptions && r.value.updatedAt == now
    ensures r.Some? ==> forall k :: k != ModelField && k != UpdatedAtField ==> FieldOf(r.value, k) == FieldOf(p, k)
  {
    if !p.viewerConfig.exposeModelPicker then None
    else
      match FindModel(userModelId)
      case None => None
      case Some(m) =>
        if m.id != p.model.id then
          ModelStampFrame(p, m, now);
          Some(p.(model := m, updatedAt := now))
        else None
  }

  /** The temperature effect: with that control exposed and a different value, the project with it and a new timestamp. */
  function TemperatureWriteBack(p: Project, userTemp: real, now: string): (r: Option<Project>)
    ensures r.Some? <==> p.viewerConfig.exposeTemperature && userTemp != p.temperature
    ensures r.Some? ==> r.value.temperature == userTemp && r.value.updatedAt == now
    ensures r.Some? ==> forall k :: k != TemperatureField && k != UpdatedAtField ==> FieldOf(r.value, k) == FieldOf(p, k)
  {
    TemperatureStampFrame(p, userTemp, now);
    if p.viewerConfig.exposeTemperature && userTemp != p.temperature then Some(p.(temperature := userTemp, updatedAt := now)) else None
  }

  /** Each write-back settles: once the project holds the viewer's choice, the effect issues no further update. */
  lemma WriteBackSettles(p: Project, userModelId: string, userTemp: real, now: string, later: string)
    ensures ModelWriteBack(p, userModelId, now).Some? ==> ModelWriteBack(ModelWriteBack(p, userModelId, now).value, userModelId, later).None?
    ensures TemperatureWriteBack(p, userTemp, now).Some? ==> TemperatureWriteBack(TemperatureWriteBack(p, userTemp, now).value, userTemp, later).None?
  {
  }

  /** `!s.trim()`: the text trims to nothing exactly when it is blank. */
  method TrimsToNothing(s: string) returns (b: bool)
    ensures b <==> Blank(s)
  {
    TrimEmptyIffBlank(s);
    b := Trim(s) == "";
  }

  /** The state of one open viewer. */
  class ViewerSession {
    var input: string
    var messages: seq<ChatMessage>
    var busy: bool
    var attachments: seq<Attachment>
    var userModelId: string
    var userTemp: real

    /** A fresh viewer starts from the project's own model and temperature. */
    constructor(p: Project)
      ensures input == "" && messages == [] && !busy && attachments == []
      ensures userModelId == p.model.id && userTemp == p.temperature
    {
      input := "";
      messages := [];
      busy := false;
      attachments := [];
      userModelId := p.model.id;
      userTemp := p.temperature;
    }

    /**
     * `send()`. Whitespace-only input (`!input.trim()`, see
     * `Text.TrimEmptyIffBlank`) changes nothing. Otherwise the typed
     * message is shown, the input cleared, and the history is sent with the
     * attachment note on the new turn; a reply is shown and the attachments
     * dropped, while a thrown error leaves only the user's message. `chat`
     * is `chatOnce`, that is `Infer.ChatOnce` with the host, the stored keys
     * and the provider's answer fixed.
     */
    method Send(p: Project, chat: (Project, seq<ChatMessage>) -> Result<string>) returns (sent: Option<seq<ChatMessage>>)
      modifies this
      ensures Blank(old(input)) ==> (sent.None? && input == old(input) && messages == old(messages)
        && attachments == old(attachments) && busy == old(busy))
      ensures !Blank(old(input)) ==>
        var e := Effective(p, old(userModelId), old(userTemp));
        var hist := HistoryToSend(e.memory, old(messages), ChatMessage(User, old(input) + AttachmentNote(old(attachments))));
        var reply := chat(e, hist);
        && sent == Some(hist)
        && input == "" && !busy
        && messages == old(messages) + [ChatMessage(User, old(input))] + (if reply.Ok? then [ChatMessage(Assistant, reply.value)] else [])
        && attachments == (if reply.Ok? then [] else old(attachments))
      ensures userModelId == old(userModelId) && userTemp == old(userTemp)
    {
      var blank := TrimsToNothing(input);
      if blank {
        return None;
      }
      var text := input;
      var prior := messages;
      messages := messages + [ChatMessage(User, text)];
      input := "";
      busy := true;
      var e := Effective(p, userModelId, userTemp);
      var note := AttachmentNote(attachments);
      var hist := HistoryToSend(e.memory, prior, ChatMessage(User, text + note));
      sent := Some(hist);
      var reply := chat(e, hist);
      if reply.Ok? {
        messages := messages + [ChatMessage(Assistant, reply.value)];
        attachments := [];
      }
      busy := false;
    }

    /** `onFiles(files)`: nothing for an empty pick; otherwise one attachment per file, in order, after the existing ones. */
    method OnFiles(files: seq<PickedFile>)
      modifies this
      ensures |attachments| == |old(attachments)| + |files|
      ensures attachments[..|old(attachments)|] == old(attachments)
      ensures forall j :: 0 <= j < |files| ==> attachments[|old(attachments)| + j] == ToAttachment(files[j])
      ensures input == old(input) && messages == old(messages) && busy == old(busy)
      ensures userModelId == old(userModelId) && userTemp == old(userTemp)
    {
      if files == [] {
        return;
      }
      var out: seq<Attachment> := [];
      var i := 0;
      while i < |files|
        invariant 0 <= i <= |files|
        invariant |out| == i
        invariant forall j :: 0 <= j < i ==> out[j] == ToAttachment(files[j])
      {
        var f := files[i];
        var text: Option<string> := None;
        if IsTextType(f.mime) && f.size <= MaxTextSize {
          text := f.contents;
        }
        out := out + [Attachment(f.name, if f.mime == "" then "unknown" else f.mime, text)];
        i := i + 1;
      }
      attachments := attachments + out;
    }
  }
}

=== FILE: wrappers.dfy ===
/** Option and Result values used where the source returns `undefined`/`null` or throws. */
module Wrappers {

  datatype Option<+T> = None | Some(value: T) {
    /** `x ?? d`: the value if present, the default otherwise. */
    function GetOr(default: T): T {
      match this
      case Some(v) => v
      case None => default
    }

    predicate IsFailure() {
      None?
    }

    function PropagateFailure<U>(): Option<U>
      requires None?
    {
      None
    }

    function Extract(): T
      requires Some?
    {
      value
    }
  }

  /** A value or the message of the `Error` the source throws. */
  datatype Result<+R> = Ok(value: R) | Err(message: string)

  /** Every value, if all are present; None as soon as one is missing (the first throw aborts a `map`). */
  function AllSome<T>(os: seq<Option<T>>): (r: Option<seq<T>>)
    ensures r.Some? <==> forall i :: 0 <= i < |os| ==> os[i].Some?
    ensures r.Some? ==> |r.value| == |os| && forall i :: 0 <= i < |os| ==> os[i] == Some(r.value[i])
  {
    if os == [] then Some([])
    else match os[0]
      case None => None
      case Some(x) =>
        match AllSome(os[1..])
        case None => None
        case Some(rest) => Some([x] + rest)
  }
}
